=== FILE: README.md ===
# nautylus core, modelled in Dafny

nautylus is a small embedded graph-and-vector store written in C. This project models its
core and proves properties of that model:

- the generational id scheme (`ids.h`);
- the slab allocator every entity lives in (`slab.c`);
- the graph store (`graph.c`): nodes, edges and properties in slabs, each entity kind with
  a creation-order array, and every node heading two intrusive doubly linked edge lists
  (outgoing and incoming);
- the vector index with its exact k-nearest-neighbour query (`vector.c`);
- the jsmn JSON tokenizer (`jsmn.c`);
- the command-line helpers `validate_config`, `find_query_param`, `trim` and `json_skip`,
  and the result-filtering loop of `demo_query` (`nautylus_cli.c`).

State is immutable. Every C function that mutates becomes a pure function returning the
new state, plus the C return value. Modules follow the program's files:

| module | file | models |
|---|---|---|
| `Common` | common.dfy | sequence helpers: `Filter`, `RemoveFirst`, `Distinct`, `CountTrue` |
| `Ids` | ids.dfy | the 64-bit id: generation in the high 32 bits, slot index + 1 in the low 32 |
| `Slab` | slab.dfy | `nty_slab_*`: occupied flags, generations, LIFO free list, `count` |
| `Graph` | graph.dfy | `nty_graph_*`, `nty_node_*`, `nty_edge_*`, `nty_property_*`, iterators |
| `GraphLists` | graph_lists.dfy | what a well-linked adjacency list is; linking and splicing one |
| `GraphValid` | graph_valid.dfy | the store invariant; creation of the store, nodes and properties |
| `GraphMutate` | graph_mutate.dfy | edge creation, edge destruction, the cascading node destruction |
| `GraphIter` | graph_iter.dfy | what the entity and neighbour iterators yield on a valid store |
| `Vector` | vector.dfy | `nty_vector_index_*`, `nty_candidate_cmp`, kNN |
| `Jsmn` | jsmn.dfy | `jsmn_init`, `jsmn_parse` and its token helpers |
| `Cli` | cli.dfy | the command-line helpers named above |

Each live node owns two adjacency lists. The store invariant (`GraphValid.Valid`) ties each
list to a ghost sequence: the live edges that leave (or enter) the node, filtered from the
edge creation-order array. Every mutation is proved to keep that invariant. The
iterator lemmas then turn it into what a caller observes.

The slab invariant (`Slab.ValidWith`) names the free list explicitly as a sequence of slot
indices. The tokenizer invariant (`Jsmn.Valid`) says three things about the token array:

- each token's span is what the text gives it;
- each container's `size` counts the tokens whose innermost open container it is;
- `toksuper` is the innermost container still open.

## Model

| member | source | states |
|---|---|---|
| Ids.MakeId | src/slab.c:81-83 | an issued id is never 0 and decodes to the generation and index it was built from |
| Ids.MakeIdInjective | include/nautylus/ids.h:13-20 | two ids built from (generation, index) pairs are equal exactly when both pairs are equal |
| Ids.IndexOf | include/nautylus/ids.h:13-16 | the slot index: the low 32 bits minus one, with `UINT32_MAX` as the sentinel for zero low bits; its properties are stated by `Ids.ZeroLowBitsNameNoSlot`, `Ids.EncodeDecode` and `Ids.MakeId` |
| Ids.GenerationOf | include/nautylus/ids.h:18-20 | the high 32 bits; `Ids.MakeId` and `Ids.EncodeDecode` state that it recovers the generation an id was built with |
| Ids.ZeroLowBitsNameNoSlot | include/nautylus/ids.h:13-16 | an id whose low 32 bits are zero, 0 among them, decodes to the sentinel index and so names no slot |
| Ids.EncodeDecode | include/nautylus/ids.h:13-20 | an id that names a slot is rebuilt exactly from its decoded generation and index |
| Slab.NextGeneration | src/slab.c:71-72 | the new generation always differs from the slot's old one, and is 0 only after the 32-bit wrap of 0xFFFFFFFF |
| Slab.Init | src/slab.c:8-28 | init fails exactly when the item size or the capacity is 0; otherwise the slab is valid, empty, and no id exists in it |
| Slab.Get | src/slab.c:110-130 | get yields a record exactly for an id that exists, and the record is the one in that id's slot |
| Slab.Exists | src/slab.c:132-144 | the index, occupancy and generation tests; `Slab.Get` states that a record is read exactly for such ids, `Slab.ExistsSameIndex` that at most one id per slot passes, and `Slab.StaleIdRejected` that a freed id fails them |
| Slab.NextIndex | src/slab.c:49-59 | no slot exactly when the free list is empty and every slot has been used; otherwise a slot index below the capacity |
| Slab.Alloc | src/slab.c:61-84 | alloc returns 0 and changes nothing when no slot is left; otherwise it reuses the most recently freed slot before an unused one, bumps that slot's generation, and the new id exists and reads back its record |
| Slab.Free | src/slab.c:86-108 | free succeeds exactly for an existing id; afterwards that id no longer exists, its slot heads the free list, the occupied count drops by one, and every other id is untouched |
| Slab.ExistsSameIndex | src/slab.c:132-144 | two ids that both exist in one slot are the same nonzero id |
| Slab.AllocFailsOnlyWhenFull | src/slab.c:49-69 | on a valid slab, alloc fails exactly when `count` has reached the capacity |
| Slab.AllocFrame | src/slab.c:61-84 | a successful alloc issues an id that did not exist, adds exactly that id, and leaves every other id's record alone |
| Slab.AllocKeepsValidAny | src/slab.c:61-84 | alloc keeps the slab invariant (count equals occupied slots; the free list holds exactly the freed slots below `next_unused`) and adds exactly the new id |
| Slab.FreeKeepsValid | src/slab.c:101-107 | a successful free pushes the slot onto the free list, keeps the invariant and decrements `count` |
| Slab.FreeKeepsValidAny | src/slab.c:86-108 | free, successful or not, keeps the slab invariant |
| Slab.ReleaseValid | src/slab.c:103-106 | clearing an occupied slot and pushing it on the free list keeps the invariant with one fewer live slot |
| Slab.StaleIdRejected | src/slab.c:71-73 | after an id is freed and its slot reallocated, the old id no longer exists, differs from the new id and cannot be freed |
| Graph.NodeGet | src/graph.c:323-334 | a node record is returned exactly for a live node id, and it is that node's record |
| Graph.EdgeGet | src/graph.c:336-347 | an edge record is returned exactly for a live edge id, and it is that edge's record |
| Graph.PropertyGet | src/graph.c:349-362 | a property record is returned exactly for a live property id |
| Graph.OrderAppend | src/graph.c:36-46 | appending fails exactly when the array is full; otherwise the id is added at the end and the rest is kept |
| Graph.OrderRemove | src/graph.c:48-62 | only the first occurrence of the id is deleted and the rest keep their order; an absent id leaves the array as it was |
| Graph.GraphCreate | src/graph.c:64-95 | creation fails exactly when a capacity is 0 after the 32-bit cast; a new store is empty |
| Graph.NodeCreate | src/graph.c:156-172 | a new node is live with empty lists and is appended to the node order; edges and properties are untouched |
| Graph.EdgeCreate | src/graph.c:195-249 | an edge between endpoints that are not both live is refused with no change; a new edge is live, joins its endpoints, and is appended to the edge order |
| Graph.EdgeDestroy | src/graph.c:251-265 | destruction succeeds exactly for a live edge, which is then gone from the slab and the edge order; nodes and properties keep their liveness |
| Graph.Unlink | src/graph.c:97-141 | unlinking changes neither liveness nor the order arrays; what it does to the lists is stated by `GraphLists.UnlinkEffect`, `GraphLists.UnlinkOwn` and `GraphMutate.UnlinkStep` |
| Graph.Drain | src/graph.c:182-187 | the drain keeps node liveness, properties and the node and property orders, and only removes edges; `GraphMutate.DrainValid` states which edges go on a valid store |
| Graph.NodeDestroy | src/graph.c:174-193 | destruction succeeds exactly for a live node, which is then gone and dropped from the node order; other nodes keep their liveness |
| Graph.PropertyCreate | src/graph.c:267-289 | a new property is live, holds the given owner, key and value, and is appended to the property order |
| Graph.PropertyDestroy | src/graph.c:291-300 | destruction succeeds exactly for a live property, which is then gone and dropped from the property order |
| Graph.IterNext | src/graph.c:397-443 | the entity iterator yields the next array entry that is still live and skips exactly the dead ones before it |
| Graph.NodeCount | src/graph.c:364-366 | the live node count; `GraphIter.IteratorsValid` states that it equals the number of nodes the iterator yields |
| Graph.EdgeCount | src/graph.c:368-370 | the live edge count; `GraphIter.IteratorsValid` states that it equals the number of edges the iterator yields |
| Graph.PropertyCount | src/graph.c:372-374 | the live property count; `GraphIter.IteratorsValid` states that it equals the number of properties the iterator yields |
| Graph.NeighborStart | src/graph.c:445-468 | a walk starts at the node's head in that direction, or at 0 for a node that does not exist; see `GraphIter.NeighborsValid` |
| Graph.NeighborNext | src/graph.c:470-486 | the neighbour iterator stops exactly at 0 or at an edge id that no longer exists |
| Graph.Walk | src/graph.c:470-486 | the edges yielded by repeated `nty_neighbor_iter_next` calls; `GraphIter.WalkList` states that on a well-linked list they are the rest of the list |
| Graph.Neighbors | src/graph.c:445-486 | a full neighbour walk; `GraphIter.NeighborsValid` states that on a valid store it yields exactly the live edges leaving (entering) the node, in creation order |
| GraphLists.LinkTailOwn | src/graph.c:220-241 | linking an edge at the tail of a node's list extends that list by exactly the edge |
| GraphLists.LinkTailOther | src/graph.c:220-241 | linking at one node's tail leaves every other node's list in that direction as it was |
| GraphLists.UnlinkEffect | src/graph.c:97-141 | unlinking patches exactly the neighbour links, or the node's head and tail, around the removed edge |
| GraphLists.UnlinkOwn | src/graph.c:97-141 | unlinking removes the edge from its owner's list and keeps the rest of that list in order |
| GraphLists.UnlinkOther | src/graph.c:97-141 | unlinking leaves every other node's list in that direction as it was |
| GraphValid.AdjFacts | src/graph.c:220-241 | a node's list has no repeats and holds exactly the live edges it owns in that direction |
| GraphValid.GraphCreateValid | src/graph.c:64-95 | a created store satisfies the store invariant and its node and edge iterators yield nothing |
| GraphValid.NodeCreateValid | src/graph.c:156-172 | node creation keeps the invariant and fails exactly when the node slab is full; the order-array rollback cannot happen; the new node was not live before and owns no edge |
| GraphValid.PropertyCreateValid | src/graph.c:267-289 | property creation keeps the invariant and fails, with no change, exactly when the property slab is full |
| GraphValid.PropertyDestroyValid | src/graph.c:291-300 | property destruction keeps the invariant |
| GraphMutate.LinkStep | src/graph.c:220-241 | linking a new edge at a node's tail extends that one list, leaves every other list alone, and changes no payload or liveness |
| GraphMutate.UnlinkStep | src/graph.c:97-141 | unlinking an edge removes it from the one list that holds it and leaves every other list alone |
| GraphMutate.EdgeCreateValid | src/graph.c:195-249 | edge creation keeps the invariant; it fails, with no change, exactly when an endpoint is not live or the edge slab is full; a new edge lands at the end of `from`'s out-list and of `to`'s in-list, and every other list is unchanged |
| GraphMutate.EdgeDestroyValid | src/graph.c:251-265 | edge destruction keeps the invariant, takes the edge out of exactly the lists that held it, and changes no other edge's payload |
| GraphMutate.DrainValid | src/graph.c:178-190 | on a valid store the head-rereading loop of node destruction removes exactly the edges the node owns in that direction, keeps the others in creation order, and keeps the invariant |
| GraphMutate.NodeDestroyCascade | src/graph.c:178-192 | the two drains together leave exactly the edges that neither leave nor enter the node, in their old order |
| GraphMutate.NodeDestroyValid | src/graph.c:174-193 | node destruction keeps the invariant; the edges left are exactly the old ones not incident to the node, in creation order |
| GraphIter.IterAllLive | src/graph.c:397-443 | iterating from any position yields the still-live ids after it, in array order |
| GraphIter.IterAllValid | src/graph.c:376-443 | on a slab in step with its order array, iteration yields every live id once, oldest first, as many as the slab counts |
| GraphIter.IteratorsValid | src/graph.c:364-443 | on a valid store the node, edge and property iterators yield exactly the live ids, in creation order, as many as the counts report |
| GraphIter.WalkList | src/graph.c:470-486 | following next links from a position in a well-linked list yields the rest of that list |
| GraphIter.NeighborsValid | src/graph.c:445-486 | on a valid store a node's out (in) walk yields exactly the live edges leaving (entering) it, in creation order, and nothing for a node that does not exist |
| GraphIter.WalkConsistent | tests/c/test_graph.c:62-89 | on a valid store every iterated edge has two live endpoints, and every edge reached from a node's out (in) walk has that node as `from` (`to`) |
| Vector.Create | src/vector.c:15-35 | creation fails exactly when the dimension or the capacity is 0 |
| Vector.Find | src/vector.c:58-66 | the first slot holding the id, or the capacity when no slot does |
| Vector.Get | src/vector.c:94-108 | get succeeds exactly for a nonzero stored id, with a vector of the index's dimension |
| Vector.Set | src/vector.c:68-92 | a failed set changes nothing; `Vector.SetValid` and `Vector.SetLowestFree` state the rest |
| Vector.Remove | src/vector.c:110-124 | a failed remove changes nothing; `Vector.RemoveValid` states the rest |
| Vector.CreateValid | src/vector.c:15-35 | a new index is valid, empty, and finds no id |
| Vector.SetValid | src/vector.c:68-92 | set keeps the invariant; it fails exactly for id 0, or for a new id when no slot is free; on success the id reads back the new vector, other ids are untouched, and `count` grows exactly when the id was new |
| Vector.SetLowestFree | src/vector.c:74-87 | a new id takes the lowest-index free slot, and only that slot's id and vector change |
| Vector.RemoveValid | src/vector.c:110-124 | remove keeps the invariant and succeeds exactly for a stored id; afterwards the id reads back nothing, other ids are untouched, and `count` drops by one |
| Vector.SqDist | src/vector.c:170-175 | the squared distance is 0 exactly when the vectors are equal |
| Vector.Cmp | src/vector.c:131-147 | the candidate comparison answers 0 exactly for equal candidates |
| Vector.CmpAntisymmetric | src/vector.c:131-147 | swapping the arguments negates the comparison |
| Vector.CmpTransitive | src/vector.c:131-147 | the comparison is transitive, so it is a total order |
| Vector.Insert | src/vector.c:184 | one insertion step adds exactly the candidate to the multiset |
| Vector.InsertSorted | src/vector.c:184 | inserting into a sorted sequence keeps it sorted by distance, then id |
| Vector.SortSorted | src/vector.c:184 | the sort yields a sorted permutation of the candidates |
| Vector.SortedUnique | src/vector.c:184 | two sorted permutations of one multiset are equal, so the kNN output does not depend on the sort algorithm |
| Vector.ScanFacts | src/vector.c:164-182 | the scan collects exactly the occupied slots, each with its squared distance to the query |
| Vector.CandidatesStored | src/vector.c:158-182 | on a valid index there are exactly `count` candidates, none repeated, one per stored id with its distance, so the `count`-sized buffer is never overrun |
| Vector.KnnSpec | src/vector.c:149-198 | kNN returns `min(k, count)` results (none for `k = 0`), a prefix of the fully sorted candidates; every candidate left out is ordered after every one returned |
| Vector.Knn | src/vector.c:149-198 | the kNN query; `Vector.KnnSpec` states its length, order and completeness, and `Vector.SortedUnique` that the sort used does not matter |
| Vector.KnnInsertionOrderFree | src/vector.c:149-198 | two valid indexes that store the same vector under every id give the same kNN result for every query and `k`, whatever order the ids were set in and whichever slots they occupy |
| Vector.SetGetUpdate | tests/c/test_vector.c:15-30 | setting id 10 twice succeeds both times, keeps one entry, and reads back the second vector |
| Vector.KnnTieBreak | tests/c/test_vector.c:32-57 | the tie between ids 3 and 2 at distance 1 is broken by id: the result is 1, 2, 3 at distances 0, 1, 1 |
| Vector.RemoveScenario | tests/c/test_vector.c:59-74 | after set then remove of id 42 the count goes 1 then 0 and get fails |
| Jsmn.Init | src/jsmn.c:96-100 | a fresh parser is at position 0 with no tokens, and its `toksuper` is the innermost open container (none) |
| Jsmn.LastOpenBelow | src/jsmn.c:129-141 | the backward scan finds the last token below the bound that is a container still open, with no open one above it |
| Jsmn.AllocToken | src/jsmn.c:3-14 | a token is written exactly while the array has room, appended after the existing ones |
| Jsmn.PrimEnd | src/jsmn.c:32-62 | a primitive ends at the first whitespace, `,`, `]` or `}`, or at the end of the text |
| Jsmn.StringEnd | src/jsmn.c:73-93 | the scan stops at a quote, and every quote it passes over follows a backslash |
| Jsmn.ParseString | src/jsmn.c:65-94 | a string token spans exactly the body between the quotes; an unterminated string or trailing backslash is PART and a full array is NOMEM, both leaving the parser where it was |
| Jsmn.ParsePrimitive | src/jsmn.c:26-63 | a primitive token runs to its delimiter and the parser steps back onto its last character; a full array is NOMEM with the parser where it was |
| Jsmn.OpenContainer | src/jsmn.c:111-124 | an opening bracket fails only with NOMEM on a full array; otherwise the new container becomes `toksuper` |
| Jsmn.CloseContainer | src/jsmn.c:125-148 | a closer is INVAL exactly when no container is open or the innermost open one has the other type |
| Jsmn.Finish | src/jsmn.c:181-187 | the parse returns the token count exactly when no container is left open, and PART otherwise |
| Jsmn.Step | src/jsmn.c:108-178 | one character either stops the parse with the parser unchanged or advances within the text with a well-formed `toksuper` |
| Jsmn.StepValid | src/jsmn.c:108-178 | every character that does not stop the parse keeps the invariant: token spans, container sizes counting keys and values, `toksuper`, and the array bound |
| Jsmn.StepStops | src/jsmn.c:108-178 | a stop happens only for the reasons the source gives: NOMEM on a full array, INVAL on a mismatched or unmatched closer, PART on an unterminated string |
| Jsmn.Run | src/jsmn.c:102-188 | the parse loop and its final check; `Jsmn.RunValid` states what it returns |
| Jsmn.RunValid | src/jsmn.c:102-188 | from any valid state the parse keeps the invariant; on success it returns the number of tokens written, has read the whole text and left no container open; on failure it names the cause |
| Jsmn.ParseValid | src/jsmn.c:96-188 | the same guarantee from `jsmn_init` |
| Jsmn.OneMemberObject | src/jsmn.c:111-157 | `{"a":1}` parses into three tokens, and the object's size is 2 (key and value) |
| Cli.ValidateConfig | src/nautylus_cli.c:1396-1417 | a configuration is accepted exactly when at most one of db, json and nodes is given, edges come with nodes, and nodes come with a nonzero dimension |
| Cli.SkipSpaces | src/nautylus_cli.c:225-227 | the skip stops at the first non-space character |
| Cli.Trim | src/nautylus_cli.c:224-236 | `trim`; `Cli.TrimSpec`, `Cli.TrimPadding` and `Cli.TrimIdempotent` state what it returns |
| Cli.TrimSpec | src/nautylus_cli.c:224-236 | the result has no leading or trailing whitespace and is a slice of the input with only whitespace around it |
| Cli.TrimPadding | src/nautylus_cli.c:224-236 | trimming whitespace padding off a trimmed string gives back that string |
| Cli.TrimIdempotent | src/nautylus_cli.c:224-236 | trimming twice is trimming once |
| Cli.CopyValue | src/nautylus_cli.c:1071-1074 | the copy holds at most the buffer's room, contains no `&`, and stops only at `&`, the end, or a full buffer |
| Cli.FindQueryParam | src/nautylus_cli.c:1061-1083 | a found value fits the buffer with its NUL and contains no `&` |
| Cli.FindQueryParamFields | src/nautylus_cli.c:1061-1083 | the scan finds the value of the first `&`-separated field reading `key=value`, cut to the buffer, and nothing when no field does |
| Cli.JsonSkip | src/nautylus_cli.c:417-439 | `json_skip` as written: a result lies past the start and within the tokens; `Cli.JsonSkipOneMember` shows it overrunning and `Cli.JsonSkipAgree` where it is right |
| Cli.JsonSkipFixed | src/nautylus_cli.c:417-439 | the corrected skip: a result lies past the start and within the tokens; `Cli.TreeSkip` states that it is the end of the value |
| Cli.JsonSkipAgree | src/nautylus_cli.c:417-439 | on tokens with no object, `json_skip` as written and the corrected version agree |
| Cli.TreeSkip | src/nautylus_cli.c:417-439 | the corrected skip, started at a value laid out in jsmn's preorder (a container followed by the `size` values it holds), returns the index just past that value |
| Cli.ForestSkip | src/nautylus_cli.c:424-434 | skipping `n` consecutive values lands just past the last of them |
| Cli.JsonSkipOneMember | src/nautylus_cli.c:421-427 | the tokens jsmn writes for `{"a":1}` form one such value, yet `json_skip` as written reads past the array, while the corrected version returns 3 |
| Cli.DemoInitAsWritten | src/nautylus_cli.c:256-274 | `demo_init` as written never succeeds |
| Cli.DemoInit | src/nautylus_cli.c:256-274 | with a property capacity of 1, `demo_init` succeeds exactly for a nonzero dimension and 32-bit-representable capacities, with a valid store and an empty valid index |
| Cli.AnyEdgeTo | src/nautylus_cli.c:186-192 | the scan answers true exactly when some listed edge is live and enters `to` |
| Cli.HasEdge | src/nautylus_cli.c:181-193 | `demo_has_edge`; `Cli.HasEdgeValid` states what it answers on a valid store |
| Cli.HasEdgeValid | src/nautylus_cli.c:181-193 | on a valid store `demo_has_edge` answers true exactly when some live edge goes from `from` to `to` |
| Cli.SelectResults | src/nautylus_cli.c:902-913 | at most `k` results and never the query id |
| Cli.SelectResultsSpec | src/nautylus_cli.c:902-913 | the results are the first `min(k, n)` hits other than the query, in order, each marked connected exactly when an edge joins it to the query in either direction |
| Cli.DemoQuery | src/nautylus_cli.c:875-917 | at most `k` results and never the query id |
| Cli.DemoQueryAsWritten | src/nautylus_cli.c:883-885 | the as-written query fails exactly when the stored query vector is longer than its three-component buffer, and otherwise agrees with `Cli.DemoQuery` |

## Left out

- I/O is left out: the socket server, HTTP handling, the embedded UI, the file loaders, snapshot save/load and `main`.
- The JSON token helpers `json_object_get`, `json_token_eq` and `json_parse_float` are left out. They compare and convert token text, and float conversion has no counterpart in the model. The pair loop of `json_object_get` is discussed in the second row of "## Findings".
- Floating point is left out. Vector components are integers and the kNN distance is the exact squared distance. NaN, its coercion to INFINITY and float rounding have no counterpart. Edge weights and property values are `real`, are only stored, and are never compared.
- The `qsort` algorithm is left out. The model sorts by insertion, and `Vector.SortedUnique` shows that any sorted permutation under the comparison gives the same result.
- `calloc`/`realloc`/`malloc` never fail in the model. The `memset`/`memcpy` byte copies and `item_size` pointer arithmetic are not modelled: records are datatypes, and a freed record is unreachable through `Get`.
- Null-pointer checks on the store, the index, output pointers and query strings are left out. Every model argument is present.
- `Slab.Alloc` writes the caller's record where C zeroes the slot and hands back a pointer for the caller to fill.
- The 32-bit generation wrap is modelled (0xFFFFFFFF + 1 is 0). `Slab.StaleIdRejected` holds across it, because the new generation always differs from the old one. What is not modelled is an id's generation coming back round after 2^32 reuses of its slot.
- `size_t` values in `graph_create` are cast to `uint32_t` for the slabs; that cast is modelled as `% 2^32`. Inputs to `jsmn_parse` beyond `INT_MAX` (the `(int)` casts of positions) are not modelled.
- Graph.Neighbors: the walk takes at most capacity + 1 steps. On a valid store a list is never longer, so the bound never cuts it. On a corrupted store whose list has a cycle, C would loop forever, and the model does not describe that.
- Graph.Drain: where C would loop forever because the head names an edge that `nty_edge_destroy` cannot destroy, the model returns the store as it stands. `GraphMutate.DrainValid` proves that case never arises on a valid store, where every head is a live edge the destroy removes.
- Jsmn.RunValid: parsing is modelled from a state satisfying the invariant, such as `jsmn_init`. Resuming after an error with an arbitrary parser state is not described. Token array entries at or beyond `toknext` are not modelled.
- jsmn.h is not part of this model. Token types and error codes are datatypes, not their numeric values.
- C strings with an embedded NUL are not modelled. Strings are sequences of characters that end where the sequence does.
- Cli.Trim: C writes NULs over the trailing whitespace in the caller's buffer (src/nautylus_cli.c:232-234). The model returns the trimmed slice and leaves the input as it was. No caller reads the buffer past the returned string.
- Cli.TreeSkip: the corrected `json_skip` is proved to return the end of any value in jsmn's preorder layout (`Cli.Tree`). That every token array `jsmn_parse` produces has that layout is proved only for `{"a":1}`, because the general case needs a nesting invariant over the parser's output that the model does not state.
- Concurrent mutation during iteration is not modelled; use is single-threaded.

## Findings

| source | as written | input that shows it | evidently intended | confidence | as-written member | corrected member |
|---|---|---|---|---|---|---|
| src/nautylus_cli.c:265-266 | `demo_init` creates the graph with property capacity 0, and `nty_slab_init` rejects capacity 0 (src/slab.c:9-11), so graph creation always fails | any call, e.g. node_cap 8, edge_cap 8, dimension 3 | a nonzero property capacity | not executed | Cli.DemoInitAsWritten | Cli.DemoInit |
| src/nautylus_cli.c:421-427 | for an object, `json_skip` skips `size` key-value pairs, but jsmn counts keys and values separately in `size` (src/jsmn.c:155-157, 173-175) | the tokens of `{"a":1}`: object size 2, so it skips 4 tokens where 2 follow | an object's `size` counting its key-value pairs, as `json_skip` and the pair loops of `json_object_get` (src/nautylus_cli.c:446-451) and `demo_build_from_json` (src/nautylus_cli.c:504-511) all assume; upstream jsmn gets that count by making each key the parent of its value at `:`, which is a no-op here (src/jsmn.c:164). `Cli.TreeSkip` repairs `json_skip` alone, by reading `size` as the tokenizer counts it; the two pair loops still make `size` passes and read past a one-member object | not executed | Cli.JsonSkipOneMember | Cli.TreeSkip |
| src/nautylus_cli.c:883-885 | `demo_query` copies the stored query vector into a 3-float buffer whatever the index's dimension | an index of dimension 4 holding the query id; this is latent today and becomes reachable once the `demo_init` defect of the first row is fixed, because `demo_build` always uses dimension 3 (src/nautylus_cli.c:113-115) and every loader goes through `demo_init` | a buffer of the index's dimension | not executed | Cli.DemoQueryAsWritten | Cli.DemoQuery |

=== FILE: cli.dfy ===
/** The small pure helpers of the command-line front end: dataset option validation,
    query-string parameter lookup, whitespace trimming, skipping a JSON value in a token
    array, the demo's store setup and the filter that turns nearest-neighbour hits into
    query results.

    C strings are modelled as `string` values whose end is the terminating NUL; a pointer
    into a string is modelled by the suffix it points at. */
module Cli {
  import opened Common
  import opened Ids
  import Graph
  import GraphValid
  import GraphIter
  import Vector
  import Jsmn

  // ---------------------------------------------------------------------------------------
  // Dataset options

  /** `nty_dataset_config_t`: which input files were named, and the vector dimension. */
  datatype Config = Config(
    nodesPath: Option<string>,
    edgesPath: Option<string>,
    jsonPath: Option<string>,
    dbPath: Option<string>,
    dimension: nat)

  /** `validate_config`: at most one of the three dataset sources, an edges file only with
      a nodes file, and a nonzero dimension for a nodes file. */
  function ValidateConfig(c: Config): (ok: bool)
    ensures ok <==>
      && !(c.dbPath.Some? && c.jsonPath.Some?)
      && !(c.dbPath.Some? && c.nodesPath.Some?)
      && !(c.jsonPath.Some? && c.nodesPath.Some?)
      && (c.edgesPath.Some? ==> c.nodesPath.Some?)
      && (c.nodesPath.Some? ==> c.dimension != 0)
  {
    var count := (if c.dbPath.Some? then 1 else 0) + (if c.jsonPath.Some? then 1 else 0)
                 + (if c.nodesPath.Some? then 1 else 0);
    if count > 1 then false
    else if c.edgesPath.Some? && c.nodesPath.None? then false
    else if c.nodesPath.Some? && c.dimension == 0 then false
    else true
  }

  // ---------------------------------------------------------------------------------------
  // Trimming

  /** `isspace` in the C locale. */
  predicate IsSpace(c: char)
  {
    c == ' ' || c == '\t' || c == '\n' || c == '\r' || c == '\U{000B}' || c == '\U{000C}'
  }

  /** The first index at or after `i` that is not whitespace, or `|s|`. */
  function SkipSpaces(s: string, i: nat): (r: nat)
    requires i <= |s|
    ensures i <= r <= |s|
    ensures r < |s| ==> !IsSpace(s[r])
    ensures forall k :: i <= k < r ==> IsSpace(s[k])
    decreases |s| - i
  {
    if i == |s| || !IsSpace(s[i]) then i else SkipSpaces(s, i + 1)
  }

  /** Moves the end back over whitespace, never past the character at `a`. */
  function CutSpaces(s: string, a: nat, e: nat): (r: nat)
    requires a < e <= |s|
    ensures a < r <= e
    ensures r - 1 > a ==> !IsSpace(s[r - 1])
    ensures forall k :: r <= k < e ==> IsSpace(s[k])
    decreases e
  {
    if e - 1 > a && IsSpace(s[e - 1]) then CutSpaces(s, a, e - 1) else e
  }

  /** `trim`: the part of `s` between its leading and its trailing whitespace. */
  function Trim(s: string): (r: string)
  {
    var a := SkipSpaces(s, 0);
    if a == |s| then [] else s[a..CutSpaces(s, a, |s|)]
  }

  /** Everything in `s` is whitespace. */
  ghost predicate AllSpace(s: string)
  {
    forall k :: 0 <= k < |s| ==> IsSpace(s[k])
  }

  /** Neither end of `t` is whitespace. */
  ghost predicate Trimmed(t: string)
  {
    t == [] || (!IsSpace(t[0]) && !IsSpace(t[|t| - 1]))
  }

  /** The trimmed string sits in `s` with only whitespace before and after it, and neither of
      its ends is whitespace. */
  lemma TrimSpec(s: string)
    ensures Trimmed(Trim(s))
    ensures exists a :: (0 <= a && a + |Trim(s)| <= |s| && Trim(s) == s[a..a + |Trim(s)|]
      && AllSpace(s[..a]) && AllSpace(s[a + |Trim(s)|..]))
  {
    var a := SkipSpaces(s, 0);
    if a == |s| {
      assert Trim(s) == s[a..a];
      assert AllSpace(s[..a]);
    } else {
      var e := CutSpaces(s, a, |s|);
      assert AllSpace(s[..a]) && AllSpace(s[e..]);
      assert Trim(s) == s[a..a + |Trim(s)|];
    }
  }

  /** Whitespace padding around a trimmed string is exactly what `trim` removes. */
  lemma {:induction false} TrimPadding(pre: string, t: string, post: string)
    requires AllSpace(pre) && AllSpace(post) && Trimmed(t)
    ensures Trim(pre + t + post) == t
  {
    var s := pre + t + post;
    if t == [] {
      assert s == pre + post;
      assert AllSpace(s);
      assert SkipSpaces(s, 0) == |s|;
    } else {
      assert s[|pre|] == t[0];
      assert SkipSpaces(s, 0) == |pre|;
      assert s[|pre| + |t| - 1] == t[|t| - 1];
      CutExact(s, |pre|, |pre| + |t|, |s|);
      assert s[|pre|..|pre| + |t|] == t;
    }
  }

  /** From any end past the last non-space character, the cut lands just after it. */
  lemma {:induction false} CutExact(s: string, a: nat, b: nat, e: nat)
    requires a < b <= e <= |s| && !IsSpace(s[b - 1])
    requires forall k :: b <= k < e ==> IsSpace(s[k])
    ensures CutSpaces(s, a, e) == b
    decreases e
  {
    if e > b {
      CutExact(s, a, b, e - 1);
    }
  }

  /** Trimming twice is trimming once. */
  lemma TrimIdempotent(s: string)
    ensures Trim(Trim(s)) == Trim(s)
  {
    TrimPadding([], Trim(s), []);
    assert [] + Trim(s) + [] == Trim(s);
  }

  // ---------------------------------------------------------------------------------------
  // Query strings

  /** The index of the first `c` in `s`, as `strchr` finds it. */
  function FindChar(s: string, c: char): (r: Option<nat>)
    ensures r.Some? ==> r.value < |s| && s[r.value] == c
    ensures forall k :: 0 <= k < |s| && (r.None? || k < r.value) ==> s[k] != c
  {
    if |s| == 0 then None
    else if s[0] == c then Some(0)
    else match FindChar(s[1..], c)
      case None => None
      case Some(k) => Some(k + 1)
  }

  /** The copy loop of `find_query_param`: characters up to the next `&` or the end, at most
      `max` of them. */
  function CopyValue(s: string, max: nat): (r: string)
    ensures |r| <= max && r <= s && '&' !in r
    ensures |r| < max ==> |r| == |s| || s[|r|] == '&'
  {
    if |s| == 0 || s[0] == '&' || max == 0 then [] else [s[0]] + CopyValue(s[1..], max - 1)
  }

  /** `find_query_param`, scanning from position `p` (the rest of the query): a key
      matches only where `p` stands, at the start or just after an `&`, and only when `=`
      follows it; the value is copied into a buffer of `outLen` characters, one of them the
      terminating NUL. */
  function FindQueryParam(p: string, key: string, outLen: nat): (r: Option<string>)
    requires outLen > 0
    ensures r.Some? ==> |r.value| < outLen && '&' !in r.value
    decreases |p|
  {
    if |p| == 0 then None
    else if key <= p && |key| < |p| && p[|key|] == '=' then Some(CopyValue(p[|key| + 1..], outLen - 1))
    else
      match FindChar(p, '&')
      case None => None
      case Some(a) => FindQueryParam(p[a + 1..], key, outLen)
  }

  /** The `&`-separated fields of a query string. */
  function Fields(s: string): (r: seq<string>)
    ensures |r| > 0
    ensures forall i :: 0 <= i < |r| ==> '&' !in r[i]
    decreases |s|
  {
    match FindChar(s, '&')
    case None => [s]
    case Some(a) => [s[..a]] + Fields(s[a + 1..])
  }

  /** The reference lookup: the value of the first field that reads `key=value`, cut to the
      buffer. */
  function FieldLookup(fields: seq<string>, key: string, outLen: nat): Option<string>
    requires outLen > 0
  {
    if |fields| == 0 then None
    else if key + "=" <= fields[0] then Some(Take(fields[0][|key| + 1..], outLen - 1))
    else FieldLookup(fields[1..], key, outLen)
  }

  function Take(s: string, n: nat): string
  {
    if |s| <= n then s else s[..n]
  }

  /** The copy stops where the field does. */
  lemma {:induction false} CopyValueField(s: string, f: string, max: nat)
    requires f <= s && '&' !in f && (|f| == |s| || s[|f|] == '&')
    ensures CopyValue(s, max) == Take(f, max)
    decreases |s|
  {
    if |s| > 0 && s[0] != '&' && max > 0 {
      assert f[0] == s[0];
      CopyValueField(s[1..], f[1..], max - 1);
    }
  }

  /** Where `f` is the first field of `p`, `key=` starts `p` exactly when it starts `f`. */
  lemma MatchField(p: string, key: string, f: string)
    requires f <= p && (|f| == |p| || p[|f|] == '&') && '&' !in key
    ensures (key <= p && |key| < |p| && p[|key|] == '=') <==> key + "=" <= f
  {
    if key <= p && |key| < |p| && p[|key|] == '=' {
      assert (key + "=")[..] == f[..|key| + 1];
    }
    if key + "=" <= f {
      assert p[..|key| + 1] == f[..|key| + 1];
    }
  }

  /** For a key without `&`, `find_query_param` finds the value of the first field of the
      query that reads `key=value`, and nothing when no field does. */
  lemma {:induction false} FindQueryParamFields(p: string, key: string, outLen: nat)
    requires outLen > 0 && '&' !in key
    ensures FindQueryParam(p, key, outLen) == FieldLookup(Fields(p), key, outLen)
    decreases |p|
  {
    var fs := Fields(p);
    var f := fs[0];
    var found := FindChar(p, '&');
    assert f <= p && (|f| == |p| || p[|f|] == '&');
    var matches := key <= p && |key| < |p| && p[|key|] == '=';
    MatchField(p, key, f);
    if |p| == 0 {
      assert fs == [""];
      assert FieldLookup(fs, key, outLen) == FieldLookup([], key, outLen);
    } else if matches {
      CopyValueField(p[|key| + 1..], f[|key| + 1..], outLen - 1);
      assert FieldLookup(fs, key, outLen) == Some(Take(f[|key| + 1..], outLen - 1));
    } else if found.Some? {
      var rest := p[found.value + 1..];
      FindQueryParamFields(rest, key, outLen);
      assert fs[1..] == Fields(rest);
      assert FieldLookup(fs, key, outLen) == FieldLookup(Fields(rest), key, outLen);
      assert FindQueryParam(p, key, outLen) == FindQueryParam(rest, key, outLen);
    } else {
      assert fs == [p];
      assert FieldLookup(fs, key, outLen) == FieldLookup([], key, outLen);
    }
  }

  // ---------------------------------------------------------------------------------------
  // Skipping a JSON value

  /** `json_skip` as written: the index just past the value at `i`, skipping two values per
      unit of an object's `size`, as if `size` counted key/value pairs.  `None` marks a read
      past the tokens the tokenizer wrote. */
  function JsonSkip(toks: seq<Jsmn.Token>, i: nat): (r: Option<nat>)
    requires i <= |toks|
    ensures r.Some? ==> i < r.value <= |toks|
    decreases |toks| - i, 0, 0
  {
    if i == |toks| then None
    else match toks[i].kind
      case Object => JsonSkipMany(toks, i + 1, 2 * toks[i].size, false)
      case Array => JsonSkipMany(toks, i + 1, toks[i].size, false)
      case _ => Some(i + 1)
  }

  /** `json_skip` with an object's `size` read as the number of its keys and values, as the
      tokenizer counts it. */
  function JsonSkipFixed(toks: seq<Jsmn.Token>, i: nat): (r: Option<nat>)
    requires i <= |toks|
    ensures r.Some? ==> i < r.value <= |toks|
    decreases |toks| - i, 0, 0
  {
    if i == |toks| then None
    else match toks[i].kind
      case Object => JsonSkipMany(toks, i + 1, toks[i].size, true)
      case Array => JsonSkipMany(toks, i + 1, toks[i].size, true)
      case _ => Some(i + 1)
  }

  /** Skip `n` values in a row starting at `i`. */
  function JsonSkipMany(toks: seq<Jsmn.Token>, i: nat, n: nat, fixed: bool): (r: Option<nat>)
    requires i <= |toks|
    ensures r.Some? ==> i <= r.value <= |toks|
    decreases |toks| - i, 1, n
  {
    if n == 0 then Some(i)
    else
      match (if fixed then JsonSkipFixed(toks, i) else JsonSkip(toks, i))
      case None => None
      case Some(j) => JsonSkipMany(toks, j, n - 1, fixed)
  }

  /** Tokens `i` up to `e` hold exactly one value in the tokenizer's preorder layout: a
      string or primitive token alone, or a container token followed by the `size` values
      it holds, one after the other. */
  ghost predicate Tree(toks: seq<Jsmn.Token>, i: nat, e: nat)
    decreases e - i, 0
  {
    && i < e <= |toks|
    && if toks[i].kind == Jsmn.Object || toks[i].kind == Jsmn.Array
       then Forest(toks, i + 1, toks[i].size, e)
       else e == i + 1
  }

  /** Tokens `i` up to `e` hold exactly `n` values in a row. */
  ghost predicate Forest(toks: seq<Jsmn.Token>, i: nat, n: nat, e: nat)
    decreases e - i, 1
  {
    if n == 0 then i == e
    else exists m :: i < m <= e && Tree(toks, i, m) && Forest(toks, m, n - 1, e)
  }

  /** The corrected skip steps over exactly one value: from the start of a value it returns
      the index just past that value's last token. */
  lemma {:induction false} TreeSkip(toks: seq<Jsmn.Token>, i: nat, e: nat)
    requires Tree(toks, i, e)
    ensures JsonSkipFixed(toks, i) == Some(e)
    decreases e - i, 0
  {
    if toks[i].kind == Jsmn.Object || toks[i].kind == Jsmn.Array {
      ForestSkip(toks, i + 1, toks[i].size, e);
    }
  }

  /** Skipping `n` values in a row lands just past the last of them. */
  lemma {:induction false} ForestSkip(toks: seq<Jsmn.Token>, i: nat, n: nat, e: nat)
    requires i <= |toks| && Forest(toks, i, n, e)
    ensures JsonSkipMany(toks, i, n, true) == Some(e)
    decreases e - i, 1
  {
    if n > 0 {
      var m :| i < m <= e && Tree(toks, i, m) && Forest(toks, m, n - 1, e);
      TreeSkip(toks, i, m);
      ForestSkip(toks, m, n - 1, e);
    }
  }

  /** Without objects the two readings of `size` coincide: `json_skip` as written is right
      on arrays, strings and primitives. */
  lemma {:induction false} JsonSkipAgree(toks: seq<Jsmn.Token>, i: nat)
    requires i <= |toks| && forall k :: i <= k < |toks| ==> toks[k].kind != Jsmn.Object
    ensures JsonSkip(toks, i) == JsonSkipFixed(toks, i)
    decreases |toks| - i, 0, 0
  {
    if i < |toks| && toks[i].kind == Jsmn.Array {
      JsonSkipManyAgree(toks, i + 1, toks[i].size);
    }
  }

  lemma {:induction false} JsonSkipManyAgree(toks: seq<Jsmn.Token>, i: nat, n: nat)
    requires i <= |toks| && forall k :: i <= k < |toks| ==> toks[k].kind != Jsmn.Object
    ensures JsonSkipMany(toks, i, n, false) == JsonSkipMany(toks, i, n, true)
    decreases |toks| - i, 1, n
  {
    if n > 0 {
      JsonSkipAgree(toks, i);
      match JsonSkipFixed(toks, i)
      case None =>
      case Some(j) => JsonSkipManyAgree(toks, j, n - 1);
    }
  }

  /** The tokens of `{"a":1}` hold one value whose object counts two children; `json_skip`
      as written tries to skip four values and runs past the three tokens, while the
      corrected reading stops just after the object. */
  lemma JsonSkipOneMember()
    ensures var (p, st) := Jsmn.Run(Jsmn.Init(), "{\"a\":1}", 3);
      && st == Jsmn.Count(3)
      && Tree(p.toks, 0, 3)
      && JsonSkip(p.toks, 0).None?
      && JsonSkipFixed(p.toks, 0) == Some(3)
  {
    Jsmn.OneMemberObject();
    OneMemberSkips(Jsmn.Run(Jsmn.Init(), "{\"a\":1}", 3).0.toks);
  }

  /** The two skips over the tokens `{"a":1}` yields. */
  lemma OneMemberSkips(toks: seq<Jsmn.Token>)
    requires toks == [Jsmn.Token(Jsmn.Object, 0, 7, 2), Jsmn.Token(Jsmn.String, 2, 3, 0), Jsmn.Token(Jsmn.Primitive, 5, 6, 0)]
    ensures Tree(toks, 0, 3) && JsonSkip(toks, 0).None? && JsonSkipFixed(toks, 0) == Some(3)
  {
    assert Tree(toks, 2, 3) && Forest(toks, 3, 0, 3);
    assert Tree(toks, 1, 2) && Forest(toks, 2, 1, 3);
    assert Forest(toks, 1, 2, 3);
    assert JsonSkip(toks, 1) == Some(2);
    assert JsonSkip(toks, 2) == Some(3);
    assert JsonSkipMany(toks, 3, 2, false).None?;
    assert JsonSkipMany(toks, 2, 3, false).None?;
    assert JsonSkipMany(toks, 1, 4, false).None?;
    assert JsonSkipFixed(toks, 1) == Some(2);
    assert JsonSkipFixed(toks, 2) == Some(3);
    assert JsonSkipMany(toks, 2, 1, true) == Some(3);
    assert JsonSkipMany(toks, 1, 2, true) == Some(3);
  }

  // ---------------------------------------------------------------------------------------
  // The demo store

  /** `demo_init` as written: it asks for a graph with property capacity 0, which the store
      always refuses, so the call never succeeds. */
  function DemoInitAsWritten(nodeCap: U64, edgeCap: U64, dimension: U64): (r: Option<(Graph.Graph, Vector.Index)>)
    ensures r.None?
  {
    if dimension == 0 then None
    else
      var g := Graph.GraphCreate(if nodeCap != 0 then nodeCap else 1, if edgeCap != 0 then edgeCap else 1, 0);
      var v := Vector.Create(dimension, if nodeCap != 0 then nodeCap else 1);
      match (g, v)
      case (Some(gr), Some(vi)) => Some((gr, vi))
      case _ => None
  }

  /** `demo_init` with a property capacity of 1: it succeeds for every nonzero dimension whose
      capacities survive the store's 32-bit slot counts. */
  function DemoInit(nodeCap: U64, edgeCap: U64, dimension: U64): (r: Option<(Graph.Graph, Vector.Index)>)
    ensures r.Some? <==> (dimension != 0
      && (if nodeCap != 0 then nodeCap else 1) % 0x1_0000_0000 != 0
      && (if edgeCap != 0 then edgeCap else 1) % 0x1_0000_0000 != 0)
    ensures r.Some? ==> (GraphValid.Valid(r.value.0) && Vector.Valid(r.value.1)
      && r.value.1.dimension == dimension && r.value.1.count == 0)
  {
    if dimension == 0 then None
    else
      var nc := if nodeCap != 0 then nodeCap else 1;
      var g := Graph.GraphCreate(nc, if edgeCap != 0 then edgeCap else 1, 1);
      var v := Vector.Create(dimension, nc);
      if g.None? || v.None? then None
      else
        GraphValid.GraphCreateValid(nc, if edgeCap != 0 then edgeCap else 1, 1);
        Vector.CreateValid(dimension, nc);
        Some((g.value, v.value))
  }

  // ---------------------------------------------------------------------------------------
  // Query results

  /** Whether one of the edges `es` is live and enters `to`. */
  function AnyEdgeTo(g: Graph.Graph, es: seq<Id>, to: Id): (b: bool)
    ensures b <==> exists k :: (0 <= k < |es| && Graph.EdgeGet(g, es[k]).Some?
      && Graph.EdgeGet(g, es[k]).value.to == to)
  {
    if |es| == 0 then false
    else if Graph.EdgeGet(g, es[0]).Some? && Graph.EdgeGet(g, es[0]).value.to == to then true
    else
      var b := AnyEdgeTo(g, es[1..], to);
      assert b <==> exists k :: (1 <= k < |es| && Graph.EdgeGet(g, es[k]).Some?
        && Graph.EdgeGet(g, es[k]).value.to == to) by {
        if b {
          var k :| 0 <= k < |es[1..]| && Graph.EdgeGet(g, es[1..][k]).Some?
            && Graph.EdgeGet(g, es[1..][k]).value.to == to;
          assert es[k + 1] == es[1..][k];
        }
        if exists k :: 1 <= k < |es| && Graph.EdgeGet(g, es[k]).Some? && Graph.EdgeGet(g, es[k]).value.to == to {
          var k :| 1 <= k < |es| && Graph.EdgeGet(g, es[k]).Some? && Graph.EdgeGet(g, es[k]).value.to == to;
          assert es[1..][k - 1] == es[k];
        }
      }
      b
  }

  /** `demo_has_edge`: walk the out-edges of `from` looking for one that enters `to`. */
  function HasEdge(g: Graph.Graph, from: Id, to: Id): bool
  {
    AnyEdgeTo(g, Graph.Neighbors(g, from, Graph.Out), to)
  }

  /** On a valid store, `demo_has_edge` finds an edge exactly when a live edge runs from
      `from` to `to`. */
  lemma HasEdgeValid(g: Graph.Graph, from: Id, to: Id)
    requires GraphValid.Valid(g)
    ensures HasEdge(g, from, to) <==>
      exists e :: Graph.EdgeLive(g, e) && Graph.EdgeAt(g, e).from == from && Graph.EdgeAt(g, e).to == to
  {
    GraphIter.NeighborsValid(g, from, Graph.Out);
    var es := Graph.Neighbors(g, from, Graph.Out);
    if exists e :: Graph.EdgeLive(g, e) && Graph.EdgeAt(g, e).from == from && Graph.EdgeAt(g, e).to == to {
      var e :| Graph.EdgeLive(g, e) && Graph.EdgeAt(g, e).from == from && Graph.EdgeAt(g, e).to == to;
      assert e in es;
      var k :| 0 <= k < |es| && es[k] == e;
      assert Graph.EdgeGet(g, es[k]).Some? && Graph.EdgeGet(g, es[k]).value.to == to;
    }
  }

  /** `nty_result_t`. */
  datatype QueryResult = QueryResult(id: Id, distance: nat, connected: bool)

  /** The filter loop of `demo_query`: walk the hits in order, drop the query node itself and
      stop after `k` results, marking each as connected when an edge joins it to the query
      node in either direction. */
  function SelectResults(g: Graph.Graph, hits: seq<Vector.Candidate>, query: Id, k: nat): (r: seq<QueryResult>)
    ensures |r| <= k
    ensures forall i :: 0 <= i < |r| ==> r[i].id != query
  {
    if |hits| == 0 || k == 0 then []
    else if hits[0].id == query then SelectResults(g, hits[1..], query, k)
    else
      [QueryResult(hits[0].id, hits[0].distance, HasEdge(g, query, hits[0].id) || HasEdge(g, hits[0].id, query))]
      + SelectResults(g, hits[1..], query, k - 1)
  }

  /** The hits other than the query node, in order. */
  function Others(hits: seq<Vector.Candidate>, query: Id): seq<Vector.Candidate>
  {
    if |hits| == 0 then []
    else if hits[0].id == query then Others(hits[1..], query)
    else [hits[0]] + Others(hits[1..], query)
  }

  /** The results are the first `k` hits other than the query node, in hit order, each with
      its distance, and connected exactly when an edge joins it to the query node. */
  lemma {:induction false} SelectResultsSpec(g: Graph.Graph, hits: seq<Vector.Candidate>, query: Id, k: nat)
    ensures var r := SelectResults(g, hits, query, k);
      var o := Others(hits, query);
      |r| == Min(k, |o|)
      && forall i :: 0 <= i < |r| ==> (r[i].id == o[i].id && r[i].distance == o[i].distance
        && (r[i].connected <==> HasEdge(g, query, o[i].id) || HasEdge(g, o[i].id, query)))
    decreases |hits|
  {
    if |hits| > 0 && k > 0 {
      SelectResultsSpec(g, hits[1..], query, if hits[0].id == query then k else k - 1);
    }
  }

  /** `demo_query` with the query vector held in a buffer as long as the index's vectors:
      fetch the query node's vector, ask for `k + 1` neighbours (at most `items`, the number
      of named demo nodes), and filter the hits. */
  function DemoQuery(g: Graph.Graph, ix: Vector.Index, items: nat, query: Id, k: nat): (r: seq<QueryResult>)
    requires Vector.Shaped(ix)
    ensures |r| <= k
    ensures forall i :: 0 <= i < |r| ==> r[i].id != query
  {
    if k == 0 then []
    else
      match Vector.Get(ix, query)
      case None => []
      case Some(q) => SelectResults(g, Vector.Knn(ix, q, Min(k + 1, items)), query, k)
  }

  /** The size of `demo_query`'s query-vector buffer. */
  const QueryBuffer: nat := 3

  /** `demo_query` as written: the query vector is copied into a buffer of three components,
      so for a stored vector of a larger dimension the copy runs past the buffer (`None`). */
  function DemoQueryAsWritten(g: Graph.Graph, ix: Vector.Index, items: nat, query: Id, k: nat): (r: Option<seq<QueryResult>>)
    requires Vector.Shaped(ix)
    ensures r.None? <==> k != 0 && Vector.Get(ix, query).Some? && ix.dimension > QueryBuffer
    ensures r.Some? ==> r.value == DemoQuery(g, ix, items, query, k)
  {
    if k == 0 then Some([])
    else
      match Vector.Get(ix, query)
      case None => Some([])
      case Some(q) =>
        if |q| > QueryBuffer then None
        else Some(SelectResults(g, Vector.Knn(ix, q, Min(k + 1, items)), query, k))
  }
}

=== FILE: common.dfy ===
/** Small datatypes and sequence facts shared by the other modules. */
module Common {

  datatype Option<T> = None | Some(value: T)

  /** No element occurs twice. */
  ghost predicate Distinct<T>(s: seq<T>)
  {
    forall i, j :: 0 <= i < j < |s| ==> s[i] != s[j]
  }

  /** Deletes the first occurrence of `x`, keeping the order of the rest (a `memmove`
      over the tail of a C array). */
  function RemoveFirst<T(==)>(s: seq<T>, x: T): (r: seq<T>)
    ensures x in s ==> |r| == |s| - 1
    ensures x !in s ==> r == s
  {
    if |s| == 0 then []
    else if s[0] == x then
      assert s == [s[0]] + s[1..];
      s[1..]
    else
      assert s == [s[0]] + s[1..];
      [s[0]] + RemoveFirst(s[1..], x)
  }

  /** The first position holding `x`. */
  lemma {:induction false} FirstIndex<T>(s: seq<T>, x: T) returns (k: nat)
    requires x in s
    ensures k < |s| && s[k] == x && x !in s[..k]
  {
    if s[0] == x {
      k := 0;
    } else {
      assert x in s[1..] by {
        var j :| 0 <= j < |s| && s[j] == x;
        assert s[1..][j - 1] == x;
      }
      var k' := FirstIndex(s[1..], x);
      k := k' + 1;
      assert s[..k] == [s[0]] + s[1..][..k'];
    }
  }

  /** Removing `x` splits the sequence around the first position of `x`. */
  lemma {:induction false} RemoveFirstAt<T>(s: seq<T>, x: T, k: nat)
    requires k < |s| && s[k] == x && x !in s[..k]
    ensures RemoveFirst(s, x) == s[..k] + s[k+1..]
    decreases k
  {
    if k == 0 {
      assert s[..0] + s[1..] == s[1..];
    } else {
      assert s[0] == s[..k][0];
      var t := s[1..];
      assert t[..k-1] == s[1..k];
      assert t[k-1] == x;
      RemoveFirstAt(t, x, k - 1);
      assert t[k..] == s[k+1..];
      assert [s[0]] + (s[1..k] + s[k+1..]) == s[..k] + s[k+1..];
    }
  }

  /** Removing an element of a sequence without repetitions keeps it without repetitions
      and takes out exactly that element. */
  lemma RemoveFirstDistinct<T>(s: seq<T>, x: T)
    requires Distinct(s)
    ensures Distinct(RemoveFirst(s, x))
    ensures forall y :: y in RemoveFirst(s, x) <==> y in s && y != x
  {
    if x in s {
      var k := FirstIndex(s, x);
      RemoveFirstAt(s, x, k);
      SpliceDistinct(s, k);
    }
  }

  /** Cutting position `k` out of a sequence without repetitions. */
  lemma SpliceDistinct<T>(s: seq<T>, k: nat)
    requires Distinct(s) && k < |s|
    ensures Distinct(s[..k] + s[k+1..])
    ensures forall y :: y in s[..k] + s[k+1..] <==> y in s && y != s[k]
  {
    var r := s[..k] + s[k+1..];
    assert forall i :: 0 <= i < |r| ==> r[i] == s[if i < k then i else i + 1];
    forall y
      ensures y in r <==> y in s && y != s[k]
    {
      if y in r {
        var j :| 0 <= j < |r| && r[j] == y;
        assert s[if j < k then j else j + 1] == y;
      }
      if y in s && y != s[k] {
        var j :| 0 <= j < |s| && s[j] == y;
        assert r[if j < k then j else j - 1] == y;
      }
    }
  }

  function Min(a: nat, b: nat): nat { if a < b then a else b }

  /** Number of `true` entries. */
  function CountTrue(s: seq<bool>): (n: nat)
    ensures n <= |s|
  {
    if |s| == 0 then 0 else (if s[0] then 1 else 0) + CountTrue(s[1..])
  }

  lemma {:induction false} CountTrueUpdate(s: seq<bool>, i: nat, b: bool)
    requires i < |s|
    ensures CountTrue(s[i := b]) == CountTrue(s) - (if s[i] then 1 else 0) + (if b then 1 else 0)
    decreases |s|
  {
    if i == 0 {
      assert s[i := b][1..] == s[1..];
    } else {
      assert s[i := b][1..] == s[1..][i-1 := b];
      CountTrueUpdate(s[1..], i - 1, b);
    }
  }

  /** Every entry is `true` exactly when the count reaches the length. */
  lemma {:induction false} CountTrueFull(s: seq<bool>)
    ensures CountTrue(s) == |s| <==> forall i :: 0 <= i < |s| ==> s[i]
    decreases |s|
  {
    if |s| > 0 {
      CountTrueFull(s[1..]);
      if CountTrue(s) == |s| {
        forall i | 0 <= i < |s| ensures s[i] {
          if i > 0 { assert s[i] == s[1..][i-1]; }
        }
      }
      if forall i :: 0 <= i < |s| ==> s[i] {
        assert forall i :: 0 <= i < |s| - 1 ==> s[1..][i] == s[i+1];
      }
    }
  }

  /** A constant sequence of `false` counts nothing. */
  lemma {:induction false} CountTrueNone(n: nat)
    ensures CountTrue(seq(n, _ => false)) == 0
  {
    if n > 0 {
      assert seq(n, _ => false)[1..] == seq(n - 1, _ => false);
      CountTrueNone(n - 1);
    }
  }

  /** The elements of `s` satisfying `f`, in their order in `s`. */
  function Filter<T>(s: seq<T>, f: T -> bool): (r: seq<T>)
    ensures |r| <= |s|
    decreases |s|
  {
    if |s| == 0 then []
    else Filter(s[..|s| - 1], f) + (if f(s[|s| - 1]) then [s[|s| - 1]] else [])
  }

  lemma {:induction false} FilterConcat<T>(s: seq<T>, t: seq<T>, f: T -> bool)
    ensures Filter(s + t, f) == Filter(s, f) + Filter(t, f)
    decreases |t|
  {
    if |t| == 0 {
      assert s + t == s;
    } else {
      var t' := t[..|t| - 1];
      assert (s + t)[..|s + t| - 1] == s + t';
      FilterConcat(s, t', f);
    }
  }

  /** A filter keeps only elements of `s` that satisfy `f`. */
  lemma {:induction false} FilterSubset<T>(s: seq<T>, f: T -> bool)
    ensures forall x :: x in Filter(s, f) ==> x in s && f(x)
    decreases |s|
  {
    if |s| > 0 {
      FilterSubset(s[..|s| - 1], f);
      forall x | x in s[..|s| - 1] ensures x in s {
        var i :| 0 <= i < |s| - 1 && s[..|s| - 1][i] == x;
        assert s[i] == x;
      }
    }
  }

  /** Everything of `s` that satisfies `f` is kept. */
  lemma {:induction false} FilterKeeps<T>(s: seq<T>, f: T -> bool, x: T)
    requires x in s && f(x)
    ensures x in Filter(s, f)
    decreases |s|
  {
    if s[|s| - 1] != x {
      assert x in s[..|s| - 1] by {
        var i :| 0 <= i < |s| && s[i] == x;
        assert s[..|s| - 1][i] == x;
      }
      FilterKeeps(s[..|s| - 1], f, x);
    }
  }

  lemma {:induction false} FilterDistinct<T>(s: seq<T>, f: T -> bool)
    requires Distinct(s)
    ensures Distinct(Filter(s, f))
    decreases |s|
  {
    if |s| > 0 {
      var s' := s[..|s| - 1];
      assert Distinct(s') by {
        forall i, j | 0 <= i < j < |s'| ensures s'[i] != s'[j] {
          assert s'[i] == s[i] && s'[j] == s[j];
        }
      }
      FilterDistinct(s', f);
      var x := s[|s| - 1];
      assert x !in s' by {
        forall i | 0 <= i < |s'| ensures s'[i] != x { assert s'[i] == s[i]; }
      }
      FilterSubset(s', f);
      var a := Filter(s', f);
      var r := a + (if f(x) then [x] else []);
      forall i, j | 0 <= i < j < |r| ensures r[i] != r[j] {
        if j == |a| {
          assert r[i] == a[i] && r[i] in a;
        } else {
          assert r[i] == a[i] && r[j] == a[j];
        }
      }
    }
  }

  /** Two tests that agree on every element filter alike. */
  lemma {:induction false} FilterAgree<T>(s: seq<T>, f: T -> bool, f': T -> bool)
    requires forall i :: 0 <= i < |s| ==> f(s[i]) == f'(s[i])
    ensures Filter(s, f) == Filter(s, f')
    decreases |s|
  {
    if |s| > 0 {
      var s' := s[..|s| - 1];
      assert forall i :: 0 <= i < |s'| ==> s'[i] == s[i];
      FilterAgree(s', f, f');
    }
  }

  /** A filter that keeps everything is the identity. */
  lemma {:induction false} FilterAll<T>(s: seq<T>, f: T -> bool)
    requires forall i :: 0 <= i < |s| ==> f(s[i])
    ensures Filter(s, f) == s
    decreases |s|
  {
    if |s| > 0 {
      var s' := s[..|s| - 1];
      assert forall i :: 0 <= i < |s'| ==> s'[i] == s[i];
      FilterAll(s', f);
      assert s' + [s[|s| - 1]] == s;
    }
  }

  /** A filter that keeps nothing is empty. */
  lemma {:induction false} FilterNone<T>(s: seq<T>, f: T -> bool)
    requires forall i :: 0 <= i < |s| ==> !f(s[i])
    ensures Filter(s, f) == []
    decreases |s|
  {
    if |s| > 0 {
      var s' := s[..|s| - 1];
      assert forall i :: 0 <= i < |s'| ==> s'[i] == s[i];
      FilterNone(s', f);
    }
  }

  /** Filtering twice is filtering once by both conditions. */
  lemma {:induction false} FilterFilter<T>(s: seq<T>, f: T -> bool, h: T -> bool, fh: T -> bool)
    requires forall x :: fh(x) == (f(x) && h(x))
    ensures Filter(Filter(s, f), h) == Filter(s, fh)
    decreases |s|
  {
    if |s| > 0 {
      var s' := s[..|s| - 1];
      var x := s[|s| - 1];
      FilterFilter(s', f, h, fh);
      FilterConcat(Filter(s', f), if f(x) then [x] else [], h);
      if f(x) { FilterSingle(x, h); } else { assert Filter([], h) == []; }
    }
  }

  /** `t` is `s` with position `k` cut out, stated position by position. */
  ghost predicate Skips<T>(s: seq<T>, k: nat, t: seq<T>)
  {
    && k < |s| && |t| == |s| - 1
    && forall i {:trigger t[i]} :: 0 <= i < |t| ==> t[i] == if i < k then s[i] else s[i + 1]
  }

  /** `t` is `s` with `x` appended, stated position by position. */
  ghost predicate Snoc<T>(s: seq<T>, x: T, t: seq<T>)
  {
    && |t| == |s| + 1
    && forall i {:trigger t[i]} :: 0 <= i < |t| ==> t[i] == if i < |s| then s[i] else x
  }

  lemma SnocAppend<T>(s: seq<T>, x: T)
    ensures Snoc(s, x, s + [x])
  {
  }

  lemma SkipsCut<T>(s: seq<T>, k: nat)
    requires k < |s|
    ensures Skips(s, k, s[..k] + s[k+1..])
  {
  }

  /** In a sequence without repetitions each element occurs exactly once. */
  lemma {:induction false} DistinctCount<T>(s: seq<T>, x: T)
    requires Distinct(s)
    ensures multiset(s)[x] == if x in s then 1 else 0
    decreases |s|
  {
    if |s| > 0 {
      var t := s[..|s| - 1];
      assert s == t + [s[|s| - 1]];
      forall i, j | 0 <= i < j < |t| ensures t[i] != t[j] { assert t[i] == s[i] && t[j] == s[j]; }
      DistinctCount(t, x);
      if x == s[|s| - 1] { DistinctSplit(s, |s| - 1); }
    }
  }

  /** In a sequence without repetitions an element occurs neither before nor after its position. */
  lemma DistinctSplit<T>(s: seq<T>, k: nat)
    requires Distinct(s) && k < |s|
    ensures s[k] !in s[..k] && s[k] !in s[k+1..]
  {
    forall j | 0 <= j < k ensures s[..k][j] != s[k] { assert s[..k][j] == s[j]; }
    var t := s[k+1..];
    forall j | 0 <= j < |t| ensures t[j] != s[k] { assert t[j] == s[k + 1 + j]; }
  }

  lemma FilterSingle<T>(y: T, f: T -> bool)
    ensures Filter([y], f) == if f(y) then [y] else []
  {
    assert [y][..0] == [];
  }

  lemma SplitAt<T>(s: seq<T>, k: nat)
    requires k < |s|
    ensures s == s[..k] + ([s[k]] + s[k+1..])
  {
  }

  /** Filtering around position `k`. */
  lemma FilterSplit<T>(s: seq<T>, k: nat, f: T -> bool)
    requires k < |s|
    ensures Filter(s, f) == Filter(s[..k], f) + Filter([s[k]], f) + Filter(s[k+1..], f)
    ensures Filter(s[..k] + s[k+1..], f) == Filter(s[..k], f) + Filter(s[k+1..], f)
  {
    SplitAt(s, k);
    FilterConcat(s[..k], [s[k]] + s[k+1..], f);
    FilterConcat([s[k]], s[k+1..], f);
    FilterConcat(s[..k], s[k+1..], f);
  }

  lemma RemoveFirstMiddle<T>(A: seq<T>, x: T, B: seq<T>)
    requires x !in A
    ensures RemoveFirst(A + [x] + B, x) == A + B
  {
    var F := A + [x] + B;
    assert F[|A|] == x && F[..|A|] == A && F[|A| + 1..] == B;
    RemoveFirstAt(F, x, |A|);
  }

  /** Removing the element at a (unique) position `k` and then filtering keeps the
      filtered prefix and suffix around that position. */
  lemma FilterRemoveAt<T>(s: seq<T>, f: T -> bool, x: T, k: nat)
    requires Distinct(s) && k < |s| && s[k] == x
    ensures Filter(RemoveFirst(s, x), f) == Filter(s[..k], f) + Filter(s[k+1..], f)
    ensures Filter(s, f) == Filter(s[..k], f) + Filter([x], f) + Filter(s[k+1..], f)
    ensures x !in Filter(s[..k], f) && x !in Filter(s[k+1..], f)
  {
    DistinctSplit(s, k);
    RemoveFirstAt(s, x, k);
    FilterSplit(s, k, f);
    FilterSubset(s[..k], f);
    FilterSubset(s[k+1..], f);
  }

  lemma RemoveFirstAround<T>(A: seq<T>, y: seq<T>, B: seq<T>, x: T)
    requires x !in A && x !in B && (y == [x] || y == [])
    ensures RemoveFirst(A + y + B, x) == A + B
  {
    if y == [x] {
      RemoveFirstMiddle(A, x, B);
    } else {
      assert A + y + B == A + B;
      assert x !in A + B;
    }
  }

  /** Filtering commutes with removing an element from a sequence without duplicates. */
  lemma FilterRemove<T>(s: seq<T>, f: T -> bool, x: T)
    requires Distinct(s)
    ensures Filter(RemoveFirst(s, x), f) == RemoveFirst(Filter(s, f), x)
  {
    if x in s {
      var k := FirstIndex(s, x);
      FilterRemoveAt(s, f, x, k);
      FilterSingle(x, f);
      RemoveFirstAround(Filter(s[..k], f), Filter([x], f), Filter(s[k+1..], f), x);
    } else {
      FilterSubset(s, f);
    }
  }
}

=== FILE: graph.dfy ===
/** The graph store (`nty_graph_t`): three slabs for nodes, edges and properties, three
    creation-order arrays, and per-node intrusive doubly-linked lists of outgoing and incoming
    edges whose links live inside the edge records as ids.

    The outgoing and incoming lists are handled by the same code in the C source, written out
    twice; here it is written once and parameterised by a `Dir`. */
module Graph {
  import opened Common
  import opened Ids
  import Slab

  datatype Node = Node(id: Id, outHead: Id, outTail: Id, inHead: Id, inTail: Id)

  /** `weight` is a C `double` that the store only carries; no arithmetic is done on it. */
  datatype Edge = Edge(
    id: Id, from: Id, to: Id, kind: U64, weight: real, timestamp: U64,
    outPrev: Id, outNext: Id, inPrev: Id, inNext: Id)

  /** `owner` is advisory: never checked against a live node or edge. */
  datatype Property = Property(id: Id, owner: Id, key: U64, value: real)

  /** The all-zero records a fresh or `calloc`ed slot holds. */
  const ZeroNode := Node(0, 0, 0, 0, 0)
  const ZeroEdge := Edge(0, 0, 0, 0, 0.0, 0, 0, 0, 0, 0)
  const ZeroProperty := Property(0, 0, 0, 0.0)

  /** `sizeof` of the three C records (only their being nonzero matters to the slab). */
  const NodeSize: nat := 40
  const EdgeSize: nat := 80
  const PropertySize: nat := 32

  datatype Graph = Graph(
    nodes: Slab.Slab<Node>,
    edges: Slab.Slab<Edge>,
    properties: Slab.Slab<Property>,
    nodeOrder: seq<Id>,
    edgeOrder: seq<Id>,
    propertyOrder: seq<Id>,
    nodeOrderCap: U64,
    edgeOrderCap: U64,
    propertyOrderCap: U64)

  /** Which of a node's two adjacency lists. */
  datatype Dir = Out | In

  // ---------------------------------------------------------------------------------------
  // Field access by direction

  /** The endpoint that owns the edge in direction `d`: `from` for out-lists, `to` for in-lists. */
  function End(e: Edge, d: Dir): Id
  {
    match d
    case Out => e.from
    case In => e.to
  }

  function Next(e: Edge, d: Dir): Id
  {
    match d
    case Out => e.outNext
    case In => e.inNext
  }

  function Prev(e: Edge, d: Dir): Id
  {
    match d
    case Out => e.outPrev
    case In => e.inPrev
  }

  function SetNext(e: Edge, d: Dir, v: Id): Edge
  {
    match d
    case Out => e.(outNext := v)
    case In => e.(inNext := v)
  }

  function SetPrev(e: Edge, d: Dir, v: Id): Edge
  {
    match d
    case Out => e.(outPrev := v)
    case In => e.(inPrev := v)
  }

  function Head(n: Node, d: Dir): Id
  {
    match d
    case Out => n.outHead
    case In => n.inHead
  }

  function Tail(n: Node, d: Dir): Id
  {
    match d
    case Out => n.outTail
    case In => n.inTail
  }

  function SetHead(n: Node, d: Dir, v: Id): Node
  {
    match d
    case Out => n.(outHead := v)
    case In => n.(inHead := v)
  }

  function SetTail(n: Node, d: Dir, v: Id): Node
  {
    match d
    case Out => n.(outTail := v)
    case In => n.(inTail := v)
  }

  /** An edge with its links in direction `d` blanked: what a change to those links keeps. */
  function Strip(e: Edge, d: Dir): Edge
  {
    SetPrev(SetNext(e, d, 0), d, 0)
  }

  function StripNode(n: Node, d: Dir): Node
  {
    SetTail(SetHead(n, d, 0), d, 0)
  }

  // ---------------------------------------------------------------------------------------
  // Store access

  predicate Shaped(g: Graph)
  {
    Slab.Shaped(g.nodes) && Slab.Shaped(g.edges) && Slab.Shaped(g.properties)
  }

  /** `nty_node_exists`, `nty_edge_exists`, `nty_property_exists`. */
  predicate NodeLive(g: Graph, n: Id)
  {
    Slab.Exists(g.nodes, n)
  }

  predicate EdgeLive(g: Graph, e: Id)
  {
    Slab.Exists(g.edges, e)
  }

  predicate PropertyLive(g: Graph, p: Id)
  {
    Slab.Exists(g.properties, p)
  }

  /** The record in the slot an id names (meaningful for live ids). */
  function NodeAt(g: Graph, n: Id): Node
  {
    if IndexOf(n) < |g.nodes.data| then g.nodes.data[IndexOf(n)] else ZeroNode
  }

  function EdgeAt(g: Graph, e: Id): Edge
  {
    if IndexOf(e) < |g.edges.data| then g.edges.data[IndexOf(e)] else ZeroEdge
  }

  function PropertyAt(g: Graph, p: Id): Property
  {
    if IndexOf(p) < |g.properties.data| then g.properties.data[IndexOf(p)] else ZeroProperty
  }

  /** `nty_node_get`, `nty_edge_get`, `nty_property_get`: a copy of a live record. */
  function NodeGet(g: Graph, n: Id): (r: Option<Node>)
    ensures r.Some? <==> NodeLive(g, n)
    ensures r.Some? ==> r.value == NodeAt(g, n)
  {
    Slab.Get(g.nodes, n)
  }

  function EdgeGet(g: Graph, e: Id): (r: Option<Edge>)
    ensures r.Some? <==> EdgeLive(g, e)
    ensures r.Some? ==> r.value == EdgeAt(g, e)
  {
    Slab.Get(g.edges, e)
  }

  function PropertyGet(g: Graph, p: Id): (r: Option<Property>)
    ensures r.Some? <==> PropertyLive(g, p)
    ensures r.Some? ==> r.value == PropertyAt(g, p)
  {
    Slab.Get(g.properties, p)
  }

  /** Writes through the record address `nty_graph_get_node` / `nty_graph_get_edge` returned. */
  function PutNode(g: Graph, n: Id, rec: Node): (r: Graph)
    requires Shaped(g) && NodeLive(g, n)
    ensures Shaped(r)
    ensures r == g.(nodes := r.nodes)
    ensures r.nodes == g.nodes.(data := r.nodes.data)
    ensures NodeAt(r, n) == rec
    ensures forall m :: IndexOf(m) != IndexOf(n) ==> NodeAt(r, m) == NodeAt(g, m)
  {
    g.(nodes := Slab.Put(g.nodes, n, rec))
  }

  function PutEdge(g: Graph, e: Id, rec: Edge): (r: Graph)
    requires Shaped(g) && EdgeLive(g, e)
    ensures Shaped(r)
    ensures r == g.(edges := r.edges)
    ensures r.edges == g.edges.(data := r.edges.data)
    ensures EdgeAt(r, e) == rec
    ensures forall x :: IndexOf(x) != IndexOf(e) ==> EdgeAt(r, x) == EdgeAt(g, x)
  {
    g.(edges := Slab.Put(g.edges, e, rec))
  }

  /** Only the record contents change; the slot bookkeeping and the orders stay. */
  predicate SameBookkeeping(g: Graph, g': Graph)
  {
    && g' == g.(nodes := g'.nodes, edges := g'.edges)
    && g'.nodes == g.nodes.(data := g'.nodes.data)
    && g'.edges == g.edges.(data := g'.edges.data)
  }

  // ---------------------------------------------------------------------------------------
  // Creation-order arrays

  /** `nty_order_append`: fails when the array is full. */
  function OrderAppend(order: seq<Id>, cap: nat, id: Id): (r: Option<seq<Id>>)
    ensures r.None? <==> |order| >= cap
    ensures r.Some? ==> |r.value| == |order| + 1 && r.value[..|order|] == order && r.value[|order|] == id
  {
    if |order| >= cap then None else Some(order + [id])
  }

  /** `nty_order_remove`: drop the first occurrence, shifting the rest down. */
  function OrderRemove(order: seq<Id>, id: Id): (r: seq<Id>)
    ensures id in order ==> exists k :: 0 <= k < |order| && order[k] == id && id !in order[..k]
                                        && r == order[..k] + order[k+1..]
    ensures id !in order ==> r == order
  {
    if id in order then FirstOccurrence(order, id); RemoveFirst(order, id)
    else RemoveFirst(order, id)
  }

  lemma FirstOccurrence(order: seq<Id>, id: Id)
    requires id in order
    ensures exists k :: 0 <= k < |order| && order[k] == id && id !in order[..k]
                        && RemoveFirst(order, id) == order[..k] + order[k+1..]
  {
    var k := FirstIndex(order, id);
    RemoveFirstAt(order, id, k);
  }

  // ---------------------------------------------------------------------------------------
  // Creation

  /** `nty_graph_create`.  The capacities are `size_t` but each slab takes a `uint32_t`, so a
      capacity is truncated to its low 32 bits for the slab (and a multiple of 2^32 becomes 0);
      the order arrays keep the full value. */
  function GraphCreate(nodeCap: U64, edgeCap: U64, propertyCap: U64): (r: Option<Graph>)
    ensures r.None? <==> nodeCap % 0x1_0000_0000 == 0 || edgeCap % 0x1_0000_0000 == 0
                         || propertyCap % 0x1_0000_0000 == 0
    ensures r.Some? ==> Shaped(r.value) && r.value.nodeOrder == [] && r.value.edgeOrder == []
                        && r.value.propertyOrder == []
    ensures r.Some? ==> forall x :: !NodeLive(r.value, x) && !EdgeLive(r.value, x) && !PropertyLive(r.value, x)
  {
    match Slab.Init(NodeSize, nodeCap % 0x1_0000_0000, ZeroNode)
    case None => None
    case Some(ns) =>
      match Slab.Init(EdgeSize, edgeCap % 0x1_0000_0000, ZeroEdge)
      case None => None
      case Some(es) =>
        match Slab.Init(PropertySize, propertyCap % 0x1_0000_0000, ZeroProperty)
        case None => None
        case Some(ps) =>
          Some(Graph(ns, es, ps, [], [], [], nodeCap, edgeCap, propertyCap))
  }

  /** `nty_node_create`: allocate, set the record's id, append to the node order; on an
      append failure the slot is freed again and 0 returned. */
  function NodeCreate(g: Graph): (r: (Graph, Id))
    requires Shaped(g)
    ensures Shaped(r.0)
    ensures r.1 != 0 ==> NodeLive(r.0, r.1) && NodeAt(r.0, r.1) == ZeroNode.(id := r.1)
    ensures r.1 != 0 ==> r.0.nodeOrder == g.nodeOrder + [r.1]
    ensures r.0.edges == g.edges && r.0.properties == g.properties
    ensures r.0.edgeOrder == g.edgeOrder && r.0.propertyOrder == g.propertyOrder
    ensures r.1 == 0 ==> r.0.nodeOrder == g.nodeOrder
  {
    var (ns, id) := Slab.Alloc(g.nodes, ZeroNode);
    if id == 0 then (g, 0)
    else
      var ns1 := Slab.Put(ns, id, ZeroNode.(id := id));
      match OrderAppend(g.nodeOrder, g.nodeOrderCap, id)
      case None => (g.(nodes := Slab.Free(ns1, id).0), 0)
      case Some(order) => (g.(nodes := ns1, nodeOrder := order), id)
  }

  /** Set the `next` link in direction `d` of edge `x`, when `x` exists. */
  function SetEdgeNext(g: Graph, x: Id, d: Dir, v: Id): (r: Graph)
    requires Shaped(g)
    ensures Shaped(r) && SameBookkeeping(g, r) && r.nodes == g.nodes
    ensures forall y :: Strip(EdgeAt(r, y), d) == Strip(EdgeAt(g, y), d)
    ensures forall y :: IndexOf(y) != IndexOf(x) ==> EdgeAt(r, y) == EdgeAt(g, y)
    ensures EdgeLive(g, x) ==> Next(EdgeAt(r, x), d) == v && Prev(EdgeAt(r, x), d) == Prev(EdgeAt(g, x), d)
  {
    if EdgeLive(g, x) then PutEdge(g, x, SetNext(EdgeAt(g, x), d, v)) else g
  }

  /** Set the `prev` link in direction `d` of edge `x`, when `x` exists. */
  function SetEdgePrev(g: Graph, x: Id, d: Dir, v: Id): (r: Graph)
    requires Shaped(g)
    ensures Shaped(r) && SameBookkeeping(g, r) && r.nodes == g.nodes
    ensures forall y :: Strip(EdgeAt(r, y), d) == Strip(EdgeAt(g, y), d)
    ensures forall y :: IndexOf(y) != IndexOf(x) ==> EdgeAt(r, y) == EdgeAt(g, y)
    ensures EdgeLive(g, x) ==> Prev(EdgeAt(r, x), d) == v && Next(EdgeAt(r, x), d) == Next(EdgeAt(g, x), d)
  {
    if EdgeLive(g, x) then PutEdge(g, x, SetPrev(EdgeAt(g, x), d, v)) else g
  }

  /** Set node `n`'s list head in direction `d`. */
  function SetNodeHead(g: Graph, n: Id, d: Dir, v: Id): (r: Graph)
    requires Shaped(g) && NodeLive(g, n)
    ensures Shaped(r) && SameBookkeeping(g, r) && r.edges == g.edges
    ensures forall m :: StripNode(NodeAt(r, m), d) == StripNode(NodeAt(g, m), d)
    ensures forall m :: IndexOf(m) != IndexOf(n) ==> NodeAt(r, m) == NodeAt(g, m)
    ensures Head(NodeAt(r, n), d) == v && Tail(NodeAt(r, n), d) == Tail(NodeAt(g, n), d)
  {
    PutNode(g, n, SetHead(NodeAt(g, n), d, v))
  }

  /** Set node `n`'s list tail in direction `d`. */
  function SetNodeTail(g: Graph, n: Id, d: Dir, v: Id): (r: Graph)
    requires Shaped(g) && NodeLive(g, n)
    ensures Shaped(r) && SameBookkeeping(g, r) && r.edges == g.edges
    ensures forall m :: StripNode(NodeAt(r, m), d) == StripNode(NodeAt(g, m), d)
    ensures forall m :: IndexOf(m) != IndexOf(n) ==> NodeAt(r, m) == NodeAt(g, m)
    ensures Tail(NodeAt(r, n), d) == v && Head(NodeAt(r, n), d) == Head(NodeAt(g, n), d)
  {
    PutNode(g, n, SetTail(NodeAt(g, n), d, v))
  }

  /** Append edge `e` at the tail of node `n`'s list in direction `d`: the old tail's `next`
      becomes `e` (or, for an empty list, the head does) and the tail becomes `e`. */
  function LinkTail(g: Graph, e: Id, n: Id, d: Dir): (r: Graph)
    requires Shaped(g) && NodeLive(g, n)
    ensures Shaped(r) && SameBookkeeping(g, r)
    ensures forall x :: Strip(EdgeAt(r, x), d) == Strip(EdgeAt(g, x), d)
    ensures forall m :: StripNode(NodeAt(r, m), d) == StripNode(NodeAt(g, m), d)
    ensures forall m :: IndexOf(m) != IndexOf(n) ==> NodeAt(r, m) == NodeAt(g, m)
  {
    var t := Tail(NodeAt(g, n), d);
    var g1 := if t != 0 then SetEdgeNext(g, t, d, e) else SetNodeHead(g, n, d, e);
    SetNodeTail(g1, n, d, e)
  }

  /** The linking half of edge creation: store the record in its slot, then append it at the
      tail of its source's outgoing list and of its target's incoming list. */
  function EdgeLink(g: Graph, es: Slab.Slab<Edge>, id: Id, rec: Edge): (r: Graph)
    requires Shaped(g) && Slab.Shaped(es) && Slab.Exists(es, id)
    requires NodeLive(g, rec.from) && NodeLive(g, rec.to)
    ensures Shaped(r) && EdgeLive(r, id)
    ensures r.edgeOrder == g.edgeOrder && r.nodeOrder == g.nodeOrder && r.properties == g.properties
    ensures forall x :: NodeLive(r, x) <==> NodeLive(g, x)
    ensures var E := EdgeAt(r, id);
      E.id == rec.id && E.from == rec.from && E.to == rec.to && E.kind == rec.kind
      && E.weight == rec.weight && E.timestamp == rec.timestamp
  {
    var g1 := g.(edges := Slab.Put(es, id, rec));
    var g2 := LinkTail(g1, id, rec.from, Out);
    LinkTail(g2, id, rec.to, In)
  }

  /** `nty_edge_create`: both endpoints must exist; the new edge is appended at the tail of
      `from`'s out-list and of `to`'s in-list, then to the edge order.  If the order append
      fails the edge is unlinked and freed and 0 returned. */
  function EdgeCreate(g: Graph, from: Id, to: Id, kind: U64, weight: real, timestamp: U64): (r: (Graph, Id))
    requires Shaped(g)
    ensures Shaped(r.0)
    ensures !NodeLive(g, from) || !NodeLive(g, to) ==> r == (g, 0)
    ensures r.1 != 0 ==> NodeLive(g, from) && NodeLive(g, to) && EdgeLive(r.0, r.1)
    ensures r.1 != 0 ==> var E := EdgeAt(r.0, r.1);
      E.id == r.1 && E.from == from && E.to == to && E.kind == kind && E.weight == weight
      && E.timestamp == timestamp
    ensures r.1 != 0 ==> r.0.edgeOrder == g.edgeOrder + [r.1]
    ensures r.1 == 0 ==> r.0.edgeOrder == g.edgeOrder
    ensures r.0.nodeOrder == g.nodeOrder && r.0.properties == g.properties
    ensures forall x :: NodeLive(r.0, x) <==> NodeLive(g, x)
  {
    if !NodeLive(g, from) || !NodeLive(g, to) then (g, 0)
    else
      var (es, id) := Slab.Alloc(g.edges, ZeroEdge);
      if id == 0 then (g, 0)
      else
        var rec := Edge(id, from, to, kind, weight, timestamp,
                        Tail(NodeAt(g, from), Out), 0, Tail(NodeAt(g, to), In), 0);
        var g3 := EdgeLink(g, es, id, rec);
        match OrderAppend(g3.edgeOrder, g3.edgeOrderCap, id)
        case None => (EdgeAbandon(g3, id), 0)
        case Some(order) => (g3.(edgeOrder := order), id)
  }

  /** The rollback of edge creation when the order array is full: unlink the edge from both
      lists and free its slot. */
  function EdgeAbandon(g: Graph, id: Id): (r: Graph)
    requires Shaped(g)
    ensures Shaped(r)
    ensures r.edgeOrder == g.edgeOrder && r.nodeOrder == g.nodeOrder && r.properties == g.properties
    ensures forall x :: NodeLive(r, x) <==> NodeLive(g, x)
  {
    var g4 := Unlink(g, id);
    g4.(edges := Slab.Free(g4.edges, id).0)
  }

  /** Make whatever points forward at `e` (its predecessor `p`, or node `n`'s head when there
      is none) point at its successor `q` instead. */
  function BypassForward(g: Graph, n: Id, p: Id, q: Id, d: Dir): (r: Graph)
    requires Shaped(g) && NodeLive(g, n)
    ensures Shaped(r) && SameBookkeeping(g, r)
    ensures forall x :: Strip(EdgeAt(r, x), d) == Strip(EdgeAt(g, x), d)
    ensures forall m :: StripNode(NodeAt(r, m), d) == StripNode(NodeAt(g, m), d)
    ensures forall m :: IndexOf(m) != IndexOf(n) ==> NodeAt(r, m) == NodeAt(g, m)
  {
    if p != 0 then SetEdgeNext(g, p, d, q) else SetNodeHead(g, n, d, q)
  }

  /** Make whatever points backward at `e` (its successor `q`, or node `n`'s tail when there
      is none) point at its predecessor `p` instead. */
  function BypassBackward(g: Graph, n: Id, p: Id, q: Id, d: Dir): (r: Graph)
    requires Shaped(g) && NodeLive(g, n)
    ensures Shaped(r) && SameBookkeeping(g, r)
    ensures forall x :: Strip(EdgeAt(r, x), d) == Strip(EdgeAt(g, x), d)
    ensures forall m :: StripNode(NodeAt(r, m), d) == StripNode(NodeAt(g, m), d)
    ensures forall m :: IndexOf(m) != IndexOf(n) ==> NodeAt(r, m) == NodeAt(g, m)
  {
    if q != 0 then SetEdgePrev(g, q, d, p) else SetNodeTail(g, n, d, p)
  }

  /** Splice edge `e` out of its list in direction `d`: its predecessor's `next` (or the
      owning node's head) skips it, its successor's `prev` (or the node's tail) skips it.
      Nothing is done when the owning node no longer exists. */
  function UnlinkDir(g: Graph, e: Id, d: Dir): (r: Graph)
    requires Shaped(g)
    ensures Shaped(r) && SameBookkeeping(g, r)
    ensures forall x :: Strip(EdgeAt(r, x), d) == Strip(EdgeAt(g, x), d)
    ensures forall m :: StripNode(NodeAt(r, m), d) == StripNode(NodeAt(g, m), d)
    ensures forall m :: IndexOf(m) != IndexOf(End(EdgeAt(g, e), d)) ==> NodeAt(r, m) == NodeAt(g, m)
  {
    var E := EdgeAt(g, e);
    var n := End(E, d);
    if !NodeLive(g, n) then g
    else
      var g1 := BypassForward(g, n, Prev(E, d), Next(E, d), d);
      BypassBackward(g1, n, Prev(E, d), Next(E, d), d)
  }

  /** `nty_edge_unlink`: the out-list of `from`, then the in-list of `to`. */
  function Unlink(g: Graph, e: Id): (r: Graph)
    requires Shaped(g)
    ensures Shaped(r) && SameBookkeeping(g, r)
  {
    UnlinkDir(UnlinkDir(g, e, Out), e, In)
  }

  /** `nty_edge_destroy`: a live edge is unlinked, its slot freed and its id dropped from the
      edge order; anything else returns false with no change. */
  function EdgeDestroy(g: Graph, e: Id): (r: (Graph, bool))
    requires Shaped(g)
    ensures Shaped(r.0)
    ensures r.1 <==> EdgeLive(g, e)
    ensures !r.1 ==> r.0 == g
    ensures r.1 ==> !EdgeLive(r.0, e) && r.0.edgeOrder == OrderRemove(g.edgeOrder, e)
    ensures r.1 ==> CountTrue(r.0.edges.occupied) < CountTrue(g.edges.occupied)
    ensures r.1 ==> forall x :: x != e ==> (EdgeLive(r.0, x) <==> EdgeLive(g, x))
    ensures r.0.nodes.occupied == g.nodes.occupied && r.0.nodes.generation == g.nodes.generation
    ensures r.0.nodes.capacity == g.nodes.capacity
    ensures r.0.nodeOrder == g.nodeOrder && r.0.properties == g.properties
    ensures r.0.propertyOrder == g.propertyOrder
  {
    if !EdgeLive(g, e) then (g, false)
    else
      var g1 := Unlink(g, e);
      var (es, ok) := Slab.Free(g1.edges, e);
      if !ok then (g1, false)
      else (g1.(edges := es, edgeOrder := OrderRemove(g1.edgeOrder, e)), true)
  }

  /** The loop of `nty_node_destroy` that destroys the edge at the head of node `n`'s list in
      direction `d`, re-reading the head each time, until the list is empty.  Were the head an
      edge that cannot be destroyed the C loop would never end; the model stops there instead,
      and `Drain` is proved never to meet that case on a valid store. */
  function Drain(g: Graph, n: Id, d: Dir): (r: Graph)
    requires Shaped(g)
    ensures Shaped(r)
    ensures forall x :: NodeLive(r, x) <==> NodeLive(g, x)
    ensures r.nodeOrder == g.nodeOrder && r.properties == g.properties
    ensures r.propertyOrder == g.propertyOrder
    ensures forall x :: EdgeLive(r, x) ==> EdgeLive(g, x)
    decreases CountTrue(g.edges.occupied)
  {
    var h := Head(NodeAt(g, n), d);
    if h == 0 then g
    else
      var (g1, ok) := EdgeDestroy(g, h);
      if !ok then g else Drain(g1, n, d)
  }

  /** `nty_node_destroy`: a live node first loses every outgoing edge, then every incoming
      edge, then its slot and its place in the node order; an unknown id returns false. */
  function NodeDestroy(g: Graph, n: Id): (r: (Graph, bool))
    requires Shaped(g)
    ensures Shaped(r.0)
    ensures r.1 <==> NodeLive(g, n)
    ensures !r.1 ==> r.0 == g
    ensures r.1 ==> !NodeLive(r.0, n) && r.0.nodeOrder == OrderRemove(g.nodeOrder, n)
    ensures r.1 ==> forall x :: x != n ==> (NodeLive(r.0, x) <==> NodeLive(g, x))
    ensures r.0.properties == g.properties && r.0.propertyOrder == g.propertyOrder
  {
    if !NodeLive(g, n) then (g, false)
    else
      var g1 := Drain(g, n, Out);
      var g2 := Drain(g1, n, In);
      var (ns, ok) := Slab.Free(g2.nodes, n);
      if !ok then (g2, false)
      else (g2.(nodes := ns, nodeOrder := OrderRemove(g2.nodeOrder, n)), true)
  }

  /** `nty_property_create`: no link to the owner is made or checked. */
  function PropertyCreate(g: Graph, owner: Id, key: U64, value: real): (r: (Graph, Id))
    requires Shaped(g)
    ensures Shaped(r.0)
    ensures r.1 != 0 ==> PropertyLive(r.0, r.1) && PropertyAt(r.0, r.1) == Property(r.1, owner, key, value)
    ensures r.1 != 0 ==> r.0.propertyOrder == g.propertyOrder + [r.1]
    ensures r.1 == 0 ==> r.0.propertyOrder == g.propertyOrder
    ensures r.0 == g.(properties := r.0.properties, propertyOrder := r.0.propertyOrder)
  {
    var (ps, id) := Slab.Alloc(g.properties, ZeroProperty);
    if id == 0 then (g, 0)
    else
      var ps1 := Slab.Put(ps, id, Property(id, owner, key, value));
      match OrderAppend(g.propertyOrder, g.propertyOrderCap, id)
      case None => (g.(properties := Slab.Free(ps1, id).0), 0)
      case Some(order) => (g.(properties := ps1, propertyOrder := order), id)
  }

  /** `nty_property_destroy`: free the slot, then drop the id from the property order. */
  function PropertyDestroy(g: Graph, p: Id): (r: (Graph, bool))
    requires Shaped(g)
    ensures Shaped(r.0)
    ensures r.1 <==> PropertyLive(g, p)
    ensures !r.1 ==> r.0 == g
    ensures r.1 ==> !PropertyLive(r.0, p) && r.0.propertyOrder == OrderRemove(g.propertyOrder, p)
    ensures r.1 ==> forall x :: x != p ==> (PropertyLive(r.0, x) <==> PropertyLive(g, x))
    ensures r.0 == g.(properties := r.0.properties, propertyOrder := r.0.propertyOrder)
  {
    var (ps, ok) := Slab.Free(g.properties, p);
    if !ok then (g, false)
    else (g.(properties := ps, propertyOrder := OrderRemove(g.propertyOrder, p)), true)
  }

  /** `nty_graph_node_count` and friends: the slabs' live counts. */
  function NodeCount(g: Graph): U32 { g.nodes.count }
  function EdgeCount(g: Graph): U32 { g.edges.count }
  function PropertyCount(g: Graph): U32 { g.properties.count }

  // ---------------------------------------------------------------------------------------
  // Iteration

  /** `nty_node_iter_next` (and the edge and property versions): from position `index` of a
      creation-order array, skip ids that no longer exist and yield the first that does,
      with the position after it; at the end, nothing, with the position at the end. */
  function IterNext<T>(order: seq<Id>, s: Slab.Slab<T>, index: nat): (r: (Option<Id>, nat))
    ensures r.0.Some? ==> index < r.1 <= |order| && order[r.1 - 1] == r.0.value && Slab.Exists(s, r.0.value)
    ensures r.0.Some? ==> forall k :: index <= k < r.1 - 1 ==> !Slab.Exists(s, order[k])
    ensures r.0.None? ==> forall k :: index <= k < |order| ==> !Slab.Exists(s, order[k])
    decreases |order| - index
  {
    if index >= |order| then (None, index)
    else if Slab.Exists(s, order[index]) then (Some(order[index]), index + 1)
    else IterNext(order, s, index + 1)
  }

  /** Everything a fresh entity iterator yields, calling `IterNext` until it reports the end. */
  function IterAll<T>(order: seq<Id>, s: Slab.Slab<T>, index: nat): seq<Id>
    decreases |order| - index
  {
    match IterNext(order, s, index)
    case (None, _) => []
    case (Some(id), next) => [id] + IterAll(order, s, next)
  }

  function Nodes(g: Graph): seq<Id> { IterAll(g.nodeOrder, g.nodes, 0) }
  function Edges(g: Graph): seq<Id> { IterAll(g.edgeOrder, g.edges, 0) }
  function Properties(g: Graph): seq<Id> { IterAll(g.propertyOrder, g.properties, 0) }

  /** `nty_node_out_edges` / `nty_node_in_edges`: the walk starts at the node's current head,
      or at 0 (an empty walk) for a node that does not exist. */
  function NeighborStart(g: Graph, n: Id, d: Dir): Id
  {
    if NodeLive(g, n) then Head(NodeAt(g, n), d) else 0
  }

  /** `nty_neighbor_iter_next`: yield the current edge and move to its `next` link; stop at 0
      or at an id that does not exist. */
  function NeighborNext(g: Graph, current: Id, d: Dir): (r: Option<(Id, Id)>)
    ensures r.Some? ==> r.value.0 == current && EdgeLive(g, current)
    ensures r.None? <==> current == 0 || !EdgeLive(g, current)
  {
    if current == 0 then None
    else if !EdgeLive(g, current) then None
    else Some((current, Next(EdgeAt(g, current), d)))
  }

  /** The edges a caller sees by calling `NeighborNext` at most `fuel` times. */
  function Walk(g: Graph, current: Id, d: Dir, fuel: nat): seq<Id>
    decreases fuel
  {
    if fuel == 0 then []
    else
      match NeighborNext(g, current, d)
      case None => []
      case Some((e, next)) => [e] + Walk(g, next, d, fuel - 1)
  }

  /** A full neighbour walk; `capacity + 1` calls always reach the end of a valid list. */
  function Neighbors(g: Graph, n: Id, d: Dir): seq<Id>
  {
    Walk(g, NeighborStart(g, n, d), d, g.edges.capacity + 1)
  }
}

=== FILE: graph_iter.dfy ===
/** What the store's iterators yield on a valid store.

    The entity iterators walk a creation-order array and skip ids that no longer exist; the
    neighbour iterator follows a node's list links.  On a valid store the first yields every
    live id once, oldest first, and the second yields exactly the edges the node owns in that
    direction, in creation order. */
module GraphIter {
  import opened Common
  import opened Ids
  import opened Graph
  import opened GraphLists
  import opened GraphValid
  import Slab

  /** Whether an id is live in slab `s`. */
  function LiveIn<T>(s: Slab.Slab<T>): Id -> bool
  {
    (x: Id) => Slab.Exists(s, x)
  }

  /** An entity iterator started at position `i` yields the ids from there on that are still
      live, in array order, whatever the array holds. */
  lemma {:induction false} IterAllLive<T>(order: seq<Id>, s: Slab.Slab<T>, i: nat)
    requires i <= |order|
    ensures IterAll(order, s, i) == Filter(order[i..], LiveIn(s))
    decreases |order| - i
  {
    var r := IterNext(order, s, i);
    if r.0.None? {
      forall k | 0 <= k < |order[i..]| ensures !LiveIn(s)(order[i..][k]) {
        assert order[i..][k] == order[i + k];
      }
      FilterNone(order[i..], LiveIn(s));
    } else {
      var id := r.0.value;
      var next := r.1;
      IterAllLive(order, s, next);
      var skipped := order[i..next - 1];
      forall k | 0 <= k < |skipped| ensures !LiveIn(s)(skipped[k]) {
        assert skipped[k] == order[i + k];
      }
      FilterNone(skipped, LiveIn(s));
      assert order[i..] == skipped + ([id] + order[next..]);
      FilterConcat(skipped, [id] + order[next..], LiveIn(s));
      FilterConcat([id], order[next..], LiveIn(s));
      FilterSingle(id, LiveIn(s));
    }
  }

  /** On a slab whose creation-order array agrees with it, iteration yields the array itself:
      every live id once, oldest first, and as many as the slab counts. */
  lemma IterAllValid<T>(s: Slab.Slab<T>, order: seq<Id>, cap: nat)
    requires OrderValid(s, order, cap)
    ensures IterAll(order, s, 0) == order
    ensures forall x :: x in IterAll(order, s, 0) <==> Slab.Exists(s, x)
    ensures Distinct(IterAll(order, s, 0)) && |IterAll(order, s, 0)| == s.count
  {
    IterAllLive(order, s, 0);
    assert order[0..] == order;
    forall k | 0 <= k < |order| ensures LiveIn(s)(order[k]) {
      assert order[k] in order;
    }
    FilterAll(order, LiveIn(s));
  }

  /** `nty_graph_nodes`, `nty_graph_edges` and `nty_graph_properties` on a valid store. */
  lemma IteratorsValid(g: Graph)
    requires Valid(g)
    ensures Nodes(g) == g.nodeOrder && |Nodes(g)| == NodeCount(g)
    ensures Edges(g) == g.edgeOrder && |Edges(g)| == EdgeCount(g)
    ensures Properties(g) == g.propertyOrder && |Properties(g)| == PropertyCount(g)
    ensures forall x :: x in Nodes(g) <==> NodeLive(g, x)
    ensures forall x :: x in Edges(g) <==> EdgeLive(g, x)
    ensures forall x :: x in Properties(g) <==> PropertyLive(g, x)
  {
    IterAllValid(g.nodes, g.nodeOrder, g.nodeOrderCap);
    IterAllValid(g.edges, g.edgeOrder, g.edgeOrderCap);
    IterAllValid(g.properties, g.propertyOrder, g.propertyOrderCap);
  }

  /** Walking a well-linked list from position `j` with enough calls yields the rest of it. */
  lemma {:induction false} WalkList(g: Graph, n: Id, d: Dir, L: seq<Id>, j: nat, fuel: nat)
    requires IsList(g, n, d, L) && j <= |L| && fuel > |L| - j
    ensures Walk(g, if j < |L| then L[j] else 0, d, fuel) == L[j..]
    decreases |L| - j
  {
    if j < |L| {
      ListMember(g, n, d, L, j);
      WalkList(g, n, d, L, j + 1, fuel - 1);
      assert L[j..] == [L[j]] + L[j + 1..];
    }
  }

  /** A node that does not exist owns no edge on a valid store. */
  lemma DeadNodeAdj(g: Graph, n: Id, d: Dir)
    requires OrderValid(g.edges, g.edgeOrder, g.edgeOrderCap) && RecordsValid(g) && !NodeLive(g, n)
    ensures Adj(g, n, d) == []
  {
    forall i | 0 <= i < |g.edgeOrder| ensures !Owned(g, n, d)(g.edgeOrder[i]) {
      assert g.edgeOrder[i] in g.edgeOrder;
      EndLive(g, g.edgeOrder[i], d);
    }
    FilterNone(g.edgeOrder, Owned(g, n, d));
  }

  /** `nty_node_out_edges` / `nty_node_in_edges` followed by `nty_neighbor_iter_next` until it
      reports the end: on a valid store the walk yields exactly the live edges leaving
      (entering) the node, in creation order, and nothing for a node that does not exist. */
  lemma NeighborsValid(g: Graph, n: Id, d: Dir)
    requires Valid(g)
    ensures Neighbors(g, n, d) == Adj(g, n, d)
    ensures forall e :: e in Neighbors(g, n, d) <==> EdgeLive(g, e) && End(EdgeAt(g, e), d) == n
  {
    AdjFacts(g, n, d);
    if NodeLive(g, n) {
      LiveNeighbors(g, n, d);
    } else {
      DeadNodeAdj(g, n, d);
    }
  }

  /** The walk from a live node covers its whole list. */
  lemma LiveNeighbors(g: Graph, n: Id, d: Dir)
    requires Valid(g) && NodeLive(g, n)
    ensures Neighbors(g, n, d) == Adj(g, n, d)
  {
    AdjFacts(g, n, d);
    Slab.CountBound(g.edges);
    ListNeighbors(g, n, d, Adj(g, n, d));
  }

  /** A live node's well-linked list no longer than the edge capacity is what the walk yields. */
  lemma ListNeighbors(g: Graph, n: Id, d: Dir, L: seq<Id>)
    requires NodeLive(g, n) && IsList(g, n, d, L) && |L| <= g.edges.capacity
    ensures Neighbors(g, n, d) == L
  {
    WalkList(g, n, d, L, 0, g.edges.capacity + 1);
    assert L[0..] == L;
  }

  /** The consistency walk of the graph test suite: every edge the edge iterator yields has two
      live endpoints, and every edge a node's outgoing (incoming) walk yields leaves (enters)
      that node. */
  lemma WalkConsistent(g: Graph)
    requires Valid(g)
    ensures forall e :: e in Edges(g) ==>
      EdgeGet(g, e).Some? && NodeLive(g, EdgeAt(g, e).from) && NodeLive(g, EdgeAt(g, e).to)
    ensures forall n, e :: n in Nodes(g) && e in Neighbors(g, n, Out) ==>
      EdgeGet(g, e).Some? && EdgeAt(g, e).from == n
    ensures forall n, e :: n in Nodes(g) && e in Neighbors(g, n, In) ==>
      EdgeGet(g, e).Some? && EdgeAt(g, e).to == n
  {
    IteratorsValid(g);
    forall n | n in Nodes(g)
      ensures forall e :: e in Neighbors(g, n, Out) ==> EdgeLive(g, e) && EdgeAt(g, e).from == n
      ensures forall e :: e in Neighbors(g, n, In) ==> EdgeLive(g, e) && EdgeAt(g, e).to == n
    {
      NeighborsValid(g, n, Out);
      NeighborsValid(g, n, In);
    }
  }
}

=== FILE: graph_lists.dfy ===
/** The intrusive adjacency lists of the graph store, read as sequences of edge ids, and what
    linking an edge at a tail and unlinking an edge do to them. */
module GraphLists {
  import opened Common
  import opened Ids
  import opened Graph
  import Slab

  /** `L` is node `n`'s list in direction `d`: the node's head and tail name its two ends (both
      0 for an empty list), every member is a live edge owned by `n` in that direction, and each
      member's `prev` and `next` name its neighbours in `L` (0 past either end). */
  ghost predicate IsList(g: Graph, n: Id, d: Dir, L: seq<Id>)
  {
    var N := NodeAt(g, n);
    && (|L| == 0 ==> Head(N, d) == 0 && Tail(N, d) == 0)
    && (|L| > 0 ==> Head(N, d) == L[0] && Tail(N, d) == L[|L| - 1])
    && (forall k {:trigger EdgeAt(g, L[k])} :: 0 <= k < |L| ==>
          EdgeLive(g, L[k]) && End(EdgeAt(g, L[k]), d) == n)
    && (forall k {:trigger EdgeAt(g, L[k])} :: 0 <= k < |L| ==>
          Prev(EdgeAt(g, L[k]), d) == (if k == 0 then 0 else L[k - 1]))
    && (forall k {:trigger EdgeAt(g, L[k])} :: 0 <= k < |L| ==>
          Next(EdgeAt(g, L[k]), d) == (if k == |L| - 1 then 0 else L[k + 1]))
  }

  function Other(d: Dir): Dir
  {
    match d
    case Out => In
    case In => Out
  }

  /** Two records agree on what a list in direction `d` reads of them. */
  predicate SameLinks(a: Edge, b: Edge, d: Dir)
  {
    End(a, d) == End(b, d) && Prev(a, d) == Prev(b, d) && Next(a, d) == Next(b, d)
  }

  /** Blanking the links of one direction keeps the owner of that direction and everything of
      the other direction. */
  lemma StripKeeps(a: Edge, b: Edge, d: Dir)
    requires Strip(a, d) == Strip(b, d)
    ensures End(a, d) == End(b, d) && SameLinks(a, b, Other(d))
  {
    match d
    case Out =>
      assert Strip(a, d).inPrev == a.inPrev && Strip(b, d).inPrev == b.inPrev;
      assert Strip(a, d).inNext == a.inNext && Strip(b, d).inNext == b.inNext;
      assert Strip(a, d).from == a.from && Strip(b, d).from == b.from;
      assert Strip(a, d).to == a.to && Strip(b, d).to == b.to;
    case In =>
      assert Strip(a, d).outPrev == a.outPrev && Strip(b, d).outPrev == b.outPrev;
      assert Strip(a, d).outNext == a.outNext && Strip(b, d).outNext == b.outNext;
      assert Strip(a, d).from == a.from && Strip(b, d).from == b.from;
      assert Strip(a, d).to == a.to && Strip(b, d).to == b.to;
  }

  lemma StripNodeKeeps(a: Node, b: Node, d: Dir)
    requires StripNode(a, d) == StripNode(b, d)
    ensures Head(a, Other(d)) == Head(b, Other(d)) && Tail(a, Other(d)) == Tail(b, Other(d))
  {
    match d
    case Out =>
      assert StripNode(a, d).inHead == a.inHead && StripNode(b, d).inHead == b.inHead;
      assert StripNode(a, d).inTail == a.inTail && StripNode(b, d).inTail == b.inTail;
    case In =>
      assert StripNode(a, d).outHead == a.outHead && StripNode(b, d).outHead == b.outHead;
      assert StripNode(a, d).outTail == a.outTail && StripNode(b, d).outTail == b.outTail;
  }

  /** Changing record contents only keeps every id's liveness. */
  lemma SameBookkeepingLive(g: Graph, g': Graph)
    requires Shaped(g) && Shaped(g') && SameBookkeeping(g, g')
    ensures forall x :: NodeLive(g', x) <==> NodeLive(g, x)
    ensures forall x :: EdgeLive(g', x) <==> EdgeLive(g, x)
    ensures forall x :: PropertyLive(g', x) <==> PropertyLive(g, x)
  {
  }

  /** A list survives any change that keeps its node's ends, its members live and their links. */
  lemma ListFrame(g: Graph, g': Graph, n: Id, d: Dir, L: seq<Id>)
    requires IsList(g, n, d, L)
    requires Head(NodeAt(g', n), d) == Head(NodeAt(g, n), d)
    requires Tail(NodeAt(g', n), d) == Tail(NodeAt(g, n), d)
    requires forall k :: 0 <= k < |L| ==> EdgeLive(g', L[k])
    requires forall k :: 0 <= k < |L| ==> SameLinks(EdgeAt(g', L[k]), EdgeAt(g, L[k]), d)
    ensures IsList(g', n, d, L)
  {
  }

  /** A change confined to the links of direction `d` keeps every list of the other direction. */
  lemma OtherDirFrame(g: Graph, g': Graph, n: Id, d: Dir, L: seq<Id>)
    requires Shaped(g) && Shaped(g') && SameBookkeeping(g, g')
    requires forall x :: Strip(EdgeAt(g', x), d) == Strip(EdgeAt(g, x), d)
    requires forall m :: StripNode(NodeAt(g', m), d) == StripNode(NodeAt(g, m), d)
    requires IsList(g, n, Other(d), L)
    ensures IsList(g', n, Other(d), L)
  {
    SameBookkeepingLive(g, g');
    StripNodeKeeps(NodeAt(g', n), NodeAt(g, n), d);
    forall k | 0 <= k < |L|
      ensures SameLinks(EdgeAt(g', L[k]), EdgeAt(g, L[k]), Other(d))
    {
      StripKeeps(EdgeAt(g', L[k]), EdgeAt(g, L[k]), d);
    }
    ListFrame(g, g', n, Other(d), L);
  }

  /** The members of a list are nonzero, and the tail is 0 exactly when the list is empty. */
  lemma ListTail(g: Graph, n: Id, d: Dir, L: seq<Id>)
    requires Shaped(g) && IsList(g, n, d, L)
    ensures forall k :: 0 <= k < |L| ==> L[k] != 0
    ensures Tail(NodeAt(g, n), d) == 0 <==> |L| == 0
    ensures Head(NodeAt(g, n), d) == 0 <==> |L| == 0
  {
    forall k | 0 <= k < |L| ensures L[k] != 0 {
      ListMember(g, n, d, L, k);
    }
  }

  /** What the list says about its member at position `k`. */
  lemma ListMember(g: Graph, n: Id, d: Dir, L: seq<Id>, k: nat)
    requires IsList(g, n, d, L) && k < |L|
    ensures EdgeLive(g, L[k]) && End(EdgeAt(g, L[k]), d) == n && L[k] != 0
    ensures Prev(EdgeAt(g, L[k]), d) == (if k == 0 then 0 else L[k - 1])
    ensures Next(EdgeAt(g, L[k]), d) == (if k == |L| - 1 then 0 else L[k + 1])
  {
    var E := EdgeAt(g, L[k]);
    Slab.ExistsSameIndex(g.edges, L[k], L[k]);
  }

  /** Two distinct live edges occupy different slots. */
  lemma DistinctSlots(g: Graph, a: Id, b: Id)
    requires EdgeLive(g, a) && (EdgeLive(g, b) || b == 0) && a != b
    ensures IndexOf(a) != IndexOf(b)
  {
    if IndexOf(a) == IndexOf(b) && b != 0 {
      Slab.ExistsSameIndex(g.edges, a, b);
    }
  }

  lemma DistinctNodeSlots(g: Graph, a: Id, b: Id)
    requires NodeLive(g, a) && NodeLive(g, b) && a != b
    ensures IndexOf(a) != IndexOf(b)
  {
    if IndexOf(a) == IndexOf(b) {
      Slab.ExistsSameIndex(g.nodes, a, b);
    }
  }

  // ---------------------------------------------------------------------------------------
  // Linking at the tail

  /** What `LinkTail` changes: the old tail's `next` (or the head) and the tail of node `n`. */
  lemma LinkTailEffect(g: Graph, e: Id, n: Id, d: Dir)
    requires Shaped(g) && NodeLive(g, n)
    requires var t := Tail(NodeAt(g, n), d); t == 0 || EdgeLive(g, t)
    ensures var r := LinkTail(g, e, n, d);
      var t := Tail(NodeAt(g, n), d);
      && (forall x :: EdgeLive(r, x) <==> EdgeLive(g, x))
      && (forall x :: NodeLive(r, x) <==> NodeLive(g, x))
      && (forall x :: EdgeLive(g, x) && x != t ==> EdgeAt(r, x) == EdgeAt(g, x))
      && (t != 0 ==> End(EdgeAt(r, t), d) == End(EdgeAt(g, t), d)
                     && Prev(EdgeAt(r, t), d) == Prev(EdgeAt(g, t), d) && Next(EdgeAt(r, t), d) == e)
      && Tail(NodeAt(r, n), d) == e
      && Head(NodeAt(r, n), d) == (if t == 0 then e else Head(NodeAt(g, n), d))
      && (forall m :: NodeLive(g, m) && m != n ==> NodeAt(r, m) == NodeAt(g, m))
  {
    var t := Tail(NodeAt(g, n), d);
    var g1 := if t != 0 then SetEdgeNext(g, t, d, e) else SetNodeHead(g, n, d, e);
    var r := SetNodeTail(g1, n, d, e);
    assert r == LinkTail(g, e, n, d);
    SameBookkeepingLive(g, g1);
    SameBookkeepingLive(g1, r);
    forall x | EdgeLive(g, x) && x != t
      ensures EdgeAt(r, x) == EdgeAt(g, x)
    {
      DistinctSlots(g, x, t);
    }
    if t != 0 {
      StripKeeps(EdgeAt(r, t), EdgeAt(g, t), d);
    }
    forall m | NodeLive(g, m) && m != n
      ensures NodeAt(r, m) == NodeAt(g, m)
    {
      DistinctNodeSlots(g, m, n);
    }
  }

  /** What `SnocList` needs of the store after the append. */
  ghost predicate Appended(g: Graph, r: Graph, n: Id, d: Dir, L: seq<Id>, e: Id)
  {
    var t := if |L| == 0 then 0 else L[|L| - 1];
    && e !in L
    && (forall x :: EdgeLive(r, x) <==> EdgeLive(g, x))
    && (forall x :: EdgeLive(g, x) && x != t ==> EdgeAt(r, x) == EdgeAt(g, x))
    && (t != 0 ==> End(EdgeAt(r, t), d) == n && Prev(EdgeAt(r, t), d) == Prev(EdgeAt(g, t), d)
                   && Next(EdgeAt(r, t), d) == e)
    && EdgeLive(g, e) && End(EdgeAt(g, e), d) == n
    && Prev(EdgeAt(g, e), d) == t && Next(EdgeAt(g, e), d) == 0
    && Tail(NodeAt(r, n), d) == e
    && Head(NodeAt(r, n), d) == (if |L| == 0 then e else L[0])
    && (|L| > 0 ==> L[|L| - 1] != 0)
  }

  /** Position `k` of the longer list. */
  lemma SnocMember(g: Graph, r: Graph, n: Id, d: Dir, L: seq<Id>, e: Id, L': seq<Id>, k: nat)
    requires IsList(g, n, d, L) && Appended(g, r, n, d, L, e) && Snoc(L, e, L') && k < |L'|
    ensures EdgeLive(r, L'[k]) && End(EdgeAt(r, L'[k]), d) == n
    ensures Prev(EdgeAt(r, L'[k]), d) == (if k == 0 then 0 else L'[k - 1])
    ensures Next(EdgeAt(r, L'[k]), d) == (if k == |L'| - 1 then 0 else L'[k + 1])
  {
    var t := if |L| == 0 then 0 else L[|L| - 1];
    assert L'[k] == if k < |L| then L[k] else e;
    if k > 0 { assert L'[k - 1] == L[k - 1]; }
    if k < |L| - 1 {
      assert L'[k + 1] == L[k + 1];
      ListMember(g, n, d, L, k + 1);
      assert Next(EdgeAt(g, L[|L| - 1]), d) == 0;
      assert Next(EdgeAt(g, L[k]), d) == L[k + 1];
      assert L[k] != t;
    } else if k == |L| - 1 {
      assert L'[k + 1] == e;
    }
  }

  /** A list with one more member at its end, read in a store where only the old last member's
      `next` and the node's ends were redirected. */
  lemma SnocList(g: Graph, r: Graph, n: Id, d: Dir, L: seq<Id>, e: Id, L': seq<Id>)
    requires IsList(g, n, d, L) && Appended(g, r, n, d, L, e) && Snoc(L, e, L')
    ensures IsList(r, n, d, L')
  {
    forall k | 0 <= k < |L'|
      ensures EdgeLive(r, L'[k]) && End(EdgeAt(r, L'[k]), d) == n
      ensures Prev(EdgeAt(r, L'[k]), d) == (if k == 0 then 0 else L'[k - 1])
      ensures Next(EdgeAt(r, L'[k]), d) == (if k == |L'| - 1 then 0 else L'[k + 1])
    {
      SnocMember(g, r, n, d, L, e, L', k);
    }
    assert L'[0] == if 0 < |L| then L[0] else e;
    assert L'[|L'| - 1] == e;
  }

  /** The node's own list gains the edge at its end. */
  lemma LinkTailOwn(g: Graph, e: Id, n: Id, d: Dir, L: seq<Id>)
    requires Shaped(g) && NodeLive(g, n) && IsList(g, n, d, L)
    requires EdgeLive(g, e) && e !in L && End(EdgeAt(g, e), d) == n
    requires Prev(EdgeAt(g, e), d) == Tail(NodeAt(g, n), d) && Next(EdgeAt(g, e), d) == 0
    ensures IsList(LinkTail(g, e, n, d), n, d, L + [e])
  {
    ListTail(g, n, d, L);
    if |L| > 0 { ListMember(g, n, d, L, |L| - 1); }
    LinkTailEffect(g, e, n, d);
    SnocAppend(L, e);
    SnocList(g, LinkTail(g, e, n, d), n, d, L, e, L + [e]);
  }

  /** Another node's list in the same direction is left alone. */
  lemma LinkTailOther(g: Graph, e: Id, n: Id, d: Dir, Ln: seq<Id>, m: Id, L: seq<Id>)
    requires Shaped(g) && NodeLive(g, n) && NodeLive(g, m) && m != n
    requires IsList(g, n, d, Ln) && IsList(g, m, d, L)
    ensures IsList(LinkTail(g, e, n, d), m, d, L)
  {
    ListTail(g, n, d, Ln);
    if |Ln| > 0 { ListMember(g, n, d, Ln, |Ln| - 1); }
    LinkTailEffect(g, e, n, d);
    var r := LinkTail(g, e, n, d);
    var t := Tail(NodeAt(g, n), d);
    forall k | 0 <= k < |L|
      ensures EdgeAt(r, L[k]) == EdgeAt(g, L[k])
    {
      ListMember(g, m, d, L, k);
    }
    ListFrame(g, r, m, d, L);
  }

  // ---------------------------------------------------------------------------------------
  // Unlinking

  /** The neighbours of position `k` of `L`, 0 past either end. */
  function Pred(L: seq<Id>, k: nat): Id
    requires k < |L|
  {
    if k == 0 then 0 else L[k - 1]
  }

  function Succ(L: seq<Id>, k: nat): Id
    requires k < |L|
  {
    if k == |L| - 1 then 0 else L[k + 1]
  }

  /** The store `r` is `g` with the list of node `n` in direction `d` redirected past whatever
      lies between `p` and `q`: `p`'s `next` (or the head) is `q`, `q`'s `prev` (or the tail)
      is `p`, and no other edge record or node changes. */
  ghost predicate Bypassed(g: Graph, r: Graph, n: Id, d: Dir, p: Id, q: Id)
  {
    && (forall x :: EdgeLive(r, x) <==> EdgeLive(g, x))
    && (forall x :: NodeLive(r, x) <==> NodeLive(g, x))
    && (forall x :: EdgeLive(g, x) && x != p && x != q ==> EdgeAt(r, x) == EdgeAt(g, x))
    && (p != 0 ==> End(EdgeAt(r, p), d) == End(EdgeAt(g, p), d)
                   && Prev(EdgeAt(r, p), d) == Prev(EdgeAt(g, p), d) && Next(EdgeAt(r, p), d) == q)
    && (q != 0 ==> End(EdgeAt(r, q), d) == End(EdgeAt(g, q), d)
                   && Next(EdgeAt(r, q), d) == Next(EdgeAt(g, q), d) && Prev(EdgeAt(r, q), d) == p)
    && Head(NodeAt(r, n), d) == (if p == 0 then q else Head(NodeAt(g, n), d))
    && Tail(NodeAt(r, n), d) == (if q == 0 then p else Tail(NodeAt(g, n), d))
    && (forall m :: NodeLive(g, m) && m != n ==> NodeAt(r, m) == NodeAt(g, m))
  }

  /** The two bypass steps of `nty_edge_unlink` do what `Bypassed` says. */
  lemma BypassEffect(g: Graph, n: Id, p: Id, q: Id, d: Dir)
    requires Shaped(g) && NodeLive(g, n)
    requires p == 0 || EdgeLive(g, p)
    requires q == 0 || EdgeLive(g, q)
    requires p != q || p == 0
    ensures Bypassed(g, BypassBackward(BypassForward(g, n, p, q, d), n, p, q, d), n, d, p, q)
  {
    var g1 := BypassForward(g, n, p, q, d);
    var r := BypassBackward(g1, n, p, q, d);
    SameBookkeepingLive(g, g1);
    SameBookkeepingLive(g1, r);
    forall x | EdgeLive(g, x) && x != p && x != q
      ensures EdgeAt(r, x) == EdgeAt(g, x)
    {
      DistinctSlots(g, x, p);
      DistinctSlots(g, x, q);
    }
    if p != 0 {
      if q != 0 {
        DistinctSlots(g, p, q);
      }
      StripKeeps(EdgeAt(g1, p), EdgeAt(g, p), d);
      StripKeeps(EdgeAt(r, p), EdgeAt(g1, p), d);
    }
    if q != 0 {
      StripKeeps(EdgeAt(g1, q), EdgeAt(g, q), d);
      StripKeeps(EdgeAt(r, q), EdgeAt(g1, q), d);
    }
    forall m | NodeLive(g, m) && m != n
      ensures NodeAt(r, m) == NodeAt(g, m)
    {
      DistinctNodeSlots(g, m, n);
    }
  }

  /** What `UnlinkDir` changes when `e` sits at position `k` of its owner's list: the
      neighbours' links around it and the owner's ends. */
  lemma UnlinkEffect(g: Graph, e: Id, d: Dir, n: Id, L: seq<Id>, k: nat)
    requires Shaped(g) && NodeLive(g, n) && IsList(g, n, d, L) && Distinct(L)
    requires k < |L| && L[k] == e
    ensures Bypassed(g, UnlinkDir(g, e, d), n, d, Pred(L, k), Succ(L, k))
  {
    var p := Pred(L, k);
    var q := Succ(L, k);
    assert End(EdgeAt(g, e), d) == n && Prev(EdgeAt(g, e), d) == p && Next(EdgeAt(g, e), d) == q by {
      ListMember(g, n, d, L, k);
    }
    assert (p == 0 || EdgeLive(g, p)) && (q == 0 || EdgeLive(g, q)) && (p != q || p == 0) by {
      if k > 0 { ListMember(g, n, d, L, k - 1); }
      if k + 1 < |L| { ListMember(g, n, d, L, k + 1); }
    }
    assert UnlinkDir(g, e, d) == BypassBackward(BypassForward(g, n, p, q, d), n, p, q, d);
    BypassEffect(g, n, p, q, d);
  }

  /** The store after splicing position `k` out of `L`. */
  ghost predicate Spliced(g: Graph, r: Graph, n: Id, d: Dir, L: seq<Id>, k: nat)
    requires k < |L|
  {
    Bypassed(g, r, n, d, Pred(L, k), Succ(L, k))
  }

  /** A member before the removed position: its `next` skips the removed one when adjacent. */
  lemma SpliceBefore(g: Graph, r: Graph, n: Id, d: Dir, L: seq<Id>, k: nat, j: nat)
    requires IsList(g, n, d, L) && Distinct(L) && k < |L| && j < k && Spliced(g, r, n, d, L, k)
    ensures EdgeLive(r, L[j]) && End(EdgeAt(r, L[j]), d) == n
    ensures Prev(EdgeAt(r, L[j]), d) == (if j == 0 then 0 else L[j - 1])
    ensures Next(EdgeAt(r, L[j]), d) == (if j + 1 < k then L[j + 1] else if k == |L| - 1 then 0 else L[k + 1])
  {
    ListMember(g, n, d, L, k - 1);
    ListMember(g, n, d, L, j);
    var q := if k == |L| - 1 then 0 else L[k + 1];
    if k + 1 < |L| {
      ListMember(g, n, d, L, k + 1);
      assert L[j] != L[k + 1];
    }
    if j < k - 1 {
      assert L[j] != L[k - 1];
      assert EdgeAt(r, L[j]) == EdgeAt(g, L[j]);
    }
  }

  /** A member after the removed position: its `prev` skips the removed one when adjacent. */
  lemma SpliceAfter(g: Graph, r: Graph, n: Id, d: Dir, L: seq<Id>, k: nat, j: nat)
    requires IsList(g, n, d, L) && Distinct(L) && k < j < |L| && Spliced(g, r, n, d, L, k)
    ensures EdgeLive(r, L[j]) && End(EdgeAt(r, L[j]), d) == n
    ensures Prev(EdgeAt(r, L[j]), d) == (if j - 1 > k then L[j - 1] else if k == 0 then 0 else L[k - 1])
    ensures Next(EdgeAt(r, L[j]), d) == (if j == |L| - 1 then 0 else L[j + 1])
  {
    ListMember(g, n, d, L, k + 1);
    ListMember(g, n, d, L, j);
    var p := if k == 0 then 0 else L[k - 1];
    if k > 0 {
      ListMember(g, n, d, L, k - 1);
      assert L[j] != L[k - 1];
    }
    if j > k + 1 {
      assert L[j] != L[k + 1];
      assert EdgeAt(r, L[j]) == EdgeAt(g, L[j]);
    }
  }

  /** Position `j` of the shortened list. */
  lemma SpliceMember(g: Graph, r: Graph, n: Id, d: Dir, L: seq<Id>, k: nat, L': seq<Id>, j: nat)
    requires IsList(g, n, d, L) && Distinct(L) && Skips(L, k, L') && Spliced(g, r, n, d, L, k)
    requires j < |L'|
    ensures EdgeLive(r, L'[j]) && End(EdgeAt(r, L'[j]), d) == n
    ensures Prev(EdgeAt(r, L'[j]), d) == (if j == 0 then 0 else L'[j - 1])
    ensures Next(EdgeAt(r, L'[j]), d) == (if j == |L'| - 1 then 0 else L'[j + 1])
  {
    assert L'[j] == if j < k then L[j] else L[j + 1];
    if j > 0 { assert L'[j - 1] == if j - 1 < k then L[j - 1] else L[j]; }
    if j + 1 < |L'| { assert L'[j + 1] == if j + 1 < k then L[j + 1] else L[j + 2]; }
    if j < k {
      SpliceBefore(g, r, n, d, L, k, j);
    } else {
      SpliceAfter(g, r, n, d, L, k, j + 1);
    }
  }

  /** The list without position `k`. */
  lemma SpliceList(g: Graph, r: Graph, n: Id, d: Dir, L: seq<Id>, k: nat, L': seq<Id>)
    requires IsList(g, n, d, L) && Distinct(L) && Skips(L, k, L') && Spliced(g, r, n, d, L, k)
    ensures IsList(r, n, d, L')
  {
    forall j | 0 <= j < |L'|
      ensures EdgeLive(r, L'[j]) && End(EdgeAt(r, L'[j]), d) == n
      ensures Prev(EdgeAt(r, L'[j]), d) == (if j == 0 then 0 else L'[j - 1])
      ensures Next(EdgeAt(r, L'[j]), d) == (if j == |L'| - 1 then 0 else L'[j + 1])
    {
      SpliceMember(g, r, n, d, L, k, L', j);
    }
    SpliceEnds(g, r, n, d, L, k, L');
  }

  /** The node's ends after the splice. */
  lemma SpliceEnds(g: Graph, r: Graph, n: Id, d: Dir, L: seq<Id>, k: nat, L': seq<Id>)
    requires IsList(g, n, d, L) && Skips(L, k, L') && Spliced(g, r, n, d, L, k)
    ensures |L'| == 0 ==> Head(NodeAt(r, n), d) == 0 && Tail(NodeAt(r, n), d) == 0
    ensures |L'| > 0 ==> Head(NodeAt(r, n), d) == L'[0] && Tail(NodeAt(r, n), d) == L'[|L'| - 1]
  {
    if k > 0 { ListMember(g, n, d, L, k - 1); }
    if k + 1 < |L| { ListMember(g, n, d, L, k + 1); }
    if |L'| > 0 {
      assert L'[0] == if 0 < k then L[0] else L[1];
      assert L'[|L'| - 1] == if |L'| - 1 < k then L[|L'| - 1] else L[|L'|];
    }
  }

  /** The owner's list loses exactly the unlinked edge. */
  lemma UnlinkOwn(g: Graph, e: Id, d: Dir, n: Id, L: seq<Id>, k: nat)
    requires Shaped(g) && NodeLive(g, n) && IsList(g, n, d, L) && Distinct(L)
    requires k < |L| && L[k] == e
    ensures IsList(UnlinkDir(g, e, d), n, d, L[..k] + L[k+1..])
  {
    UnlinkEffect(g, e, d, n, L, k);
    SkipsCut(L, k);
    SpliceList(g, UnlinkDir(g, e, d), n, d, L, k, L[..k] + L[k+1..]);
  }

  /** Another node's list in the same direction is left alone. */
  lemma UnlinkOther(g: Graph, e: Id, d: Dir, n: Id, Ln: seq<Id>, k: nat, m: Id, L: seq<Id>)
    requires Shaped(g) && NodeLive(g, n) && NodeLive(g, m) && m != n
    requires IsList(g, n, d, Ln) && Distinct(Ln) && k < |Ln| && Ln[k] == e && IsList(g, m, d, L)
    ensures IsList(UnlinkDir(g, e, d), m, d, L)
  {
    UnlinkEffect(g, e, d, n, Ln, k);
    var r := UnlinkDir(g, e, d);
    if k > 0 { ListMember(g, n, d, Ln, k - 1); }
    if k < |Ln| - 1 { ListMember(g, n, d, Ln, k + 1); }
    forall j | 0 <= j < |L|
      ensures EdgeLive(r, L[j]) && SameLinks(EdgeAt(r, L[j]), EdgeAt(g, L[j]), d)
    {
      ListMember(g, m, d, L, j);
    }
    ListFrame(g, r, m, d, L);
  }
}

=== FILE: graph_mutate.dfy ===
/** The store invariant kept by edge creation, edge destruction and the cascading node
    destruction, with what each does to the adjacency lists. */
module GraphMutate {
  import opened Common
  import opened Ids
  import opened Graph
  import opened GraphLists
  import opened GraphValid
  import Slab

  /** An edge record without its four list links. */
  function Payload(e: Edge): Edge
  {
    e.(outPrev := 0, outNext := 0, inPrev := 0, inNext := 0)
  }

  lemma StripPayload(a: Edge, b: Edge, d: Dir)
    requires Strip(a, d) == Strip(b, d)
    ensures Payload(a) == Payload(b)
  {
    match d
    case Out => assert Payload(a) == Payload(Strip(a, d)) && Payload(b) == Payload(Strip(b, d));
    case In => assert Payload(a) == Payload(Strip(a, d)) && Payload(b) == Payload(Strip(b, d));
  }

  lemma StripNodeId(a: Node, b: Node, d: Dir)
    requires StripNode(a, d) == StripNode(b, d)
    ensures a.id == b.id
  {
    assert StripNode(a, d).id == a.id && StripNode(b, d).id == b.id;
  }

  /** Each live node's lists in store `g` are the ones `Lf` gives. */
  ghost predicate ListsAre(g: Graph, Lf: (Id, Dir) -> seq<Id>)
  {
    forall n, d :: NodeLive(g, n) ==> IsList(g, n, d, Lf(n, d))
  }

  /** What a change touching only the links of direction `d` keeps: liveness, every edge's
      payload and every node's id. */
  ghost predicate LinksOnly(g: Graph, r: Graph, d: Dir)
  {
    && Shaped(g) && Shaped(r) && SameBookkeeping(g, r)
    && (forall x :: Strip(EdgeAt(r, x), d) == Strip(EdgeAt(g, x), d))
    && (forall m :: StripNode(NodeAt(r, m), d) == StripNode(NodeAt(g, m), d))
  }

  /** A links-only change keeps liveness, payloads and node ids. */
  lemma LinksOnlyKeeps(g: Graph, r: Graph, d: Dir)
    requires LinksOnly(g, r, d)
    ensures forall x :: EdgeLive(r, x) <==> EdgeLive(g, x)
    ensures forall x :: NodeLive(r, x) <==> NodeLive(g, x)
    ensures forall x :: Payload(EdgeAt(r, x)) == Payload(EdgeAt(g, x))
    ensures forall m :: NodeAt(r, m).id == NodeAt(g, m).id
    ensures r.edgeOrder == g.edgeOrder && r.properties == g.properties
  {
    SameBookkeepingLive(g, r);
    forall x ensures Payload(EdgeAt(r, x)) == Payload(EdgeAt(g, x)) {
      StripPayload(EdgeAt(r, x), EdgeAt(g, x), d);
    }
    forall m ensures NodeAt(r, m).id == NodeAt(g, m).id {
      StripNodeId(NodeAt(r, m), NodeAt(g, m), d);
    }
  }

  // ---------------------------------------------------------------------------------------
  // Edge creation

  /** The lists of `Lf` with edge `e` appended to node `m`'s list in direction `d`. */
  function Extend(Lf: (Id, Dir) -> seq<Id>, m: Id, d: Dir, e: Id): (Id, Dir) -> seq<Id>
  {
    (n: Id, d': Dir) => if n == m && d' == d then Lf(n, d') + [e] else Lf(n, d')
  }

  /** The adjacency lists of `g`, as a function. */
  ghost function AdjOf(g: Graph): (Id, Dir) -> seq<Id>
  {
    (n: Id, d: Dir) => Adj(g, n, d)
  }

  lemma LinkStepOne(g: Graph, e: Id, m: Id, d: Dir, Lf: (Id, Dir) -> seq<Id>, n: Id, d': Dir)
    requires Shaped(g) && NodeLive(g, m) && ListsAre(g, Lf) && NodeLive(g, n)
    requires EdgeLive(g, e) && End(EdgeAt(g, e), d) == m && e !in Lf(m, d)
    requires Prev(EdgeAt(g, e), d) == Tail(NodeAt(g, m), d) && Next(EdgeAt(g, e), d) == 0
    ensures IsList(LinkTail(g, e, m, d), n, d', Extend(Lf, m, d, e)(n, d'))
  {
    var r := LinkTail(g, e, m, d);
    if d' == d {
      if n == m {
        LinkTailOwn(g, e, m, d, Lf(m, d));
      } else {
        LinkTailOther(g, e, m, d, Lf(m, d), n, Lf(n, d));
      }
    } else {
      assert d' == Other(d);
      OtherDirFrame(g, r, n, d, Lf(n, d'));
    }
  }

  /** Linking a live edge at the tail of node `m`'s list in direction `d` extends that one list
      and leaves every other list as it was. */
  lemma LinkStep(g: Graph, e: Id, m: Id, d: Dir, Lf: (Id, Dir) -> seq<Id>)
    requires Shaped(g) && NodeLive(g, m) && ListsAre(g, Lf)
    requires EdgeLive(g, e) && End(EdgeAt(g, e), d) == m && e !in Lf(m, d)
    requires Prev(EdgeAt(g, e), d) == Tail(NodeAt(g, m), d) && Next(EdgeAt(g, e), d) == 0
    ensures LinksOnly(g, LinkTail(g, e, m, d), d)
    ensures ListsAre(LinkTail(g, e, m, d), Extend(Lf, m, d, e))
  {
    var r := LinkTail(g, e, m, d);
    SameBookkeepingLive(g, r);
    forall n, d' | NodeLive(r, n)
      ensures IsList(r, n, d', Extend(Lf, m, d, e)(n, d'))
    {
      LinkStepOne(g, e, m, d, Lf, n, d');
    }
  }

  /** Writing the record of a fresh edge keeps every old list. */
  lemma FreshEdgeLists(g: Graph, g1: Graph, id: Id)
    requires ListsValid(g) && g1.nodes == g.nodes
    requires forall x :: EdgeLive(g, x) ==> EdgeLive(g1, x) && EdgeAt(g1, x) == EdgeAt(g, x)
    requires forall x :: EdgeLive(g1, x) ==> EdgeLive(g, x) || x == id
    ensures ListsAre(g1, AdjOf(g))
  {
    forall n, d | NodeLive(g1, n)
      ensures IsList(g1, n, d, AdjOf(g)(n, d))
    {
      var L := Adj(g, n, d);
      assert IsList(g, n, d, L);
      forall k | 0 <= k < |L|
        ensures EdgeLive(g1, L[k]) && SameLinks(EdgeAt(g1, L[k]), EdgeAt(g, L[k]), d)
      {
        ListMember(g, n, d, L, k);
      }
      ListFrame(g, g1, n, d, L);
    }
  }

  /** The edge slab after allocating and writing the new edge `id`. */
  ghost predicate FreshEdge(g: Graph, g1: Graph, id: Id, from: Id, to: Id)
  {
    && Shaped(g1) && g1.nodes == g.nodes && g1.edgeOrder == g.edgeOrder
    && g1 == g.(edges := g1.edges)
    && !EdgeLive(g, id) && EdgeLive(g1, id)
    && (forall x :: EdgeLive(g1, x) <==> EdgeLive(g, x) || x == id)
    && (forall x :: EdgeLive(g, x) ==> EdgeAt(g1, x) == EdgeAt(g, x))
    && EdgeAt(g1, id).from == from && EdgeAt(g1, id).to == to && EdgeAt(g1, id).id == id
    && EdgeAt(g1, id).outPrev == Tail(NodeAt(g, from), Out) && EdgeAt(g1, id).outNext == 0
    && EdgeAt(g1, id).inPrev == Tail(NodeAt(g, to), In) && EdgeAt(g1, id).inNext == 0
  }

  /** The first link of edge creation: `from`'s out-list gains the new edge. */
  lemma EdgeCreateFirst(g: Graph, g1: Graph, id: Id, from: Id, to: Id)
    requires ListsValid(g) && OrderValid(g.edges, g.edgeOrder, g.edgeOrderCap)
    requires NodeLive(g, from) && FreshEdge(g, g1, id, from, to)
    ensures var g2 := LinkTail(g1, id, from, Out);
      && LinksOnly(g1, g2, Out)
      && ListsAre(g2, Extend(AdjOf(g), from, Out, id))
      && EdgeLive(g2, id) && End(EdgeAt(g2, id), In) == to && Next(EdgeAt(g2, id), In) == 0
      && Prev(EdgeAt(g2, id), In) == Tail(NodeAt(g2, to), In)
  {
    FreshEdgeLists(g, g1, id);
    AdjFacts(g, from, Out);
    LinkStep(g1, id, from, Out, AdjOf(g));
    var g2 := LinkTail(g1, id, from, Out);
    LinksOnlyKeeps(g1, g2, Out);
    StripKeeps(EdgeAt(g2, id), EdgeAt(g1, id), Out);
    StripNodeKeeps(NodeAt(g2, to), NodeAt(g1, to), Out);
  }

  /** Both links of edge creation: the out-list of `from` and the in-list of `to` each gain the
      new edge at their end. */
  lemma EdgeCreateLinks(g: Graph, g1: Graph, id: Id, from: Id, to: Id)
    requires ListsValid(g) && OrderValid(g.edges, g.edgeOrder, g.edgeOrderCap)
    requires NodeLive(g, from) && NodeLive(g, to) && FreshEdge(g, g1, id, from, to)
    ensures var g2 := LinkTail(g1, id, from, Out);
      var g3 := LinkTail(g2, id, to, In);
      && LinksOnly(g1, g2, Out) && LinksOnly(g2, g3, In)
      && ListsAre(g3, Extend(Extend(AdjOf(g), from, Out, id), to, In, id))
  {
    EdgeCreateFirst(g, g1, id, from, to);
    var g2 := LinkTail(g1, id, from, Out);
    LinksOnlyKeeps(g1, g2, Out);
    AdjFacts(g, to, In);
    assert Extend(AdjOf(g), from, Out, id)(to, In) == Adj(g, to, In);
    LinkStep(g2, id, to, In, Extend(AdjOf(g), from, Out, id));
  }

  /** The slab facts of allocating and writing a new edge record, read as a `FreshEdge`. */
  lemma FreshEdgeHolds(g: Graph, g1: Graph, id: Id, item: Edge)
    requires Shaped(g1) && g1 == g.(edges := g1.edges)
    requires !Slab.Exists(g.edges, id)
    requires forall x :: Slab.Exists(g1.edges, x) <==> Slab.Exists(g.edges, x) || x == id
    requires forall x :: Slab.Exists(g1.edges, x) && x != id ==> Slab.Get(g1.edges, x) == Slab.Get(g.edges, x)
    requires Slab.Get(g1.edges, id) == Some(item) && item.id == id
    requires item.outPrev == Tail(NodeAt(g, item.from), Out) && item.outNext == 0
    requires item.inPrev == Tail(NodeAt(g, item.to), In) && item.inNext == 0
    ensures FreshEdge(g, g1, id, item.from, item.to)
  {
    forall x | EdgeLive(g, x) ensures EdgeAt(g1, x) == EdgeAt(g, x) {
      assert Slab.Get(g1.edges, x) == Slab.Get(g.edges, x);
    }
  }

  /** The adjacency lists after the edge order gained `id`, when no old edge changed owners. */
  lemma AppendAdj(g: Graph, r: Graph, id: Id, n: Id, d: Dir)
    requires r.edgeOrder == g.edgeOrder + [id]
    requires forall k :: 0 <= k < |g.edgeOrder| ==>
               End(EdgeAt(r, g.edgeOrder[k]), d) == End(EdgeAt(g, g.edgeOrder[k]), d)
    ensures Adj(r, n, d) == Adj(g, n, d) + (if End(EdgeAt(r, id), d) == n then [id] else [])
  {
    FilterConcat(g.edgeOrder, [id], Owned(r, n, d));
    FilterAgree(g.edgeOrder, Owned(g, n, d), Owned(r, n, d));
    FilterSingle(id, Owned(r, n, d));
  }

  /** Record validity after edge creation. */
  lemma EdgeCreateRecords(g: Graph, g1: Graph, r: Graph, id: Id, from: Id, to: Id)
    requires RecordsValid(g) && NodeLive(g, from) && NodeLive(g, to) && FreshEdge(g, g1, id, from, to)
    requires r.properties == g.properties
    requires forall x :: EdgeLive(r, x) <==> EdgeLive(g1, x)
    requires forall x :: NodeLive(r, x) <==> NodeLive(g, x)
    requires forall x :: Payload(EdgeAt(r, x)) == Payload(EdgeAt(g1, x))
    requires forall m :: NodeAt(r, m).id == NodeAt(g, m).id
    ensures RecordsValid(r)
  {
    forall e | EdgeLive(r, e)
      ensures EdgeAt(r, e).id == e && NodeLive(r, EdgeAt(r, e).from) && NodeLive(r, EdgeAt(r, e).to)
    {
      assert Payload(EdgeAt(r, e)) == Payload(EdgeAt(g1, e));
    }
    forall p | PropertyLive(r, p) ensures PropertyLive(g, p) && PropertyAt(r, p) == PropertyAt(g, p) {}
  }

  /** Every adjacency list after edge creation: the old one, plus the new edge where it is owned. */
  lemma EdgeCreateAdj(g: Graph, g1: Graph, r: Graph, id: Id, from: Id, to: Id)
    requires OrderValid(g.edges, g.edgeOrder, g.edgeOrderCap) && FreshEdge(g, g1, id, from, to)
    requires r.edgeOrder == g.edgeOrder + [id]
    requires forall x :: Payload(EdgeAt(r, x)) == Payload(EdgeAt(g1, x))
    ensures forall n, d :: Adj(r, n, d) == Adj(g, n, d) + (if End(EdgeAt(r, id), d) == n then [id] else [])
  {
    forall x | EdgeLive(g, x)
      ensures End(EdgeAt(r, x), Out) == End(EdgeAt(g, x), Out) && End(EdgeAt(r, x), In) == End(EdgeAt(g, x), In)
    {
      assert Payload(EdgeAt(r, x)) == Payload(EdgeAt(g1, x));
    }
    forall n, d ensures Adj(r, n, d) == Adj(g, n, d) + (if End(EdgeAt(r, id), d) == n then [id] else []) {
      AppendAdj(g, r, id, n, d);
    }
  }

  /** The lists after edge creation are the adjacency lists of the new store. */
  lemma EdgeCreateLists(g: Graph, g3: Graph, r: Graph, id: Id, from: Id, to: Id)
    requires ListsAre(g3, Extend(Extend(AdjOf(g), from, Out, id), to, In, id))
    requires r == g3.(edgeOrder := r.edgeOrder)
    requires EdgeAt(r, id).from == from && EdgeAt(r, id).to == to
    requires forall n, d :: Adj(r, n, d) == Adj(g, n, d) + (if End(EdgeAt(r, id), d) == n then [id] else [])
    ensures ListsValid(r)
  {
    forall n, d | NodeLive(r, n) ensures IsList(r, n, d, Adj(r, n, d)) {
      var L := Extend(Extend(AdjOf(g), from, Out, id), to, In, id)(n, d);
      assert IsList(g3, n, d, L);
      assert L == Adj(r, n, d);
      forall k | 0 <= k < |L| ensures EdgeLive(r, L[k]) && SameLinks(EdgeAt(r, L[k]), EdgeAt(g3, L[k]), d) {
        ListMember(g3, n, d, L, k);
      }
      ListFrame(g3, r, n, d, L);
    }
  }

  /** What edge creation leaves alone: payloads, node liveness and ids, and every list apart
      from the two the new edge joins. */
  lemma EdgeCreateFrame(g: Graph, g1: Graph, g2: Graph, g3: Graph, r: Graph, id: Id, from: Id, to: Id)
    requires OrderValid(g.edges, g.edgeOrder, g.edgeOrderCap) && FreshEdge(g, g1, id, from, to)
    requires LinksOnly(g1, g2, Out) && LinksOnly(g2, g3, In)
    requires r == g3.(edgeOrder := g.edgeOrder + [id])
    ensures forall x :: Payload(EdgeAt(r, x)) == Payload(EdgeAt(g1, x))
    ensures forall x :: EdgeLive(r, x) <==> EdgeLive(g1, x)
    ensures forall n, d :: Adj(r, n, d) == Adj(g, n, d) + (if End(EdgeAt(r, id), d) == n then [id] else [])
    ensures EdgeAt(r, id).from == from && EdgeAt(r, id).to == to
    ensures forall x :: NodeLive(r, x) <==> NodeLive(g, x)
    ensures forall m :: NodeAt(r, m).id == NodeAt(g, m).id
    ensures r.nodes == g.nodes.(data := r.nodes.data)
    ensures r.edges == g1.edges.(data := r.edges.data)
    ensures r.nodeOrder == g.nodeOrder && r.nodeOrderCap == g.nodeOrderCap
    ensures r.edgeOrderCap == g.edgeOrderCap
    ensures r.properties == g.properties && r.propertyOrder == g.propertyOrder
    ensures r.propertyOrderCap == g.propertyOrderCap
  {
    LinksOnlyKeeps(g1, g2, Out);
    LinksOnlyKeeps(g2, g3, In);
    EdgeCreateAdj(g, g1, r, id, from, to);
    assert Payload(EdgeAt(r, id)) == Payload(EdgeAt(g1, id));
    forall m ensures NodeAt(r, m).id == NodeAt(g, m).id {
      assert NodeAt(r, m) == NodeAt(g3, m) && NodeAt(g1, m) == NodeAt(g, m);
    }
  }

  /** The store after edge creation, put together from its links and its order append. */
  lemma EdgeCreateFinish(g: Graph, g1: Graph, g3: Graph, r: Graph, id: Id, from: Id, to: Id)
    requires Valid(g) && NodeLive(g, from) && NodeLive(g, to) && FreshEdge(g, g1, id, from, to)
    requires OrderValid(g1.edges, g.edgeOrder + [id], g.edgeOrderCap)
    requires ListsAre(g3, Extend(Extend(AdjOf(g), from, Out, id), to, In, id))
    requires Shaped(r) && r == g3.(edgeOrder := g.edgeOrder + [id])
    requires forall x :: Payload(EdgeAt(r, x)) == Payload(EdgeAt(g1, x))
    requires forall x :: EdgeLive(r, x) <==> EdgeLive(g1, x)
    requires forall n, d :: Adj(r, n, d) == Adj(g, n, d) + (if End(EdgeAt(r, id), d) == n then [id] else [])
    requires EdgeAt(r, id).from == from && EdgeAt(r, id).to == to
    requires forall x :: NodeLive(r, x) <==> NodeLive(g, x)
    requires forall m :: NodeAt(r, m).id == NodeAt(g, m).id
    requires r.nodes == g.nodes.(data := r.nodes.data)
    requires r.edges == g1.edges.(data := r.edges.data)
    requires r.nodeOrder == g.nodeOrder && r.nodeOrderCap == g.nodeOrderCap
    requires r.edgeOrderCap == g.edgeOrderCap
    requires r.properties == g.properties && r.propertyOrder == g.propertyOrder
    requires r.propertyOrderCap == g.propertyOrderCap
    ensures Valid(r)
  {
    OrderValidData(g1.edges, r.edges, g.edgeOrder + [id], g.edgeOrderCap);
    OrderValidData(g.nodes, r.nodes, g.nodeOrder, g.nodeOrderCap);
    EdgeCreateLists(g, g3, r, id, from, to);
    EdgeCreateRecords(g, g1, r, id, from, to);
  }

  /** Edge creation keeps the store valid; it fails exactly when an endpoint is missing or
      the edge slab is full (never on the order array), and on success the new edge is the
      last of `from`'s out-list and of `to`'s in-list while every other list stays. */
  lemma EdgeCreateValid(g: Graph, from: Id, to: Id, kind: U64, weight: real, ts: U64)
    requires Valid(g)
    ensures Valid(EdgeCreate(g, from, to, kind, weight, ts).0)
    ensures EdgeCreate(g, from, to, kind, weight, ts).1 == 0 <==>
      !NodeLive(g, from) || !NodeLive(g, to) || g.edges.count == g.edges.capacity
    ensures EdgeCreate(g, from, to, kind, weight, ts).1 == 0 ==> EdgeCreate(g, from, to, kind, weight, ts).0 == g
    ensures var (r, id) := EdgeCreate(g, from, to, kind, weight, ts);
      id != 0 ==>
        && !EdgeLive(g, id)
        && (forall x :: EdgeLive(r, x) <==> EdgeLive(g, x) || x == id)
        && (forall n, d :: Adj(r, n, d) == Adj(g, n, d) + (if End(EdgeAt(r, id), d) == n then [id] else []))
  {
    if NodeLive(g, from) && NodeLive(g, to) {
      var tOut := Tail(NodeAt(g, from), Out);
      var tIn := Tail(NodeAt(g, to), In);
      var mk := (x: Id) => Edge(x, from, to, kind, weight, ts, tOut, 0, tIn, 0);
      AllocAppend(g.edges, g.edgeOrder, g.edgeOrderCap, ZeroEdge, mk);
      var id := Slab.Alloc(g.edges, ZeroEdge).1;
      if id != 0 {
        var g1 := g.(edges := Slab.Put(Slab.Alloc(g.edges, ZeroEdge).0, id, mk(id)));
        FreshEdgeHolds(g, g1, id, mk(id));
        EdgeCreateLinks(g, g1, id, from, to);
        var g2 := LinkTail(g1, id, from, Out);
        var g3 := LinkTail(g2, id, to, In);
        var r := g3.(edgeOrder := g.edgeOrder + [id]);
        assert EdgeCreate(g, from, to, kind, weight, ts) == (r, id);
        EdgeCreateFrame(g, g1, g2, g3, r, id, from, to);
        EdgeCreateFinish(g, g1, g3, r, id, from, to);
      }
    }
  }

  // ---------------------------------------------------------------------------------------
  // Edge destruction

  /** The lists of `Lf` with edge `e` removed from node `m`'s list in direction `d`. */
  function Shrink(Lf: (Id, Dir) -> seq<Id>, m: Id, d: Dir, e: Id): (Id, Dir) -> seq<Id>
  {
    (n: Id, d': Dir) => if n == m && d' == d then RemoveFirst(Lf(n, d'), e) else Lf(n, d')
  }

  lemma UnlinkStepOne(g: Graph, e: Id, m: Id, d: Dir, Lf: (Id, Dir) -> seq<Id>, n: Id, d': Dir)
    requires Shaped(g) && NodeLive(g, m) && ListsAre(g, Lf) && NodeLive(g, n)
    requires e in Lf(m, d) && Distinct(Lf(m, d))
    ensures IsList(UnlinkDir(g, e, d), n, d', Shrink(Lf, m, d, e)(n, d'))
  {
    var L := Lf(m, d);
    var k := FirstIndex(L, e);
    RemoveFirstAt(L, e, k);
    if d' == d {
      if n == m {
        UnlinkOwn(g, e, d, m, L, k);
      } else {
        UnlinkOther(g, e, d, m, L, k, n, Lf(n, d));
      }
    } else {
      assert d' == Other(d);
      OtherDirFrame(g, UnlinkDir(g, e, d), n, d, Lf(n, d'));
    }
  }

  /** Unlinking an edge from its owner's list in direction `d` removes it from that one list
      and leaves every other list as it was. */
  lemma UnlinkStep(g: Graph, e: Id, m: Id, d: Dir, Lf: (Id, Dir) -> seq<Id>)
    requires Shaped(g) && NodeLive(g, m) && ListsAre(g, Lf)
    requires e in Lf(m, d) && Distinct(Lf(m, d))
    ensures LinksOnly(g, UnlinkDir(g, e, d), d)
    ensures ListsAre(UnlinkDir(g, e, d), Shrink(Lf, m, d, e))
  {
    var r := UnlinkDir(g, e, d);
    SameBookkeepingLive(g, r);
    forall n, d' | NodeLive(r, n)
      ensures IsList(r, n, d', Shrink(Lf, m, d, e)(n, d'))
    {
      UnlinkStepOne(g, e, m, d, Lf, n, d');
    }
  }

  /** Both unlinks of `nty_edge_unlink`: the edge leaves `from`'s out-list and `to`'s in-list. */
  lemma EdgeUnlinkLists(g: Graph, e: Id)
    requires ListsValid(g) && RecordsValid(g) && OrderValid(g.edges, g.edgeOrder, g.edgeOrderCap)
    requires Shaped(g) && EdgeLive(g, e)
    ensures var E := EdgeAt(g, e);
      var ga := UnlinkDir(g, e, Out);
      var gb := UnlinkDir(ga, e, In);
      && LinksOnly(g, ga, Out) && LinksOnly(ga, gb, In)
      && ListsAre(gb, Shrink(Shrink(AdjOf(g), E.from, Out, e), E.to, In, e))
  {
    var E := EdgeAt(g, e);
    AdjFacts(g, E.from, Out);
    AdjFacts(g, E.to, In);
    UnlinkStep(g, e, E.from, Out, AdjOf(g));
    var ga := UnlinkDir(g, e, Out);
    LinksOnlyKeeps(g, ga, Out);
    assert Shrink(AdjOf(g), E.from, Out, e)(E.to, In) == Adj(g, E.to, In);
    UnlinkStep(ga, e, E.to, In, Shrink(AdjOf(g), E.from, Out, e));
  }

  /** The adjacency lists after the edge order lost `e`, when no other edge changed owners. */
  lemma RemoveAdj(g: Graph, r: Graph, e: Id, n: Id, d: Dir)
    requires OrderValid(g.edges, g.edgeOrder, g.edgeOrderCap)
    requires r.edgeOrder == RemoveFirst(g.edgeOrder, e)
    requires forall x :: EdgeLive(g, x) && x != e ==> End(EdgeAt(r, x), d) == End(EdgeAt(g, x), d)
    ensures Adj(r, n, d) == RemoveFirst(Adj(g, n, d), e)
  {
    RemoveFirstDistinct(g.edgeOrder, e);
    forall i | 0 <= i < |r.edgeOrder| ensures Owned(g, n, d)(r.edgeOrder[i]) == Owned(r, n, d)(r.edgeOrder[i]) {
      assert r.edgeOrder[i] in r.edgeOrder;
    }
    FilterAgree(r.edgeOrder, Owned(g, n, d), Owned(r, n, d));
    FilterRemove(g.edgeOrder, Owned(g, n, d), e);
  }

  /** The lists `EdgeUnlinkLists` describes are the old adjacency lists without `e`. */
  lemma ShrunkAdj(g: Graph, e: Id, n: Id, d: Dir)
    requires OrderValid(g.edges, g.edgeOrder, g.edgeOrderCap) && EdgeLive(g, e)
    ensures var E := EdgeAt(g, e);
      Shrink(Shrink(AdjOf(g), E.from, Out, e), E.to, In, e)(n, d) == RemoveFirst(Adj(g, n, d), e)
    ensures e !in RemoveFirst(Adj(g, n, d), e)
  {
    AdjFacts(g, n, d);
    RemoveFirstDistinct(Adj(g, n, d), e);
  }

  /** The lists after the unlinked edge's slot is freed are the new adjacency lists. */
  lemma EdgeDestroyLists(g: Graph, gb: Graph, r: Graph, e: Id)
    requires OrderValid(g.edges, g.edgeOrder, g.edgeOrderCap) && EdgeLive(g, e)
    requires ListsAre(gb, Shrink(Shrink(AdjOf(g), EdgeAt(g, e).from, Out, e), EdgeAt(g, e).to, In, e))
    requires Shaped(r) && r.nodes == gb.nodes && r.edges.data == gb.edges.data
    requires forall x :: EdgeLive(r, x) <==> EdgeLive(gb, x) && x != e
    requires forall n, d :: Adj(r, n, d) == RemoveFirst(Adj(g, n, d), e)
    ensures ListsValid(r)
  {
    var Lf := Shrink(Shrink(AdjOf(g), EdgeAt(g, e).from, Out, e), EdgeAt(g, e).to, In, e);
    forall n, d | NodeLive(r, n) ensures IsList(r, n, d, Adj(r, n, d)) {
      ShrunkAdj(g, e, n, d);
      var L := Lf(n, d);
      assert NodeLive(gb, n);
      assert IsList(gb, n, d, L);
      forall k | 0 <= k < |L| ensures EdgeLive(r, L[k]) && SameLinks(EdgeAt(r, L[k]), EdgeAt(gb, L[k]), d) {
        ListMember(gb, n, d, L, k);
      }
      ListFrame(gb, r, n, d, L);
    }
  }

  /** Record validity after edge destruction. */
  lemma EdgeDestroyRecords(g: Graph, r: Graph)
    requires RecordsValid(g) && r.properties == g.properties
    requires forall x :: EdgeLive(r, x) ==> EdgeLive(g, x)
    requires forall x :: NodeLive(r, x) <==> NodeLive(g, x)
    requires forall x :: Payload(EdgeAt(r, x)) == Payload(EdgeAt(g, x))
    requires forall m :: NodeAt(r, m).id == NodeAt(g, m).id
    ensures RecordsValid(r)
  {
    forall e | EdgeLive(r, e)
      ensures EdgeAt(r, e).id == e && NodeLive(r, EdgeAt(r, e).from) && NodeLive(r, EdgeAt(r, e).to)
    {
      assert Payload(EdgeAt(r, e)) == Payload(EdgeAt(g, e));
    }
    forall p | PropertyLive(r, p) ensures PropertyLive(g, p) && PropertyAt(r, p) == PropertyAt(g, p) {}
  }

  /** Every adjacency list after edge destruction is the old one without the edge. */
  lemma EdgeDestroyAdj(g: Graph, r: Graph, e: Id)
    requires OrderValid(g.edges, g.edgeOrder, g.edgeOrderCap)
    requires r.edgeOrder == RemoveFirst(g.edgeOrder, e)
    requires forall x :: Payload(EdgeAt(r, x)) == Payload(EdgeAt(g, x))
    ensures forall n, d :: Adj(r, n, d) == RemoveFirst(Adj(g, n, d), e)
  {
    forall x, d | EdgeLive(g, x) && x != e ensures End(EdgeAt(r, x), d) == End(EdgeAt(g, x), d) {
      assert Payload(EdgeAt(r, x)) == Payload(EdgeAt(g, x));
    }
    forall n, d ensures Adj(r, n, d) == RemoveFirst(Adj(g, n, d), e) {
      RemoveAdj(g, r, e, n, d);
    }
  }

  /** What edge destruction leaves alone: payloads, node liveness and ids, and every list
      apart from the destroyed edge. */
  lemma EdgeDestroyFrame(g: Graph, ga: Graph, gb: Graph, r: Graph, e: Id)
    requires OrderValid(g.edges, g.edgeOrder, g.edgeOrderCap)
    requires LinksOnly(g, ga, Out) && LinksOnly(ga, gb, In)
    requires r == gb.(edges := r.edges, edgeOrder := RemoveFirst(g.edgeOrder, e))
    requires r.edges.data == gb.edges.data
    ensures forall x :: Payload(EdgeAt(r, x)) == Payload(EdgeAt(g, x))
    ensures forall n, d :: Adj(r, n, d) == RemoveFirst(Adj(g, n, d), e)
    ensures forall x :: NodeLive(r, x) <==> NodeLive(g, x)
    ensures forall m :: NodeAt(r, m).id == NodeAt(g, m).id
    ensures r.nodes == g.nodes.(data := r.nodes.data)
    ensures r.nodeOrder == g.nodeOrder && r.nodeOrderCap == g.nodeOrderCap
    ensures r.properties == g.properties && r.propertyOrder == g.propertyOrder
    ensures r.propertyOrderCap == g.propertyOrderCap
  {
    LinksOnlyKeeps(g, ga, Out);
    LinksOnlyKeeps(ga, gb, In);
    forall x ensures Payload(EdgeAt(r, x)) == Payload(EdgeAt(g, x)) {
      assert EdgeAt(r, x) == EdgeAt(gb, x);
    }
    EdgeDestroyAdj(g, r, e);
    forall m ensures NodeAt(r, m).id == NodeAt(g, m).id {
      assert NodeAt(r, m) == NodeAt(gb, m);
    }
  }

  /** The store after edge destruction, put together from its unlinks and its free. */
  lemma EdgeDestroyFinish(g: Graph, gb: Graph, r: Graph, e: Id)
    requires Valid(g) && EdgeLive(g, e)
    requires ListsAre(gb, Shrink(Shrink(AdjOf(g), EdgeAt(g, e).from, Out, e), EdgeAt(g, e).to, In, e))
    requires OrderValid(r.edges, r.edgeOrder, r.edgeOrderCap) && Shaped(r)
    requires r.nodes == gb.nodes && r.edges.data == gb.edges.data
    requires forall x :: EdgeLive(r, x) <==> EdgeLive(gb, x) && x != e
    requires forall x :: EdgeLive(r, x) ==> EdgeLive(g, x)
    requires forall x :: Payload(EdgeAt(r, x)) == Payload(EdgeAt(g, x))
    requires forall n, d :: Adj(r, n, d) == RemoveFirst(Adj(g, n, d), e)
    requires forall x :: NodeLive(r, x) <==> NodeLive(g, x)
    requires forall m :: NodeAt(r, m).id == NodeAt(g, m).id
    requires r.nodes == g.nodes.(data := r.nodes.data)
    requires r.nodeOrder == g.nodeOrder && r.nodeOrderCap == g.nodeOrderCap
    requires r.properties == g.properties && r.propertyOrder == g.propertyOrder
    requires r.propertyOrderCap == g.propertyOrderCap
    ensures Valid(r)
  {
    OrderValidData(g.nodes, r.nodes, g.nodeOrder, g.nodeOrderCap);
    EdgeDestroyLists(g, gb, r, e);
    EdgeDestroyRecords(g, r);
  }

  /** Edge destruction keeps the store valid and takes the edge out of exactly the two lists
      that held it. */
  lemma EdgeDestroyValid(g: Graph, e: Id)
    requires Valid(g)
    ensures Valid(EdgeDestroy(g, e).0)
    ensures EdgeDestroy(g, e).1 ==> forall n, d :: Adj(EdgeDestroy(g, e).0, n, d) == RemoveFirst(Adj(g, n, d), e)
    ensures forall x :: Payload(EdgeAt(EdgeDestroy(g, e).0, x)) == Payload(EdgeAt(g, x))
  {
    if EdgeLive(g, e) {
      EdgeUnlinkLists(g, e);
      var ga := UnlinkDir(g, e, Out);
      var gb := UnlinkDir(ga, e, In);
      LinksOnlyKeeps(g, ga, Out);
      LinksOnlyKeeps(ga, gb, In);
      OrderValidData(g.edges, gb.edges, g.edgeOrder, g.edgeOrderCap);
      FreeRemove(gb.edges, g.edgeOrder, g.edgeOrderCap, e);
      var r := gb.(edges := Slab.Free(gb.edges, e).0, edgeOrder := OrderRemove(g.edgeOrder, e));
      assert EdgeDestroy(g, e) == (r, true);
      assert OrderRemove(g.edgeOrder, e) == RemoveFirst(g.edgeOrder, e);
      EdgeDestroyFrame(g, ga, gb, r, e);
      EdgeDestroyFinish(g, gb, r, e);
    }
  }

  // ---------------------------------------------------------------------------------------
  // Node destruction

  /** Whether an edge survives draining node `n`'s list in direction `d`. */
  function Keeps(g: Graph, n: Id, d: Dir): Id -> bool
  {
    (x: Id) => End(EdgeAt(g, x), d) != n
  }

  /** A node's list is empty exactly when it owns no live edge in that direction. */
  lemma EmptyAdj(g: Graph, n: Id, d: Dir)
    requires OrderValid(g.edges, g.edgeOrder, g.edgeOrderCap) && Adj(g, n, d) == []
    ensures forall x :: EdgeLive(g, x) ==> End(EdgeAt(g, x), d) != n
    ensures Filter(g.edgeOrder, Keeps(g, n, d)) == g.edgeOrder
  {
    AdjFacts(g, n, d);
    assert forall x :: EdgeLive(g, x) ==> x !in Adj(g, n, d);
    forall i | 0 <= i < |g.edgeOrder| ensures Keeps(g, n, d)(g.edgeOrder[i]) {
      assert g.edgeOrder[i] in g.edgeOrder;
    }
    FilterAll(g.edgeOrder, Keeps(g, n, d));
  }

  /** One round of the drain loop: the head edge is destroyed and the list loses its first entry. */
  lemma DrainRound(g: Graph, n: Id, d: Dir)
    requires Valid(g) && NodeLive(g, n) && Head(NodeAt(g, n), d) != 0
    ensures var h := Head(NodeAt(g, n), d);
      var (g1, ok) := EdgeDestroy(g, h);
      && ok && Valid(g1) && NodeLive(g1, n)
      && |Adj(g1, n, d)| < |Adj(g, n, d)|
      && h in Adj(g, n, d)
      && End(EdgeAt(g, h), d) == n
      && g1.edgeOrder == RemoveFirst(g.edgeOrder, h)
      && (forall x :: EdgeLive(g1, x) <==> EdgeLive(g, x) && x != h)
      && (forall x :: Payload(EdgeAt(g1, x)) == Payload(EdgeAt(g, x)))
      && Drain(g, n, d) == Drain(g1, n, d)
  {
    var h := Head(NodeAt(g, n), d);
    var L := Adj(g, n, d);
    assert IsList(g, n, d, L);
    ListTail(g, n, d, L);
    ListMember(g, n, d, L, 0);
    AdjFacts(g, n, d);
    EdgeDestroyValid(g, h);
    var g1 := EdgeDestroy(g, h).0;
    assert Adj(g1, n, d) == RemoveFirst(L, h);
    assert OrderRemove(g.edgeOrder, h) == RemoveFirst(g.edgeOrder, h);
  }

  /** The surviving order after one round, filtered, is the old order filtered. */
  lemma DrainRoundOrder(g: Graph, g1: Graph, n: Id, d: Dir, h: Id)
    requires OrderValid(g.edges, g.edgeOrder, g.edgeOrderCap) && End(EdgeAt(g, h), d) == n
    requires g1.edgeOrder == RemoveFirst(g.edgeOrder, h)
    requires forall x :: Payload(EdgeAt(g1, x)) == Payload(EdgeAt(g, x))
    ensures Filter(g1.edgeOrder, Keeps(g1, n, d)) == Filter(g.edgeOrder, Keeps(g, n, d))
  {
    forall i | 0 <= i < |g1.edgeOrder|
      ensures Keeps(g1, n, d)(g1.edgeOrder[i]) == Keeps(g, n, d)(g1.edgeOrder[i])
    {
      var x := g1.edgeOrder[i];
      assert Payload(EdgeAt(g1, x)) == Payload(EdgeAt(g, x));
    }
    FilterAgree(g1.edgeOrder, Keeps(g1, n, d), Keeps(g, n, d));
    FilterRemove(g.edgeOrder, Keeps(g, n, d), h);
    FilterSubset(g.edgeOrder, Keeps(g, n, d));
  }

  /** The edges left after draining node `n`'s list in direction `d` out of `g`: those it does
      not own, in their creation order, with their payloads unchanged. */
  ghost predicate DrainedEdges(g: Graph, r: Graph, n: Id, d: Dir)
  {
    && r.edgeOrder == Filter(g.edgeOrder, Keeps(g, n, d))
    && (forall x :: EdgeLive(r, x) <==> EdgeLive(g, x) && End(EdgeAt(g, x), d) != n)
    && (forall x :: Payload(EdgeAt(r, x)) == Payload(EdgeAt(g, x)))
  }

  /** What the drain promises, for a result `r` of draining `g`. */
  ghost predicate Drained(g: Graph, r: Graph, n: Id, d: Dir)
  {
    && Valid(r)
    && Adj(r, n, d) == []
    && DrainedEdges(g, r, n, d)
  }

  lemma DrainEmpty(g: Graph, n: Id, d: Dir)
    requires Valid(g) && NodeLive(g, n) && Head(NodeAt(g, n), d) == 0
    ensures Drained(g, g, n, d)
  {
    ListTail(g, n, d, Adj(g, n, d));
    EmptyAdj(g, n, d);
  }

  lemma DrainStep(g: Graph, g1: Graph, r: Graph, n: Id, d: Dir, h: Id)
    requires OrderValid(g.edges, g.edgeOrder, g.edgeOrderCap) && End(EdgeAt(g, h), d) == n
    requires g1.edgeOrder == RemoveFirst(g.edgeOrder, h)
    requires forall x :: EdgeLive(g1, x) <==> EdgeLive(g, x) && x != h
    requires forall x :: Payload(EdgeAt(g1, x)) == Payload(EdgeAt(g, x))
    requires DrainedEdges(g1, r, n, d)
    ensures DrainedEdges(g, r, n, d)
  {
    DrainRoundOrder(g, g1, n, d, h);
    forall x ensures Payload(EdgeAt(r, x)) == Payload(EdgeAt(g, x)) {
      assert Payload(EdgeAt(r, x)) == Payload(EdgeAt(g1, x));
    }
    forall x ensures EdgeLive(r, x) <==> EdgeLive(g, x) && End(EdgeAt(g, x), d) != n {
      assert Payload(EdgeAt(g1, x)) == Payload(EdgeAt(g, x));
    }
  }

  /** The loop of `nty_node_destroy` over one list: on a valid store it destroys exactly the
      edges node `n` owns in direction `d` (so it never stops early), keeps the store valid and
      keeps the other edges in their creation order. */
  lemma {:induction false} DrainValid(g: Graph, n: Id, d: Dir)
    requires Valid(g) && NodeLive(g, n)
    ensures Drained(g, Drain(g, n, d), n, d)
    decreases |Adj(g, n, d)|
  {
    var h := Head(NodeAt(g, n), d);
    if h == 0 {
      DrainEmpty(g, n, d);
    } else {
      DrainRound(g, n, d);
      var g1 := EdgeDestroy(g, h).0;
      DrainValid(g1, n, d);
      DrainStep(g, g1, Drain(g1, n, d), n, d, h);
    }
  }

  /** Whether an edge survives destroying node `n`: it neither leaves nor enters `n`. */
  function Survives(g: Graph, n: Id): Id -> bool
  {
    (x: Id) => EdgeAt(g, x).from != n && EdgeAt(g, x).to != n
  }

  /** Record validity after freeing a node no live edge touches. */
  lemma NodeFreeRecords(g: Graph, r: Graph, n: Id)
    requires RecordsValid(g)
    requires forall x :: EdgeLive(g, x) ==> End(EdgeAt(g, x), Out) != n && End(EdgeAt(g, x), In) != n
    requires r.edges == g.edges && r.properties == g.properties && r.nodes.data == g.nodes.data
    requires forall x :: NodeLive(r, x) <==> NodeLive(g, x) && x != n
    ensures RecordsValid(r)
  {
    forall e | EdgeLive(r, e)
      ensures EdgeAt(r, e).id == e && NodeLive(r, EdgeAt(r, e).from) && NodeLive(r, EdgeAt(r, e).to)
    {
      assert EdgeLive(g, e) && EdgeAt(r, e) == EdgeAt(g, e);
      assert End(EdgeAt(g, e), Out) != n && End(EdgeAt(g, e), In) != n;
    }
    forall m | NodeLive(r, m) ensures NodeAt(r, m) == NodeAt(g, m) {}
    forall p | PropertyLive(r, p) ensures PropertyLive(g, p) && PropertyAt(r, p) == PropertyAt(g, p) {}
  }

  /** List validity after freeing a node: the other nodes' records and all edges are untouched. */
  lemma NodeFreeLists(g: Graph, r: Graph, n: Id)
    requires ListsValid(g) && r.edges == g.edges && r.edgeOrder == g.edgeOrder
    requires r.nodes.data == g.nodes.data
    requires forall x :: NodeLive(r, x) <==> NodeLive(g, x) && x != n
    ensures ListsValid(r)
  {
    forall m, d | NodeLive(r, m) ensures IsList(r, m, d, Adj(r, m, d)) {
      assert NodeAt(r, m) == NodeAt(g, m);
      ListKeep(g, r, m, d);
    }
  }

  /** Freeing a node that owns no edge keeps the store valid. */
  lemma NodeFreeValid(g: Graph, n: Id)
    requires Valid(g) && NodeLive(g, n) && Adj(g, n, Out) == [] && Adj(g, n, In) == []
    ensures var r := g.(nodes := Slab.Free(g.nodes, n).0, nodeOrder := OrderRemove(g.nodeOrder, n));
      Valid(r)
  {
    FreeRemove(g.nodes, g.nodeOrder, g.nodeOrderCap, n);
    var r := g.(nodes := Slab.Free(g.nodes, n).0, nodeOrder := OrderRemove(g.nodeOrder, n));
    EmptyAdj(g, n, Out);
    EmptyAdj(g, n, In);
    NodeFreeRecords(g, r, n);
    NodeFreeLists(g, r, n);
  }

  /** A list that is empty stays empty while other edges are destroyed. */
  lemma AdjStaysEmpty(g: Graph, r: Graph, n: Id, d: Dir, d': Dir)
    requires OrderValid(g.edges, g.edgeOrder, g.edgeOrderCap)
    requires OrderValid(r.edges, r.edgeOrder, r.edgeOrderCap)
    requires Adj(g, n, d) == [] && DrainedEdges(g, r, n, d')
    ensures Adj(r, n, d) == []
  {
    AdjFacts(g, n, d);
    forall i | 0 <= i < |r.edgeOrder| ensures !Owned(r, n, d)(r.edgeOrder[i]) {
      var x := r.edgeOrder[i];
      assert x in r.edgeOrder && EdgeLive(g, x) && x !in Adj(g, n, d);
      assert Payload(EdgeAt(r, x)) == Payload(EdgeAt(g, x));
    }
    FilterNone(r.edgeOrder, Owned(r, n, d));
  }

  /** The free step of node destruction, after both drains. */
  lemma NodeDestroyFinish(g: Graph, g1: Graph, g2: Graph, n: Id)
    requires DrainedEdges(g, g1, n, Out) && DrainedEdges(g1, g2, n, In)
    requires Valid(g2) && NodeLive(g2, n) && Adj(g2, n, Out) == [] && Adj(g2, n, In) == []
    ensures var r := g2.(nodes := Slab.Free(g2.nodes, n).0, nodeOrder := OrderRemove(g2.nodeOrder, n));
      && Valid(r)
      && (forall x :: EdgeLive(r, x) <==> EdgeLive(g, x) && Survives(g, n)(x))
      && r.edgeOrder == Filter(g.edgeOrder, Survives(g, n))
  {
    NodeFreeValid(g2, n);
    var r := g2.(nodes := Slab.Free(g2.nodes, n).0, nodeOrder := OrderRemove(g2.nodeOrder, n));
    NodeDestroyCascade(g, g1, g2, r, n);
  }

  /** Node destruction keeps the store valid and cascades exactly: the edges left are the
      ones neither leaving nor entering the node, in their old creation order. */
  lemma NodeDestroyValid(g: Graph, n: Id)
    requires Valid(g)
    ensures Valid(NodeDestroy(g, n).0)
    ensures NodeDestroy(g, n).1 ==>
      && (forall x :: EdgeLive(NodeDestroy(g, n).0, x) <==> EdgeLive(g, x) && Survives(g, n)(x))
      && NodeDestroy(g, n).0.edgeOrder == Filter(g.edgeOrder, Survives(g, n))
  {
    if NodeLive(g, n) {
      DrainValid(g, n, Out);
      var g1 := Drain(g, n, Out);
      DrainValid(g1, n, In);
      var g2 := Drain(g1, n, In);
      AdjStaysEmpty(g1, g2, n, Out, In);
      NodeDestroyFinish(g, g1, g2, n);
      var r := g2.(nodes := Slab.Free(g2.nodes, n).0, nodeOrder := OrderRemove(g2.nodeOrder, n));
      assert NodeDestroy(g, n) == (r, true);
    }
  }

  /** The two drains together remove exactly the edges incident to the node. */
  lemma NodeDestroyCascade(g: Graph, g1: Graph, g2: Graph, r: Graph, n: Id)
    requires DrainedEdges(g, g1, n, Out) && DrainedEdges(g1, g2, n, In)
    requires r.edges == g2.edges && r.edgeOrder == g2.edgeOrder
    ensures forall x :: EdgeLive(r, x) <==> EdgeLive(g, x) && Survives(g, n)(x)
    ensures r.edgeOrder == Filter(g.edgeOrder, Survives(g, n))
  {
    forall x ensures Keeps(g1, n, In)(x) == Keeps(g, n, In)(x) {
      assert Payload(EdgeAt(g1, x)) == Payload(EdgeAt(g, x));
    }
    FilterAgree(g1.edgeOrder, Keeps(g1, n, In), Keeps(g, n, In));
    FilterFilter(g.edgeOrder, Keeps(g, n, Out), Keeps(g, n, In), Survives(g, n));
    forall x ensures EdgeLive(r, x) <==> EdgeLive(g, x) && Survives(g, n)(x) {
      assert Payload(EdgeAt(g1, x)) == Payload(EdgeAt(g, x));
    }
  }
}

=== FILE: graph_valid.dfy ===
/** The invariant of the graph store and its preservation by every mutating operation.

    A valid store keeps, for each of its three slabs, a creation-order array holding exactly
    the live ids, each once, with `count` entries; every live record carries its own id; every
    live edge joins two live nodes; and each live node's outgoing (incoming) list is exactly the
    live edges leaving (entering) it, in creation order. */
module GraphValid {
  import opened Common
  import opened Ids
  import opened Graph
  import opened GraphLists
  import Slab

  /** Whether an edge belongs to node `n`'s list in direction `d`. */
  function Owned(g: Graph, n: Id, d: Dir): Id -> bool
  {
    (x: Id) => End(EdgeAt(g, x), d) == n
  }

  /** The list node `n` should have in direction `d`: the edges it owns there, in creation order. */
  ghost function Adj(g: Graph, n: Id, d: Dir): seq<Id>
  {
    Filter(g.edgeOrder, Owned(g, n, d))
  }

  /** A slab and its creation-order array agree: the array lists the live ids, each once, and
      is as long as the live count; the array can hold a full slab. */
  ghost predicate OrderValid<T>(s: Slab.Slab<T>, order: seq<Id>, cap: nat)
  {
    && Slab.Valid(s)
    && Distinct(order)
    && (forall x :: x in order <==> Slab.Exists(s, x))
    && |order| == s.count
    && s.capacity <= cap
  }

  /** Every live record names itself, and every live edge joins two live nodes. */
  ghost predicate RecordsValid(g: Graph)
  {
    && (forall n :: NodeLive(g, n) ==> NodeAt(g, n).id == n)
    && (forall e :: EdgeLive(g, e) ==>
          EdgeAt(g, e).id == e && NodeLive(g, EdgeAt(g, e).from) && NodeLive(g, EdgeAt(g, e).to))
    && (forall p :: PropertyLive(g, p) ==> PropertyAt(g, p).id == p)
  }

  /** Every live node's lists are its owned edges in creation order. */
  ghost predicate ListsValid(g: Graph)
  {
    forall n, d :: NodeLive(g, n) ==> IsList(g, n, d, Adj(g, n, d))
  }

  ghost predicate Valid(g: Graph)
  {
    && Shaped(g)
    && OrderValid(g.nodes, g.nodeOrder, g.nodeOrderCap)
    && OrderValid(g.edges, g.edgeOrder, g.edgeOrderCap)
    && OrderValid(g.properties, g.propertyOrder, g.propertyOrderCap)
    && RecordsValid(g)
    && ListsValid(g)
  }

  // ---------------------------------------------------------------------------------------
  // Helpers

  /** Both endpoints of a live edge are live. */
  lemma EndLive(g: Graph, e: Id, d: Dir)
    requires RecordsValid(g) && EdgeLive(g, e)
    ensures NodeLive(g, End(EdgeAt(g, e), d))
  {
  }

  /** An adjacency list has no repeats and holds only live edges owned in that direction. */
  lemma AdjFacts(g: Graph, n: Id, d: Dir)
    requires OrderValid(g.edges, g.edgeOrder, g.edgeOrderCap)
    ensures Distinct(Adj(g, n, d))
    ensures |Adj(g, n, d)| <= |g.edgeOrder|
    ensures forall x :: x in Adj(g, n, d) <==> EdgeLive(g, x) && End(EdgeAt(g, x), d) == n
  {
    FilterDistinct(g.edgeOrder, Owned(g, n, d));
    FilterSubset(g.edgeOrder, Owned(g, n, d));
    forall x | EdgeLive(g, x) && End(EdgeAt(g, x), d) == n
      ensures x in Adj(g, n, d)
    {
      FilterKeeps(g.edgeOrder, Owned(g, n, d), x);
    }
  }

  /** When the edge order and what each listed edge is owned by stay, the adjacency lists stay. */
  lemma AdjKeep(g: Graph, r: Graph, n: Id, d: Dir)
    requires r.edgeOrder == g.edgeOrder
    requires forall k :: 0 <= k < |g.edgeOrder| ==>
               End(EdgeAt(r, g.edgeOrder[k]), d) == End(EdgeAt(g, g.edgeOrder[k]), d)
    ensures Adj(r, n, d) == Adj(g, n, d)
  {
    FilterAgree(g.edgeOrder, Owned(g, n, d), Owned(r, n, d));
  }

  /** A node whose record and edges are untouched keeps a valid list. */
  lemma ListKeep(g: Graph, r: Graph, n: Id, d: Dir)
    requires r.edges == g.edges && r.edgeOrder == g.edgeOrder
    requires IsList(g, n, d, Adj(g, n, d)) && NodeAt(r, n) == NodeAt(g, n)
    ensures IsList(r, n, d, Adj(r, n, d))
  {
    AdjKeep(g, r, n, d);
    var L := Adj(g, n, d);
    forall k | 0 <= k < |L| ensures EdgeLive(r, L[k]) {
      ListMember(g, n, d, L, k);
    }
    ListFrame(g, r, n, d, L);
  }

  /** When nodes and edges are untouched every list stays valid. */
  lemma ListsKeep(g: Graph, r: Graph)
    requires ListsValid(g) && r.nodes == g.nodes && r.edges == g.edges && r.edgeOrder == g.edgeOrder
    ensures ListsValid(r)
  {
    forall n, d | NodeLive(r, n)
      ensures IsList(r, n, d, Adj(r, n, d))
    {
      ListKeep(g, r, n, d);
    }
  }

  /** A fresh id appended to an order whose slab gained exactly that id. */
  lemma OrderAppendValid<T>(s: Slab.Slab<T>, order: seq<Id>, cap: nat, s': Slab.Slab<T>, id: Id)
    requires OrderValid(s, order, cap) && Slab.Valid(s')
    requires !Slab.Exists(s, id)
    requires forall x :: Slab.Exists(s', x) <==> Slab.Exists(s, x) || x == id
    requires s'.count == s.count + 1 && s'.capacity == s.capacity
    ensures OrderValid(s', order + [id], cap)
  {
    var o := order + [id];
    forall a, b | 0 <= a < b < |o| ensures o[a] != o[b] {
      if b == |order| { assert o[a] == order[a]; }
      else { assert o[a] == order[a] && o[b] == order[b]; }
    }
  }

  /** An id dropped from an order whose slab lost exactly that id. */
  lemma OrderRemoveValid<T>(s: Slab.Slab<T>, order: seq<Id>, cap: nat, s': Slab.Slab<T>, id: Id)
    requires OrderValid(s, order, cap) && Slab.Valid(s') && Slab.Exists(s, id)
    requires forall x :: Slab.Exists(s', x) <==> Slab.Exists(s, x) && x != id
    requires s'.count + 1 == s.count && s'.capacity == s.capacity
    ensures OrderValid(s', OrderRemove(order, id), cap)
  {
    RemoveFirstDistinct(order, id);
  }

  /** Rewriting records keeps a slab in step with its order array. */
  lemma OrderValidData<T>(s: Slab.Slab<T>, s': Slab.Slab<T>, order: seq<Id>, cap: nat)
    requires OrderValid(s, order, cap) && Slab.Shaped(s') && s' == s.(data := s'.data)
    ensures OrderValid(s', order, cap)
    ensures forall x :: Slab.Exists(s', x) <==> Slab.Exists(s, x)
  {
    var L :| Slab.ValidWith(s, L);
    Slab.DataKeepsValid(s, s', L);
  }

  /** Freeing a live id and dropping it from the order array keeps the two in step; the
      records are not touched. */
  lemma FreeRemove<T>(s: Slab.Slab<T>, order: seq<Id>, cap: nat, id: Id)
    requires OrderValid(s, order, cap) && Slab.Exists(s, id)
    ensures var s1 := Slab.Free(s, id).0;
      && Slab.Free(s, id).1
      && OrderValid(s1, OrderRemove(order, id), cap)
      && s1.data == s.data && s1.capacity == s.capacity
      && (forall x :: Slab.Exists(s1, x) <==> Slab.Exists(s, x) && x != id)
  {
    var L :| Slab.ValidWith(s, L);
    Slab.FreeKeepsValid(s, id, L);
    var s1 := Slab.Free(s, id).0;
    OrderRemoveValid(s, order, cap, s1, id);
  }

  // ---------------------------------------------------------------------------------------
  // Creation of the store, nodes and properties

  /** A store that is created is valid and empty. */
  lemma GraphCreateValid(nodeCap: U64, edgeCap: U64, propertyCap: U64)
    ensures var r := GraphCreate(nodeCap, edgeCap, propertyCap);
      r.Some? ==> Valid(r.value) && Nodes(r.value) == [] && Edges(r.value) == []
    ensures GraphCreate(nodeCap, edgeCap, propertyCap).None? <==>
      nodeCap % 0x1_0000_0000 == 0 || edgeCap % 0x1_0000_0000 == 0 || propertyCap % 0x1_0000_0000 == 0
  {
    var r := GraphCreate(nodeCap, edgeCap, propertyCap);
    if r.Some? {
      var g := r.value;
      assert g.nodes == Slab.Init(NodeSize, nodeCap % 0x1_0000_0000, ZeroNode).value;
      assert g.edges == Slab.Init(EdgeSize, edgeCap % 0x1_0000_0000, ZeroEdge).value;
      assert g.properties == Slab.Init(PropertySize, propertyCap % 0x1_0000_0000, ZeroProperty).value;
    }
  }

  /** A node that was not live owns no edge of an unchanged edge store. */
  lemma NewNodeAdjEmpty(g: Graph, r: Graph, id: Id, d: Dir)
    requires RecordsValid(g) && OrderValid(g.edges, g.edgeOrder, g.edgeOrderCap) && !NodeLive(g, id)
    requires r.edges == g.edges && r.edgeOrder == g.edgeOrder
    ensures Adj(r, id, d) == []
  {
    forall k | 0 <= k < |g.edgeOrder| ensures !Owned(r, id, d)(g.edgeOrder[k]) {
      EndLive(g, g.edgeOrder[k], d);
    }
    FilterNone(g.edgeOrder, Owned(r, id, d));
  }

  /** Allocating a slot and writing its record: the order array has room for the new id
      (so appending to it cannot fail), the slab stays in step with the appended array, and
      exactly the new id became live. */
  lemma AllocAppend<T>(s: Slab.Slab<T>, order: seq<Id>, cap: nat, zero: T, mk: Id -> T)
    requires OrderValid(s, order, cap)
    ensures Slab.Alloc(s, zero).1 == 0 <==> s.count == s.capacity
    ensures var id := Slab.Alloc(s, zero).1;
      id != 0 ==>
        var s2 := Slab.Put(Slab.Alloc(s, zero).0, id, mk(id));
        && |order| < cap
        && !Slab.Exists(s, id)
        && OrderValid(s2, order + [id], cap)
        && (forall x :: Slab.Exists(s2, x) <==> Slab.Exists(s, x) || x == id)
        && (forall x :: Slab.Exists(s2, x) && x != id ==> Slab.Get(s2, x) == Slab.Get(s, x))
        && Slab.Get(s2, id) == Some(mk(id))
  {
    var L :| Slab.ValidWith(s, L);
    Slab.AllocFailsOnlyWhenFull(s, zero);
    var a := Slab.Alloc(s, zero);
    if a.1 != 0 {
      AllocStep(s, L, zero);
      PutAppend(s, a.0, a.1, order, cap, mk(a.1), if |L| > 0 then L[1..] else L);
    }
  }

  /** Writing the record of a freshly allocated id. */
  lemma PutAppend<T>(s: Slab.Slab<T>, s1: Slab.Slab<T>, id: Id, order: seq<Id>, cap: nat, item: T,
                     L1: seq<U32>)
    requires OrderValid(s, order, cap) && Slab.ValidWith(s1, L1)
    requires s1.count == s.count + 1 && s1.capacity == s.capacity
    requires !Slab.Exists(s, id) && Slab.Exists(s1, id)
    requires forall x :: Slab.Exists(s1, x) <==> Slab.Exists(s, x) || x == id
    requires forall x :: x != id ==> Slab.Get(s1, x) == Slab.Get(s, x)
    ensures var s2 := Slab.Put(s1, id, item);
      && |order| < cap
      && OrderValid(s2, order + [id], cap)
      && (forall x :: Slab.Exists(s2, x) <==> Slab.Exists(s, x) || x == id)
      && (forall x :: Slab.Exists(s2, x) && x != id ==> Slab.Get(s2, x) == Slab.Get(s, x))
      && Slab.Get(s2, id) == Some(item)
  {
    Slab.CountBound(s1);
    var s2 := Slab.Put(s1, id, item);
    Slab.DataKeepsValid(s1, s2, L1);
    OrderAppendValid(s, order, cap, s2, id);
    forall x | Slab.Exists(s2, x) && x != id
      ensures Slab.Get(s2, x) == Slab.Get(s, x)
    {
      if IndexOf(x) == IndexOf(id) { Slab.ExistsSameIndex(s1, x, id); }
    }
  }

  /** The slab facts of one successful allocation, gathered. */
  lemma AllocStep<T>(s: Slab.Slab<T>, L: seq<U32>, zero: T)
    requires Slab.ValidWith(s, L) && Slab.Alloc(s, zero).1 != 0
    ensures var s1 := Slab.Alloc(s, zero).0; var id := Slab.Alloc(s, zero).1;
      && Slab.ValidWith(s1, if |L| > 0 then L[1..] else L)
      && s1.count == s.count + 1 && s1.capacity == s.capacity
      && !Slab.Exists(s, id) && Slab.Exists(s1, id)
      && (forall x :: Slab.Exists(s1, x) <==> Slab.Exists(s, x) || x == id)
      && (forall x :: x != id ==> Slab.Get(s1, x) == Slab.Get(s, x))
  {
    Slab.AllocKeepsValid(s, zero, L);
    Slab.AllocFrame(s, zero);
  }

  /** Record validity survives a change that adds one node `id` naming itself and leaves
      every other node record, the edges and the properties alone. */
  lemma NodeAddedRecords(g: Graph, r: Graph, id: Id)
    requires RecordsValid(g) && r.edges == g.edges && r.properties == g.properties
    requires forall x :: NodeLive(r, x) <==> NodeLive(g, x) || x == id
    requires forall x :: NodeLive(r, x) && x != id ==> NodeAt(r, x) == NodeAt(g, x)
    requires NodeAt(r, id).id == id
    ensures RecordsValid(r)
  {
    forall e | EdgeLive(r, e) ensures EdgeLive(g, e) && EdgeAt(r, e) == EdgeAt(g, e) {}
    forall p | PropertyLive(r, p) ensures PropertyLive(g, p) && PropertyAt(r, p) == PropertyAt(g, p) {}
  }

  /** List validity after adding a node `id` that was not live, with empty lists. */
  lemma NodeAddedLists(g: Graph, r: Graph, id: Id)
    requires ListsValid(g) && RecordsValid(g) && OrderValid(g.edges, g.edgeOrder, g.edgeOrderCap)
    requires !NodeLive(g, id) && r.edges == g.edges && r.edgeOrder == g.edgeOrder
    requires forall x :: NodeLive(r, x) <==> NodeLive(g, x) || x == id
    requires forall x :: NodeLive(r, x) && x != id ==> NodeAt(r, x) == NodeAt(g, x)
    requires NodeAt(r, id) == ZeroNode.(id := id)
    ensures ListsValid(r)
    ensures forall d :: Adj(r, id, d) == []
  {
    forall n, d | NodeLive(r, n)
      ensures IsList(r, n, d, Adj(r, n, d))
    {
      if n == id {
        NewNodeAdjEmpty(g, r, id, d);
      } else {
        ListKeep(g, r, n, d);
      }
    }
    forall d ensures Adj(r, id, d) == [] {
      NewNodeAdjEmpty(g, r, id, d);
    }
  }

  /** Node creation keeps the store valid, fails exactly when the node slab is full (the
      order-array failure path cannot be reached), and the new node has empty lists. */
  lemma NodeCreateValid(g: Graph)
    requires Valid(g)
    ensures Valid(NodeCreate(g).0)
    ensures NodeCreate(g).1 == 0 <==> g.nodes.count == g.nodes.capacity
    ensures NodeCreate(g).1 == 0 ==> NodeCreate(g).0 == g
    ensures var (r, id) := NodeCreate(g);
      id != 0 ==> !NodeLive(g, id) && (forall d :: Adj(r, id, d) == [])
                  && (forall x :: NodeLive(r, x) <==> NodeLive(g, x) || x == id)
  {
    var mk := (id: Id) => ZeroNode.(id := id);
    AllocAppend(g.nodes, g.nodeOrder, g.nodeOrderCap, ZeroNode, mk);
    var id := Slab.Alloc(g.nodes, ZeroNode).1;
    if id != 0 {
      var ns1 := Slab.Put(Slab.Alloc(g.nodes, ZeroNode).0, id, mk(id));
      var r := g.(nodes := ns1, nodeOrder := g.nodeOrder + [id]);
      assert NodeCreate(g) == (r, id);
      forall x | NodeLive(r, x) && x != id
        ensures NodeAt(r, x) == NodeAt(g, x)
      {
        assert Slab.Get(ns1, x) == Slab.Get(g.nodes, x);
      }
      assert Slab.Get(ns1, id) == Some(mk(id));
      NodeAddedRecords(g, r, id);
      NodeAddedLists(g, r, id);
    }
  }

  /** A change confined to the properties keeps the store valid when the properties stay in
      step with their order array and name themselves. */
  lemma PropertiesOnly(g: Graph, r: Graph)
    requires Valid(g) && Shaped(r)
    requires r == g.(properties := r.properties, propertyOrder := r.propertyOrder)
    requires OrderValid(r.properties, r.propertyOrder, r.propertyOrderCap)
    requires forall p :: PropertyLive(r, p) ==> PropertyAt(r, p).id == p
    ensures Valid(r)
  {
    forall n | NodeLive(r, n) ensures NodeLive(g, n) && NodeAt(r, n) == NodeAt(g, n) {}
    forall e | EdgeLive(r, e) ensures EdgeLive(g, e) && EdgeAt(r, e) == EdgeAt(g, e) {}
    forall n | NodeLive(g, n) ensures NodeLive(r, n) {}
    ListsKeep(g, r);
  }

  /** A property store that gained exactly the property `id`, naming itself. */
  lemma PropertyAdded(g: Graph, r: Graph, id: Id)
    requires Valid(g) && Shaped(r)
    requires r == g.(properties := r.properties, propertyOrder := r.propertyOrder)
    requires OrderValid(r.properties, r.propertyOrder, r.propertyOrderCap)
    requires forall x :: Slab.Exists(r.properties, x) && x != id ==>
               Slab.Get(r.properties, x) == Slab.Get(g.properties, x)
    requires forall x :: Slab.Exists(r.properties, x) <==> Slab.Exists(g.properties, x) || x == id
    requires PropertyAt(r, id).id == id
    ensures Valid(r)
  {
    forall p | PropertyLive(r, p) ensures PropertyAt(r, p).id == p {
      if p != id {
        assert PropertyLive(g, p);
        assert Slab.Get(r.properties, p) == Slab.Get(g.properties, p);
        assert PropertyAt(r, p) == PropertyAt(g, p);
        assert RecordsValid(g);
      }
    }
    PropertiesOnly(g, r);
  }

  /** Property creation keeps the store valid and fails exactly when the property slab is full. */
  lemma PropertyCreateValid(g: Graph, owner: Id, key: U64, value: real)
    requires Valid(g)
    ensures Valid(PropertyCreate(g, owner, key, value).0)
    ensures PropertyCreate(g, owner, key, value).1 == 0 <==> g.properties.count == g.properties.capacity
    ensures PropertyCreate(g, owner, key, value).1 == 0 ==> PropertyCreate(g, owner, key, value).0 == g
  {
    var mk := (id: Id) => Property(id, owner, key, value);
    AllocAppend(g.properties, g.propertyOrder, g.propertyOrderCap, ZeroProperty, mk);
    var id := Slab.Alloc(g.properties, ZeroProperty).1;
    if id != 0 {
      var ps1 := Slab.Put(Slab.Alloc(g.properties, ZeroProperty).0, id, mk(id));
      var r := g.(properties := ps1, propertyOrder := g.propertyOrder + [id]);
      assert PropertyCreate(g, owner, key, value) == (r, id);
      assert Slab.Get(ps1, id) == Some(mk(id));
      PropertyAdded(g, r, id);
    }
  }

  /** Property destruction keeps the store valid. */
  lemma PropertyDestroyValid(g: Graph, p: Id)
    requires Valid(g)
    ensures Valid(PropertyDestroy(g, p).0)
  {
    if PropertyLive(g, p) {
      FreeRemove(g.properties, g.propertyOrder, g.propertyOrderCap, p);
      PropertyRemoved(g, PropertyDestroy(g, p).0);
    }
  }

  /** A property store that lost some properties and rewrote no record. */
  lemma PropertyRemoved(g: Graph, r: Graph)
    requires Valid(g) && Shaped(r)
    requires r == g.(properties := r.properties, propertyOrder := r.propertyOrder)
    requires OrderValid(r.properties, r.propertyOrder, r.propertyOrderCap)
    requires r.properties.data == g.properties.data
    requires forall x :: Slab.Exists(r.properties, x) ==> Slab.Exists(g.properties, x)
    ensures Valid(r)
  {
    forall q | PropertyLive(r, q) ensures PropertyAt(r, q).id == q {
      assert PropertyLive(g, q);
      assert RecordsValid(g);
    }
    PropertiesOnly(g, r);
  }
}

=== FILE: ids.dfy ===
/** Generational identifiers: a 64-bit id packs `(generation << 32) | (index + 1)`.
    The low 32 bits hold the slot index plus one, so the value 0 never names a slot
    and is reserved for "no entity". */
module Ids {

  /** The C `uint32_t` and `uint64_t` ranges. */
  type U32 = x: nat | x < 0x1_0000_0000
  type U64 = x: nat | x < 0x1_0000_0000_0000_0000
  type Id = U64

  /** `UINT32_MAX`: the index an id with zero low bits decodes to. */
  const NoIndex: U32 := 0xFFFF_FFFF

  /** `nty_id_index`: the low 32 bits minus one, or the sentinel when they are zero. */
  function IndexOf(id: Id): U32
  {
    var raw := id % 0x1_0000_0000;
    if raw == 0 then NoIndex else raw - 1
  }

  /** `nty_id_generation`: the high 32 bits. */
  function GenerationOf(id: Id): U32
  {
    id / 0x1_0000_0000
  }

  /** The id issued for a slot: `(generation << 32) | (index + 1)`.  Because
      `index + 1 < 2^32` the bitwise or is the sum of the two parts. */
  function MakeId(generation: U32, index: U32): (id: Id)
    requires index < NoIndex
    ensures id != 0
    ensures IndexOf(id) == index
    ensures GenerationOf(id) == generation
  {
    generation * 0x1_0000_0000 + (index + 1)
  }

  /** Decoding an id whose low bits are nonzero and encoding the parts again gives the id back. */
  lemma EncodeDecode(id: Id)
    requires IndexOf(id) != NoIndex
    ensures MakeId(GenerationOf(id), IndexOf(id)) == id
  {
  }

  /** The id 0 (and any id with zero low bits) names no slot. */
  lemma ZeroLowBitsNameNoSlot(id: Id)
    requires id % 0x1_0000_0000 == 0
    ensures IndexOf(id) == NoIndex
  {
  }

  /** Two issued ids are equal exactly when their generations and indices are. */
  lemma MakeIdInjective(g1: U32, i1: U32, g2: U32, i2: U32)
    requires i1 < NoIndex && i2 < NoIndex
    ensures MakeId(g1, i1) == MakeId(g2, i2) <==> g1 == g2 && i1 == i2
  {
    if MakeId(g1, i1) == MakeId(g2, i2) {
      assert IndexOf(MakeId(g1, i1)) == i1 && IndexOf(MakeId(g2, i2)) == i2;
      assert GenerationOf(MakeId(g1, i1)) == g1 && GenerationOf(MakeId(g2, i2)) == g2;
    }
  }
}

=== FILE: jsmn.dfy ===
/** The jsmn JSON tokenizer: a single pass over the text that writes flat tokens (type, span,
    child count) into a caller-provided array of fixed size, with no recursion.

    The caller's array is modelled by the sequence of tokens written so far, `toks`, whose
    length is the parser's `toknext`; `numTokens` is the array's size.  Containers are
    matched by scanning back for the innermost token still open, and every token increments
    the child count of the innermost open container at the point it starts. */
module Jsmn {
  import opened Common

  datatype Kind = Undefined | Object | Array | String | Primitive

  /** `jsmntok_t`: `start` and `end` are -1 until set; `end` is one past the last character. */
  datatype Token = Token(kind: Kind, start: int, end: int, size: nat)

  /** `jsmn_parser`: the next character, the written tokens and the innermost open
      container (-1 for none). */
  datatype Parser = Parser(pos: nat, toks: seq<Token>, toksuper: int)

  datatype Error = NoMem | Inval | Part

  /** What `jsmn_parse` returns: the number of tokens, or an error code. */
  datatype Status = Count(n: nat) | Failed(err: Error)

  /** What one character does to the parser: carry on, or stop with an error. */
  datatype Outcome = Next(p: Parser) | Stop(p: Parser, err: Error)

  /** `jsmn_init`. */
  function Init(): (p: Parser)
    ensures p.toks == [] && p.pos == 0 && p.toksuper == LastOpenBelow(p.toks, 0)
  {
    Parser(0, [], -1)
  }

  predicate IsSpace(c: char)
  {
    c == '\t' || c == '\r' || c == '\n' || c == ' '
  }

  /** The characters that end a primitive. */
  predicate IsPrimEnd(c: char)
  {
    IsSpace(c) || c == ',' || c == ']' || c == '}'
  }

  predicate IsContainer(t: Token)
  {
    t.kind == Object || t.kind == Array
  }

  /** A token whose start is set and whose end is not: a container not yet closed. */
  predicate IsOpen(t: Token)
  {
    t.start != -1 && t.end == -1
  }

  /** The last open token below index `i`, or -1: the backwards scan of `jsmn_parse`. */
  function LastOpenBelow(toks: seq<Token>, i: nat): (r: int)
    requires i <= |toks|
    ensures -1 <= r < i
    ensures r != -1 ==> IsOpen(toks[r])
    ensures forall k :: r < k < i ==> !IsOpen(toks[k])
  {
    if i == 0 then -1
    else if IsOpen(toks[i - 1]) then i - 1
    else LastOpenBelow(toks, i - 1)
  }

  /** `jsmn_alloc_token` followed by `jsmn_fill_token`: a token is written only while the
      array has room. */
  function AllocToken(toks: seq<Token>, numTokens: nat, t: Token): (r: Option<seq<Token>>)
    ensures r.Some? <==> |toks| < numTokens
    ensures r.Some? ==>
      |r.value| == |toks| + 1 <= numTokens && r.value[..|toks|] == toks && r.value[|toks|] == t
  {
    if |toks| >= numTokens then None else Some(toks + [t])
  }

  /** One more child for the innermost open container, when there is one. */
  function Bump(toks: seq<Token>, s: int): (r: seq<Token>)
    requires -1 <= s < |toks|
    ensures |r| == |toks|
    ensures forall k :: 0 <= k < |r| ==> r[k].size == toks[k].size + (if k == s then 1 else 0)
    ensures forall k :: 0 <= k < |r| ==> r[k].(size := 0) == toks[k].(size := 0)
  {
    if s == -1 then toks else toks[s := toks[s].(size := toks[s].size + 1)]
  }

  /** Where a primitive starting at `i` ends: the first delimiter, or the end of the text. */
  function PrimEnd(js: string, i: nat): (r: nat)
    requires i <= |js|
    ensures i <= r <= |js|
    ensures r < |js| ==> IsPrimEnd(js[r])
    ensures forall k :: i <= k < r ==> !IsPrimEnd(js[k])
    decreases |js| - i
  {
    if i == |js| || IsPrimEnd(js[i]) then i else PrimEnd(js, i + 1)
  }

  /** Where a string whose body starts at `i` ends: the index of its closing quote, with a
      backslash skipping the character after it; `None` when the text ends first.  Every
      quote the scan passes over is escaped, that is, follows a backslash. */
  function StringEnd(js: string, i: nat): (r: Option<nat>)
    ensures r.Some? ==> i <= r.value < |js| && js[r.value] == '"'
    ensures forall k :: i <= k < |js| && (r.None? || k < r.value) && js[k] == '"' ==>
      i < k && js[k - 1] == '\\'
    decreases |js| - i
  {
    if i >= |js| then None
    else if js[i] == '"' then Some(i)
    else if js[i] == '\\' then
      if i + 1 >= |js| then None else StringEnd(js, i + 2)
    else StringEnd(js, i + 1)
  }

  /** `jsmn_parse_string`, at the opening quote: the token spans the body strictly between
      the quotes; an unterminated string or a trailing backslash is `Part`, and a full array
      is `NoMem`, both leaving the parser where it was. */
  function ParseString(p: Parser, js: string, numTokens: nat): (r: Outcome)
    ensures r.Stop? ==> r.p == p && r.err != Inval
    ensures r.Stop? && r.err == Part <==> StringEnd(js, p.pos + 1).None?
    ensures r.Next? ==>
      && StringEnd(js, p.pos + 1) == Some(r.p.pos) && r.p.toksuper == p.toksuper
      && r.p.toks == p.toks + [Token(String, p.pos + 1, r.p.pos, 0)] && |r.p.toks| <= numTokens
  {
    match StringEnd(js, p.pos + 1)
    case None => Stop(p, Part)
    case Some(e) =>
      match AllocToken(p.toks, numTokens, Token(String, p.pos + 1, e, 0))
      case None => Stop(p, NoMem)
      case Some(toks) => Next(p.(pos := e, toks := toks))
  }

  /** `jsmn_parse_primitive`, at a character that starts one: the token runs to the first
      delimiter or the end of the text, and the parser steps back onto its last character;
      with a full array it is `NoMem` and the parser stays where it was. */
  function ParsePrimitive(p: Parser, js: string, numTokens: nat): (r: Outcome)
    requires p.pos < |js| && !IsPrimEnd(js[p.pos])
    ensures r.Stop? ==> r.p == p && r.err == NoMem && |p.toks| >= numTokens
    ensures r.Next? ==>
      && r.p.pos + 1 == PrimEnd(js, p.pos) && r.p.toksuper == p.toksuper
      && r.p.toks == p.toks + [Token(Primitive, p.pos, r.p.pos + 1, 0)] && |r.p.toks| <= numTokens
  {
    var e := PrimEnd(js, p.pos);
    match AllocToken(p.toks, numTokens, Token(Primitive, p.pos, e, 0))
    case None => Stop(p, NoMem)
    case Some(toks) => Next(p.(pos := e - 1, toks := toks))
  }

  /** An opening bracket: a new container token, counted as a child of the innermost open
      one, becomes the innermost open one; with a full array it is `NoMem`. */
  function OpenContainer(p: Parser, kind: Kind, numTokens: nat): (r: Outcome)
    requires -1 <= p.toksuper < |p.toks|
    ensures r.Stop? ==> r.p == p && r.err == NoMem && |p.toks| >= numTokens
    ensures r.Next? ==> r.p.pos == p.pos && r.p.toksuper == |p.toks| && |r.p.toks| <= numTokens
  {
    var t := Token(kind, p.pos, -1, 0);
    match AllocToken(p.toks, numTokens, t)
    case None => Stop(p, NoMem)
    case Some(_) => Next(p.(toks := Bump(p.toks, p.toksuper) + [t], toksuper := |p.toks|))
  }

  /** A closing bracket: the innermost open token must be a container of the same kind; it
      is closed and the innermost open token below it becomes the current container. */
  function CloseContainer(p: Parser, kind: Kind): (r: Outcome)
    ensures r.Stop? ==> r.p == p && r.err == Inval
    ensures r.Stop? <==> (LastOpenBelow(p.toks, |p.toks|) == -1
      || p.toks[LastOpenBelow(p.toks, |p.toks|)].kind != kind)
    ensures r.Next? ==> r.p.pos == p.pos && |r.p.toks| == |p.toks| && -1 <= r.p.toksuper < |r.p.toks|
  {
    var i := LastOpenBelow(p.toks, |p.toks|);
    if i == -1 || p.toks[i].kind != kind then Stop(p, Inval)
    else
      var toks := p.toks[i := p.toks[i].(end := p.pos + 1)];
      Next(p.(toks := toks, toksuper := LastOpenBelow(toks, i)))
  }

  /** A string or primitive token is a child of the innermost open container. */
  function Counted(r: Outcome): (c: Outcome)
    requires r.Next? ==> -1 <= r.p.toksuper < |r.p.toks|
    ensures c.Stop? == r.Stop? && (c.Stop? ==> c == r)
    ensures c.Next? ==> c.p.pos == r.p.pos && c.p.toksuper == r.p.toksuper && |c.p.toks| == |r.p.toks|
  {
    match r
    case Stop(_, _) => r
    case Next(q) => Next(q.(toks := Bump(q.toks, q.toksuper)))
  }

  /** The body of the loop of `jsmn_parse`, for the character at `p.pos`. */
  function Step(p: Parser, js: string, numTokens: nat): (r: Outcome)
    requires p.pos < |js| && -1 <= p.toksuper < |p.toks|
    ensures r.Stop? ==> r.p == p
    ensures r.Next? ==> p.pos <= r.p.pos < |js| && -1 <= r.p.toksuper < |r.p.toks|
  {
    var c := js[p.pos];
    if c == '{' then OpenContainer(p, Object, numTokens)
    else if c == '[' then OpenContainer(p, Array, numTokens)
    else if c == '}' then CloseContainer(p, Object)
    else if c == ']' then CloseContainer(p, Array)
    else if c == '"' then Counted(ParseString(p, js, numTokens))
    else if IsSpace(c) || c == ':' || c == ',' then Next(p)
    else Counted(ParsePrimitive(p, js, numTokens))
  }

  /** The check after the loop: a container still open is `Part`. */
  function Finish(toks: seq<Token>): (r: Status)
    ensures r.Count? <==> forall k :: 0 <= k < |toks| ==> !IsOpen(toks[k])
    ensures r.Count? ==> r.n == |toks|
    ensures r.Failed? ==> r.err == Part
  {
    if LastOpenBelow(toks, |toks|) != -1 then Failed(Part) else Count(|toks|)
  }

  /** `jsmn_parse`: step through the text from `p.pos`, then check for open containers. */
  function Run(p: Parser, js: string, numTokens: nat): (r: (Parser, Status))
    requires -1 <= p.toksuper < |p.toks|
    decreases |js| - p.pos
  {
    if p.pos >= |js| then (p, Finish(p.toks))
    else
      match Step(p, js, numTokens)
      case Stop(q, e) => (q, Failed(e))
      case Next(q) => Run(q.(pos := q.pos + 1), js, numTokens)
  }

  // ---------------------------------------------------------------------------------------
  // Token structure

  /** The position a token starts at: a string's opening quote, else its first character. */
  function Pos(t: Token): int
  {
    if t.kind == String then t.start - 1 else t.start
  }

  /** Container `t` is still open at text position `at`. */
  predicate OpenAt(t: Token, at: int)
  {
    IsContainer(t) && (t.end == -1 || t.end > at)
  }

  /** The last token below index `i` that is a container open at `at`, or -1. */
  function ParentFrom(toks: seq<Token>, at: int, i: nat): (r: int)
    requires i <= |toks|
    ensures -1 <= r < i
  {
    if i == 0 then -1
    else if OpenAt(toks[i - 1], at) then i - 1
    else ParentFrom(toks, at, i - 1)
  }

  /** The container token `j` belongs to: the innermost one open where `j` starts. */
  function Parent(toks: seq<Token>, j: nat): (r: int)
    requires j < |toks|
    ensures -1 <= r < j
  {
    ParentFrom(toks, Pos(toks[j]), j)
  }

  /** How many of the first `m` tokens belong to token `i`. */
  function Children(toks: seq<Token>, i: int, m: nat): nat
    requires m <= |toks|
  {
    if m == 0 then 0
    else Children(toks, i, m - 1) + (if Parent(toks, m - 1) == i then 1 else 0)
  }

  /** What the text says about a token: a string sits between quotes with `StringEnd` finding
      its end, a primitive runs to `PrimEnd`, a container starts at its bracket and, once
      closed, ends just after the matching one. */
  ghost predicate SpanOk(t: Token, js: string)
  {
    match t.kind
    case Undefined => false
    case String =>
      1 <= t.start <= t.end < |js| && js[t.start - 1] == '"' && StringEnd(js, t.start) == Some(t.end)
    case Primitive =>
      0 <= t.start < t.end <= |js| && PrimEnd(js, t.start) == t.end
    case Object =>
      0 <= t.start < |js| && js[t.start] == '{'
      && (t.end == -1 || (t.start + 2 <= t.end <= |js| && js[t.end - 1] == '}'))
    case Array =>
      0 <= t.start < |js| && js[t.start] == '['
      && (t.end == -1 || (t.start + 2 <= t.end <= |js| && js[t.end - 1] == ']'))
  }

  /** A token written before text position `at`: it started and, unless it is an open
      container, ended there or earlier. */
  predicate Placed(t: Token, at: nat)
  {
    && 0 <= Pos(t) < at
    && (t.end == -1 ==> IsContainer(t))
    && t.end <= at
  }

  ghost predicate AllPlaced(toks: seq<Token>, at: nat)
  {
    forall k {:trigger Placed(toks[k], at)} :: 0 <= k < |toks| ==> Placed(toks[k], at)
  }

  ghost predicate AllSpans(toks: seq<Token>, js: string)
  {
    forall k {:trigger SpanOk(toks[k], js)} :: 0 <= k < |toks| ==> SpanOk(toks[k], js)
  }

  /** Every token's `size` is the number of tokens that belong to it. */
  ghost predicate Sizes(toks: seq<Token>)
  {
    forall k {:trigger Children(toks, k, |toks|)} :: 0 <= k < |toks| ==> toks[k].size == Children(toks, k, |toks|)
  }

  /** The parser's invariant at the head of the loop. */
  ghost predicate Valid(p: Parser, js: string, numTokens: nat)
  {
    && p.pos <= |js|
    && |p.toks| <= numTokens
    && p.toksuper == LastOpenBelow(p.toks, |p.toks|)
    && AllPlaced(p.toks, p.pos)
    && AllSpans(p.toks, js)
    && Sizes(p.toks)
  }

  // ---------------------------------------------------------------------------------------
  // Frame lemmas

  /** `ParentFrom` sees only which tokens are open at `at`. */
  lemma {:induction false} ParentFromFrame(a: seq<Token>, b: seq<Token>, at: int, i: nat)
    requires i <= |a| && i <= |b|
    requires forall k :: 0 <= k < i ==> OpenAt(a[k], at) == OpenAt(b[k], at)
    ensures ParentFrom(a, at, i) == ParentFrom(b, at, i)
    decreases i
  {
    if i > 0 {
      ParentFromFrame(a, b, at, i - 1);
    }
  }

  /** Where openness at `at` and openness now agree, the parent is the innermost open token. */
  lemma {:induction false} ParentFromOpen(a: seq<Token>, at: int, i: nat)
    requires i <= |a|
    requires forall k :: 0 <= k < i ==> OpenAt(a[k], at) == IsOpen(a[k])
    ensures ParentFrom(a, at, i) == LastOpenBelow(a, i)
    decreases i
  {
    if i > 0 {
      ParentFromOpen(a, at, i - 1);
    }
  }

  /** `Children` sees only the parents. */
  lemma {:induction false} ChildrenFrame(a: seq<Token>, b: seq<Token>, i: int, m: nat)
    requires m <= |a| && m <= |b|
    requires forall j :: 0 <= j < m ==> Parent(a, j) == Parent(b, j)
    ensures Children(a, i, m) == Children(b, i, m)
    decreases m
  {
    if m > 0 {
      ChildrenFrame(a, b, i, m - 1);
    }
  }

  /** No token below `i + 1` belongs to token `i`. */
  lemma {:induction false} ChildrenNone(a: seq<Token>, i: int, m: nat)
    requires m <= |a| && m <= i + 1
    ensures Children(a, i, m) == 0
    decreases m
  {
    if m > 0 {
      ChildrenNone(a, i, m - 1);
    }
  }

  /** `LastOpenBelow` ignores `size`. */
  lemma {:induction false} LastOpenFrame(a: seq<Token>, b: seq<Token>, i: nat)
    requires i <= |a| && i <= |b|
    requires forall k :: 0 <= k < i ==> IsOpen(a[k]) == IsOpen(b[k])
    ensures LastOpenBelow(a, i) == LastOpenBelow(b, i)
    decreases i
  {
    if i > 0 {
      LastOpenFrame(a, b, i - 1);
    }
  }

  // ---------------------------------------------------------------------------------------
  // The invariant across one step

  /** Appending a token that starts at `at`, after bumping the innermost open container,
      keeps every count right and gives the new token that container as its parent. */
  lemma AppendSizes(toks: seq<Token>, s: int, t: Token, at: nat)
    requires Sizes(toks) && s == LastOpenBelow(toks, |toks|) && AllPlaced(toks, at)
    requires Pos(t) == at && t.size == 0
    ensures Sizes(Bump(toks, s) + [t])
    ensures LastOpenBelow(Bump(toks, s) + [t], |toks|) == s
  {
    var m := |toks|;
    var r := Bump(toks, s) + [t];
    forall k | 0 <= k < m ensures r[k].(size := 0) == toks[k].(size := 0) {
    }
    forall j | 0 <= j < m ensures Parent(r, j) == Parent(toks, j) {
      ParentFromFrame(r, toks, Pos(toks[j]), j);
    }
    forall k | 0 <= k < m ensures OpenAt(r[k], at) == IsOpen(r[k]) {
      assert Placed(toks[k], at);
    }
    LastOpenFrame(r, toks, m);
    ParentFromOpen(r, at, m);
    forall k | 0 <= k < |r| ensures r[k].size == Children(r, k, |r|) {
      ChildrenFrame(r, toks, k, m);
      if k == m {
        ChildrenNone(r, k, m);
      }
    }
  }

  /** Closing open token `i` at `at`, after every token started, changes no parent. */
  lemma CloseSizes(toks: seq<Token>, i: nat, at: nat)
    requires Sizes(toks) && i < |toks| && IsOpen(toks[i]) && AllPlaced(toks, at)
    ensures Sizes(toks[i := toks[i].(end := at + 1)])
  {
    var r := toks[i := toks[i].(end := at + 1)];
    assert Placed(toks[i], at);
    forall j | 0 <= j < |toks| ensures Parent(r, j) == Parent(toks, j) {
      assert Placed(toks[j], at);
      ParentFromFrame(r, toks, Pos(toks[j]), j);
    }
    forall k | 0 <= k < |r| ensures r[k].size == Children(r, k, |r|) {
      ChildrenFrame(r, toks, k, |r|);
    }
  }

  /** Appending a token placed and spanned by the text keeps both facts for all tokens. */
  lemma AppendPlaced(toks: seq<Token>, s: int, t: Token, at: nat, later: nat, js: string)
    requires -1 <= s < |toks| && AllPlaced(toks, at) && AllSpans(toks, js) && at <= later
    requires Placed(t, later) && SpanOk(t, js)
    ensures AllPlaced(Bump(toks, s) + [t], later) && AllSpans(Bump(toks, s) + [t], js)
  {
    var r := Bump(toks, s) + [t];
    forall k | 0 <= k < |r| ensures Placed(r[k], later) && SpanOk(r[k], js) {
      if k < |toks| {
        assert r[k].(size := 0) == toks[k].(size := 0);
        assert Placed(toks[k], at) && SpanOk(toks[k], js);
      }
    }
  }

  /** Bumping a count below the end commutes with appending. */
  lemma BumpAppend(toks: seq<Token>, s: int, t: Token)
    requires -1 <= s < |toks|
    ensures Bump(toks + [t], s) == Bump(toks, s) + [t]
  {
    assert forall k :: 0 <= k < |toks| + 1 ==> Bump(toks + [t], s)[k] == (Bump(toks, s) + [t])[k];
  }

  /** Appending a counted string or primitive token keeps the invariant. */
  lemma AppendValid(p: Parser, t: Token, next: nat, js: string, numTokens: nat)
    requires Valid(p, js, numTokens) && p.pos < |js| && |p.toks| < numTokens
    requires Pos(t) == p.pos && t.size == 0 && t.end != -1 && !IsContainer(t)
    requires p.pos < next <= |js| && SpanOk(t, js) && t.end <= next
    ensures Valid(Parser(next, Bump(p.toks, p.toksuper) + [t], p.toksuper), js, numTokens)
  {
    AppendSizes(p.toks, p.toksuper, t, p.pos);
    AppendPlaced(p.toks, p.toksuper, t, p.pos, next, js);
    var r := Bump(p.toks, p.toksuper) + [t];
    LastOpenSkip(r, |p.toks|, |r|);
  }

  /** Opening a container keeps the invariant. */
  lemma OpenValid(p: Parser, kind: Kind, js: string, numTokens: nat)
    requires Valid(p, js, numTokens) && p.pos < |js|
    requires kind == Object || kind == Array
    requires js[p.pos] == (if kind == Object then '{' else '[')
    requires OpenContainer(p, kind, numTokens).Next?
    ensures Valid(Step(p, js, numTokens).p.(pos := Step(p, js, numTokens).p.pos + 1), js, numTokens)
  {
    assert Step(p, js, numTokens) == OpenContainer(p, kind, numTokens);
    var t := Token(kind, p.pos, -1, 0);
    AppendSizes(p.toks, p.toksuper, t, p.pos);
    AppendPlaced(p.toks, p.toksuper, t, p.pos, p.pos + 1, js);
  }

  /** Closing the innermost open container with the matching bracket keeps the invariant. */
  lemma CloseValid(p: Parser, kind: Kind, js: string, numTokens: nat)
    requires Valid(p, js, numTokens) && p.pos < |js|
    requires kind == Object || kind == Array
    requires js[p.pos] == (if kind == Object then '}' else ']')
    requires CloseContainer(p, kind).Next?
    ensures Valid(Step(p, js, numTokens).p.(pos := Step(p, js, numTokens).p.pos + 1), js, numTokens)
  {
    assert Step(p, js, numTokens) == CloseContainer(p, kind);
    var i := LastOpenBelow(p.toks, |p.toks|);
    var r := p.toks[i := p.toks[i].(end := p.pos + 1)];
    CloseTokens(p.toks, i, p.pos, js);
    assert CloseContainer(p, kind).p.(pos := p.pos + 1) == Parser(p.pos + 1, r, LastOpenBelow(r, i));
  }

  /** The token-level half of closing: counts, placement and spans survive, and the innermost
      open token afterwards is the innermost one below the closed token. */
  lemma CloseTokens(toks: seq<Token>, i: int, at: nat, js: string)
    requires i == LastOpenBelow(toks, |toks|) && i != -1
    requires Sizes(toks) && AllPlaced(toks, at) && AllSpans(toks, js)
    requires at < |js| && js[at] == (if toks[i].kind == Object then '}' else ']')
    ensures Sizes(toks[i := toks[i].(end := at + 1)])
    ensures AllPlaced(toks[i := toks[i].(end := at + 1)], at + 1)
    ensures AllSpans(toks[i := toks[i].(end := at + 1)], js)
    ensures LastOpenBelow(toks[i := toks[i].(end := at + 1)], |toks|)
      == LastOpenBelow(toks[i := toks[i].(end := at + 1)], i)
  {
    var r := toks[i := toks[i].(end := at + 1)];
    CloseSizes(toks, i, at);
    ClosePlaced(toks, i, at, js);
    forall k | i <= k < |r| ensures !IsOpen(r[k]) {
    }
    LastOpenSkip(r, i, |r|);
  }

  /** Closing open token `i` with the bracket at `at` keeps every token placed and spanned. */
  lemma ClosePlaced(toks: seq<Token>, i: nat, at: nat, js: string)
    requires i < |toks| && IsOpen(toks[i]) && AllPlaced(toks, at) && AllSpans(toks, js)
    requires at < |js| && js[at] == (if toks[i].kind == Object then '}' else ']')
    ensures AllPlaced(toks[i := toks[i].(end := at + 1)], at + 1)
    ensures AllSpans(toks[i := toks[i].(end := at + 1)], js)
  {
    var r := toks[i := toks[i].(end := at + 1)];
    assert Placed(toks[i], at) && SpanOk(toks[i], js);
    forall k | 0 <= k < |r| ensures Placed(r[k], at + 1) && SpanOk(r[k], js) {
      assert Placed(toks[k], at) && SpanOk(toks[k], js);
    }
  }

  /** Skipping closed tokens at the top does not change the innermost open one. */
  lemma {:induction false} LastOpenSkip(a: seq<Token>, i: nat, m: nat)
    requires i <= m <= |a| && forall k :: i <= k < m ==> !IsOpen(a[k])
    ensures LastOpenBelow(a, m) == LastOpenBelow(a, i)
    decreases m
  {
    if m > i {
      LastOpenSkip(a, i, m - 1);
    }
  }

  /** Reading a string keeps the invariant. */
  lemma StringValid(p: Parser, js: string, numTokens: nat)
    requires Valid(p, js, numTokens) && p.pos < |js| && js[p.pos] == '"'
    requires ParseString(p, js, numTokens).Next?
    ensures Valid(Step(p, js, numTokens).p.(pos := Step(p, js, numTokens).p.pos + 1), js, numTokens)
  {
    assert Step(p, js, numTokens) == Counted(ParseString(p, js, numTokens));
    var q := ParseString(p, js, numTokens).p;
    var t := Token(String, p.pos + 1, q.pos, 0);
    BumpAppend(p.toks, p.toksuper, t);
    AppendValid(p, t, q.pos + 1, js, numTokens);
    assert Counted(ParseString(p, js, numTokens)).p.(pos := q.pos + 1)
      == Parser(q.pos + 1, Bump(p.toks, p.toksuper) + [t], p.toksuper);
  }

  /** Reading a primitive keeps the invariant. */
  lemma PrimitiveValid(p: Parser, js: string, numTokens: nat)
    requires Valid(p, js, numTokens) && p.pos < |js| && !IsPrimEnd(js[p.pos])
    requires js[p.pos] != '{' && js[p.pos] != '[' && js[p.pos] != '"' && js[p.pos] != ':'
    requires ParsePrimitive(p, js, numTokens).Next?
    ensures Valid(Step(p, js, numTokens).p.(pos := Step(p, js, numTokens).p.pos + 1), js, numTokens)
  {
    assert Step(p, js, numTokens) == Counted(ParsePrimitive(p, js, numTokens));
    var q := ParsePrimitive(p, js, numTokens).p;
    var t := Token(Primitive, p.pos, q.pos + 1, 0);
    BumpAppend(p.toks, p.toksuper, t);
    AppendValid(p, t, q.pos + 1, js, numTokens);
    assert Counted(ParsePrimitive(p, js, numTokens)).p.(pos := q.pos + 1)
      == Parser(q.pos + 1, Bump(p.toks, p.toksuper) + [t], p.toksuper);
  }

  /** Passing over whitespace, a colon or a comma keeps the invariant. */
  lemma SkipValid(p: Parser, js: string, numTokens: nat)
    requires Valid(p, js, numTokens) && p.pos < |js|
    requires IsSpace(js[p.pos]) || js[p.pos] == ':' || js[p.pos] == ','
    ensures Valid(Step(p, js, numTokens).p.(pos := Step(p, js, numTokens).p.pos + 1), js, numTokens)
    ensures Step(p, js, numTokens) == Next(p)
  {
    forall k | 0 <= k < |p.toks| ensures Placed(p.toks[k], p.pos + 1) {
      assert Placed(p.toks[k], p.pos);
    }
  }

  /** One character keeps the invariant. */
  lemma StepValid(p: Parser, js: string, numTokens: nat)
    requires Valid(p, js, numTokens) && p.pos < |js|
    requires Step(p, js, numTokens).Next?
    ensures Valid(Step(p, js, numTokens).p.(pos := Step(p, js, numTokens).p.pos + 1), js, numTokens)
  {
    var c := js[p.pos];
    if c == '{' || c == '[' {
      var kind := if c == '{' then Object else Array;
      OpenValid(p, kind, js, numTokens);
    } else if c == '}' || c == ']' {
      var kind := if c == '}' then Object else Array;
      CloseValid(p, kind, js, numTokens);
    } else if c == '"' {
      StringValid(p, js, numTokens);
    } else if IsSpace(c) || c == ':' || c == ',' {
      SkipValid(p, js, numTokens);
    } else {
      PrimitiveValid(p, js, numTokens);
    }
  }

  /** A character that stops the parse is one of the documented errors. */
  lemma StepStops(p: Parser, js: string, numTokens: nat)
    requires Valid(p, js, numTokens) && p.pos < |js|
    requires Step(p, js, numTokens).Stop?
    ensures Stopped(p, js, numTokens, Step(p, js, numTokens).err)
  {
  }

  /** Why parsing stopped at `p.pos`: the array was full when a token started, a closer
      met no open container or one of the other type, or a string ran to the end of the
      text. */
  ghost predicate Stopped(p: Parser, js: string, numTokens: nat, err: Error)
  {
    && p.pos < |js|
    && match err
       case NoMem => |p.toks| == numTokens && !IsPrimEnd(js[p.pos]) && js[p.pos] != ':'
       case Inval =>
         (js[p.pos] == '}' || js[p.pos] == ']')
         && var i := LastOpenBelow(p.toks, |p.toks|);
            i == -1 || p.toks[i].kind != (if js[p.pos] == '}' then Object else Array)
       case Part => js[p.pos] == '"' && StringEnd(js, p.pos + 1).None?
  }

  // ---------------------------------------------------------------------------------------
  // The whole parse

  /** What a finished parse leaves: the invariant still holds; on success the count is the
      number of tokens written, the whole text was read and every container is closed; an
      error leaves the parser at the character that caused it, or at the end of the text
      with a container still open. */
  ghost predicate Ended(q: Parser, st: Status, js: string, numTokens: nat)
  {
    && Valid(q, js, numTokens)
    && (st.Count? ==>
         && st.n == |q.toks|
         && q.pos == |js|
         && forall k :: 0 <= k < |q.toks| ==> !IsOpen(q.toks[k]))
    && (st.Failed? ==>
         || Stopped(q, js, numTokens, st.err)
         || (st.err == Part && q.pos == |js| && LastOpenBelow(q.toks, |q.toks|) != -1))
  }

  /** What `jsmn_parse` guarantees from any valid state, in particular from `jsmn_init`: it
      never writes more tokens than the array holds, every token written has the span and
      size the text gives it, and it ends as `Ended` describes. */
  lemma {:induction false} RunValid(p: Parser, js: string, numTokens: nat)
    requires Valid(p, js, numTokens)
    ensures Ended(Run(p, js, numTokens).0, Run(p, js, numTokens).1, js, numTokens)
    decreases |js| - p.pos
  {
    if p.pos < |js| {
      var s := Step(p, js, numTokens);
      if s.Next? {
        StepValid(p, js, numTokens);
        RunValid(s.p.(pos := s.p.pos + 1), js, numTokens);
        assert Run(p, js, numTokens) == Run(s.p.(pos := s.p.pos + 1), js, numTokens);
      } else {
        RunStops(p, js, numTokens);
      }
    }
  }

  /** A character that stops the parse ends it as `Ended` describes. */
  lemma RunStops(p: Parser, js: string, numTokens: nat)
    requires Valid(p, js, numTokens) && p.pos < |js| && Step(p, js, numTokens).Stop?
    ensures Ended(Run(p, js, numTokens).0, Run(p, js, numTokens).1, js, numTokens)
  {
    StepStops(p, js, numTokens);
    assert Run(p, js, numTokens) == (p, Failed(Step(p, js, numTokens).err));
  }

  /** `jsmn_init` followed by `jsmn_parse` over the whole text. */
  lemma ParseValid(js: string, numTokens: nat)
    ensures Ended(Run(Init(), js, numTokens).0, Run(Init(), js, numTokens).1, js, numTokens)
  {
    RunValid(Init(), js, numTokens);
  }

  // ---------------------------------------------------------------------------------------
  // A worked input

  /** The parser states while reading `{"a":1}`, each at the head of the loop. */
  function Reading(n: nat): Parser
  {
    var o := Token(Object, 0, -1, 0);
    var str := Token(String, 2, 3, 0);
    var prim := Token(Primitive, 5, 6, 0);
    if n == 0 then Init()
    else if n == 1 then Parser(1, [o], 0)
    else if n == 2 then Parser(4, [o.(size := 1), str], 0)
    else if n == 3 then Parser(5, [o.(size := 1), str], 0)
    else if n == 4 then Parser(6, [o.(size := 2), str, prim], 0)
    else Parser(7, [Token(Object, 0, 7, 2), str, prim], -1)
  }

  /** Each character of `{"a":1}` takes the parser to the next of those states. */
  lemma ReadingStep(n: nat)
    requires n < 5
    ensures Reading(n).pos < 7 && -1 <= Reading(n).toksuper < |Reading(n).toks|
    ensures Step(Reading(n), "{\"a\":1}", 3) == Next(Reading(n + 1).(pos := Reading(n + 1).pos - 1))
  {
    if n == 0 {
      ReadOpen();
    } else if n == 1 {
      ReadKey();
    } else if n == 2 {
      ReadColon();
    } else if n == 3 {
      ReadValue();
    } else {
      ReadClose();
    }
  }

  lemma ReadOpen()
    ensures Step(Reading(0), "{\"a\":1}", 3) == Next(Parser(0, [Token(Object, 0, -1, 0)], 0))
  {
    assert "{\"a\":1}"[0] == '{';
  }

  lemma ReadKey()
    ensures Step(Reading(1), "{\"a\":1}", 3)
      == Next(Parser(3, [Token(Object, 0, -1, 1), Token(String, 2, 3, 0)], 0))
  {
    var js := "{\"a\":1}";
    assert js[1] == '"' && js[2] == 'a' && js[3] == '"';
    assert StringEnd(js, 3) == Some(3);
    assert StringEnd(js, 2) == Some(3);
  }

  lemma ReadColon()
    ensures Step(Reading(2), "{\"a\":1}", 3) == Next(Reading(2).(pos := 4))
  {
    assert "{\"a\":1}"[4] == ':';
  }

  lemma ReadValue()
    ensures Step(Reading(3), "{\"a\":1}", 3)
      == Next(Parser(5, [Token(Object, 0, -1, 2), Token(String, 2, 3, 0), Token(Primitive, 5, 6, 0)], 0))
  {
    var js := "{\"a\":1}";
    assert js[5] == '1' && js[6] == '}';
    assert PrimEnd(js, 6) == 6;
    assert PrimEnd(js, 5) == 6;
  }

  lemma ReadClose()
    ensures Step(Reading(4), "{\"a\":1}", 3)
      == Next(Parser(6, [Token(Object, 0, 7, 2), Token(String, 2, 3, 0), Token(Primitive, 5, 6, 0)], -1))
  {
    var js := "{\"a\":1}";
    var toks := Reading(4).toks;
    assert js[6] == '}';
    assert LastOpenBelow(toks, 3) == 0;
    var r := toks[0 := toks[0].(end := 7)];
    assert LastOpenBelow(r, 0) == -1;
  }

  /** `{"a":1}` gives an object token whose size is 2: its key and its value both count. */
  lemma OneMemberObject()
    ensures Run(Init(), "{\"a\":1}", 3)
      == (Parser(7, [Token(Object, 0, 7, 2), Token(String, 2, 3, 0), Token(Primitive, 5, 6, 0)], -1), Count(3))
  {
    var js := "{\"a\":1}";
    ReadingStep(0);
    ReadingStep(1);
    ReadingStep(2);
    ReadingStep(3);
    ReadingStep(4);
    assert Run(Reading(4), js, 3) == Run(Reading(5), js, 3);
    assert Run(Reading(3), js, 3) == Run(Reading(4), js, 3);
    assert Run(Reading(2), js, 3) == Run(Reading(3), js, 3);
    assert Run(Reading(1), js, 3) == Run(Reading(2), js, 3);
    assert Run(Reading(0), js, 3) == Run(Reading(1), js, 3);
  }
}

=== FILE: slab.dfy ===
/** The generational slot arena (`nty_slab_t`).  A slab owns `capacity` slots.  Each slot
    holds a record, a free-list link, a generation counter and an occupied flag.  Freed slots
    are reused last-in-first-out; after that, the never-used slots are handed out in index
    order.  An id is accepted only when its index is in range, its slot is occupied and its
    generation matches the slot's, so an id of a freed slot is rejected. */
module Slab {
  import opened Common
  import opened Ids

  /** `NTY_SLAB_NO_FREE`: the end of the free list. */
  const NoFree: U32 := 0xFFFF_FFFF

  datatype Slab<T> = Slab(
    data: seq<T>,
    nextFree: seq<U32>,
    generation: seq<U32>,
    occupied: seq<bool>,
    itemSize: nat,
    capacity: U32,
    nextUnused: U32,
    freeHead: U32,
    count: U32)

  /** The array lengths and link ranges every slab made by `Init` keeps. */
  predicate Shaped<T>(s: Slab<T>)
  {
    && |s.data| == s.capacity
    && |s.nextFree| == s.capacity
    && |s.generation| == s.capacity
    && |s.occupied| == s.capacity
    && s.nextUnused <= s.capacity
    && (s.freeHead == NoFree || s.freeHead < s.capacity)
    && forall i :: 0 <= i < |s.nextFree| ==> s.nextFree[i] == NoFree || s.nextFree[i] < s.capacity
  }

  /** The generation written on allocation: 1 for a slot never used, otherwise one more,
      with the wrap-around of a 32-bit counter. */
  function NextGeneration(g: U32): (r: U32)
    ensures r != g
    ensures r != 0 || g == 0xFFFF_FFFF
  {
    if g == 0 then 1 else (g + 1) % 0x1_0000_0000
  }

  /** `nty_slab_init`: `calloc`ed arrays, so every record is `zero`, every generation 0,
      every slot free and the free list empty. */
  function Init<T>(itemSize: nat, capacity: U32, zero: T): (r: Option<Slab<T>>)
    ensures r.None? <==> itemSize == 0 || capacity == 0
    ensures r.Some? ==> Valid(r.value) && r.value.count == 0 && r.value.capacity == capacity
    ensures r.Some? ==> forall id :: !Exists(r.value, id)
  {
    if itemSize == 0 || capacity == 0 then None
    else
      var s := Slab(seq(capacity, _ => zero), seq(capacity, _ => 0), seq(capacity, _ => 0),
                    seq(capacity, _ => false), itemSize, capacity, 0, NoFree, 0);
      CountTrueNone(capacity);
      assert ValidWith(s, []);
      Some(s)
  }

  /** `nty_slab_exists`: index in range, slot occupied, generation equal.  The length tests
      only matter for a slab not made by `Init`; on a shaped slab they always hold. */
  predicate Exists<T>(s: Slab<T>, id: Id)
  {
    var i := IndexOf(id);
    && i != NoIndex
    && i < s.capacity
    && i < |s.occupied| && i < |s.generation| && i < |s.data|
    && s.occupied[i]
    && s.generation[i] == GenerationOf(id)
  }

  /** Two live ids naming the same slot are the same id, and no live id is 0. */
  lemma ExistsSameIndex<T>(s: Slab<T>, a: Id, b: Id)
    requires Exists(s, a) && Exists(s, b) && IndexOf(a) == IndexOf(b)
    ensures a == b && a != 0
  {
    EncodeDecode(a);
    EncodeDecode(b);
  }

  /** `nty_slab_get` / `nty_slab_get_const`: the record of a live id, by value. */
  function Get<T>(s: Slab<T>, id: Id): (r: Option<T>)
    ensures r.Some? <==> Exists(s, id)
    ensures r.Some? ==> IndexOf(id) < |s.data| && r.value == s.data[IndexOf(id)]
  {
    if Exists(s, id) then Some(s.data[IndexOf(id)]) else None
  }

  /** A write through the record address `nty_slab_get` returned. */
  function Put<T>(s: Slab<T>, id: Id, item: T): (r: Slab<T>)
    requires Shaped(s) && Exists(s, id)
    ensures Shaped(r)
    ensures Get(r, id) == Some(item)
    ensures forall x :: Exists(r, x) <==> Exists(s, x)
    ensures forall x :: IndexOf(x) != IndexOf(id) ==> Get(r, x) == Get(s, x)
  {
    s.(data := s.data[IndexOf(id) := item])
  }

  /** `nty_slab_next_index`: pop the free list, else bump `next_unused`, else `NoFree`. */
  function NextIndex<T>(s: Slab<T>): (r: (Slab<T>, U32))
    requires Shaped(s)
    ensures r.1 == NoFree <==> s.freeHead == NoFree && s.nextUnused == s.capacity
    ensures r.1 != NoFree ==> r.1 < s.capacity
  {
    if s.freeHead != NoFree then
      (s.(freeHead := s.nextFree[s.freeHead]), s.freeHead)
    else if s.nextUnused < s.capacity then
      (s.(nextUnused := s.nextUnused + 1), s.nextUnused)
    else
      (s, NoFree)
  }

  /** The slab after taking slot `i` for `item` with generation `gen`, apart from the free-list
      fields (the body of `nty_slab_alloc` after `nty_slab_next_index`). */
  function Occupy<T>(s: Slab<T>, i: nat, gen: U32, item: T): Slab<T>
    requires i < |s.generation| && i < |s.occupied| && i < |s.data|
  {
    s.(generation := s.generation[i := gen], occupied := s.occupied[i := true],
       count := (s.count + 1) % 0x1_0000_0000, data := s.data[i := item])
  }

  /** `nty_slab_alloc`: take a slot, bump its generation, mark it occupied, store the record
      and issue the id; 0 with no change when no slot is left. */
  function Alloc<T>(s: Slab<T>, item: T): (r: (Slab<T>, Id))
    requires Shaped(s)
    ensures Shaped(r.0)
    ensures r.1 == 0 <==> s.freeHead == NoFree && s.nextUnused == s.capacity
    ensures r.1 == 0 ==> r.0 == s
    ensures r.1 != 0 ==> IndexOf(r.1) == (if s.freeHead != NoFree then s.freeHead else s.nextUnused)
    ensures r.1 != 0 ==> GenerationOf(r.1) == NextGeneration(s.generation[IndexOf(r.1)])
    ensures r.1 != 0 ==> Exists(r.0, r.1) && Get(r.0, r.1) == Some(item)
    ensures r.1 != 0 ==> r.0.count == (s.count + 1) % 0x1_0000_0000
  {
    var (s1, index) := NextIndex(s);
    if index == NoFree then (s, 0)
    else
      var gen := NextGeneration(s1.generation[index]);
      (Occupy(s1, index, gen, item), MakeId(gen, index))
  }

  /** `nty_slab_free`: a live id clears its slot's occupied flag, pushes the slot on the free
      list and decrements `count` (a 32-bit decrement); any other id changes nothing. */
  function Free<T>(s: Slab<T>, id: Id): (r: (Slab<T>, bool))
    requires Shaped(s)
    ensures Shaped(r.0)
    ensures r.1 <==> Exists(s, id)
    ensures !r.1 ==> r.0 == s
    ensures r.1 ==> !Exists(r.0, id) && r.0.freeHead == IndexOf(id)
    ensures r.1 ==> r.0.count == (s.count + 0xFFFF_FFFF) % 0x1_0000_0000
    ensures r.1 ==> CountTrue(r.0.occupied) + 1 == CountTrue(s.occupied)
    ensures r.1 ==> forall x :: x != id ==> (Exists(r.0, x) <==> Exists(s, x))
    ensures r.1 ==> forall x :: x != id ==> Get(r.0, x) == Get(s, x)
  {
    if !Exists(s, id) then (s, false)
    else
      var i := IndexOf(id);
      var s' := s.(occupied := s.occupied[i := false],
                   nextFree := s.nextFree[i := s.freeHead],
                   freeHead := i,
                   count := (s.count + 0xFFFF_FFFF) % 0x1_0000_0000);
      CountTrueUpdate(s.occupied, i, false);
      forall x | x != id && Exists(s, x)
        ensures IndexOf(x) != i
      {
        if IndexOf(x) == i {
          EncodeDecode(x);
          EncodeDecode(id);
        }
      }
      (s', true)
  }

  // ---------------------------------------------------------------------------------------
  // The allocation invariant

  /** `L` is the free list: it starts at `head`, follows `nextFree` and ends at `NoFree`. */
  ghost predicate Chain(nextFree: seq<U32>, head: U32, L: seq<U32>)
  {
    && (|L| == 0 ==> head == NoFree)
    && (|L| > 0 ==> head == L[0] && L[|L| - 1] < |nextFree| && nextFree[L[|L| - 1]] == NoFree)
    && forall k :: 0 <= k < |L| - 1 ==> L[k] < |nextFree| && nextFree[L[k]] == L[k + 1]
  }

  /** The slab invariant with its free list made explicit: the free list holds each unoccupied
      slot below `next_unused` exactly once, slots from `next_unused` on were never used, and
      `count` is the number of occupied slots. */
  ghost predicate ValidWith<T>(s: Slab<T>, L: seq<U32>)
  {
    && Shaped(s)
    && Chain(s.nextFree, s.freeHead, L)
    && Distinct(L)
    && (forall k :: 0 <= k < |L| ==> L[k] < s.nextUnused && !s.occupied[L[k]])
    && (forall i :: 0 <= i < s.nextUnused && !s.occupied[i] ==> i in L)
    && (forall i :: s.nextUnused <= i < s.capacity ==> !s.occupied[i] && s.generation[i] == 0)
    && s.count == CountTrue(s.occupied)
  }

  ghost predicate Valid<T>(s: Slab<T>)
  {
    exists L :: ValidWith(s, L)
  }

  /** The invariant does not look at the records, so rewriting records keeps it. */
  lemma DataKeepsValid<T>(s: Slab<T>, s': Slab<T>, L: seq<U32>)
    requires ValidWith(s, L) && Shaped(s') && s' == s.(data := s'.data)
    ensures ValidWith(s', L)
  {
  }

  /** On a valid slab `count` never exceeds `capacity`. */
  lemma CountBound<T>(s: Slab<T>)
    requires Valid(s)
    ensures s.count <= s.capacity
  {
  }

  /** Popping the head of a free list leaves a free list starting at the old head's link. */
  lemma {:induction false} ChainPop(nextFree: seq<U32>, L: seq<U32>)
    requires |L| > 0 && Chain(nextFree, L[0], L)
    ensures L[0] < |nextFree| && Chain(nextFree, nextFree[L[0]], L[1..])
  {
    if |L| > 1 {
      assert nextFree[L[0]] == L[1];
    }
  }

  /** Pushing a slot not on the list in front of it, with the slot's link set to the old head. */
  lemma {:induction false} ChainPush(nextFree: seq<U32>, head: U32, L: seq<U32>, i: U32)
    requires Chain(nextFree, head, L) && i !in L && i < |nextFree|
    ensures Chain(nextFree[i := head], i, [i] + L)
  {
    var L' := [i] + L;
    var nf := nextFree[i := head];
    forall k | 0 <= k < |L'| - 1
      ensures L'[k] < |nf| && nf[L'[k]] == L'[k + 1]
    {
      if k > 0 { assert L'[k] == L[k - 1] && L[k - 1] != i; }
    }
    if |L| > 0 {
      assert L'[|L'| - 1] == L[|L| - 1] && L[|L| - 1] != i;
    }
  }

  lemma {:induction false} DistinctCons<T>(x: T, L: seq<T>)
    requires Distinct(L) && x !in L
    ensures Distinct([x] + L)
  {
    var L' := [x] + L;
    forall a, b | 0 <= a < b < |L'| ensures L'[a] != L'[b] {
      assert L'[b] == L[b - 1];
      if a > 0 { assert L'[a] == L[a - 1]; }
    }
  }

  lemma {:induction false} DistinctTail<T>(L: seq<T>)
    requires Distinct(L) && |L| > 0
    ensures Distinct(L[1..]) && L[0] !in L[1..]
  {
    forall a, b | 0 <= a < b < |L| - 1 ensures L[1..][a] != L[1..][b] {
      assert L[1..][a] == L[a + 1] && L[1..][b] == L[b + 1];
    }
    forall k | 0 <= k < |L| - 1 ensures L[1..][k] != L[0] {
      assert L[1..][k] == L[k + 1];
    }
  }

  /** Occupying a slot that was free counts it once more, without wrap-around. */
  lemma OccupyCount<T>(s: Slab<T>, i: nat, gen: U32, item: T)
    requires Shaped(s) && s.count == CountTrue(s.occupied) && i < s.capacity && !s.occupied[i]
    ensures Occupy(s, i, gen, item).count == s.count + 1
    ensures Occupy(s, i, gen, item).count == CountTrue(Occupy(s, i, gen, item).occupied)
  {
    CountTrueUpdate(s.occupied, i, true);
  }

  /** Allocation from the head of the free list. */
  lemma AllocPopValid<T>(s: Slab<T>, L: seq<U32>, gen: U32, item: T)
    requires ValidWith(s, L) && |L| > 0
    ensures L[0] < s.capacity && !s.occupied[L[0]]
    ensures ValidWith(Occupy(s.(freeHead := s.nextFree[L[0]]), L[0], gen, item), L[1..])
  {
    var i := L[0];
    var s1 := s.(freeHead := s.nextFree[i]);
    ChainPop(s.nextFree, L);
    DistinctTail(L);
    OccupyCount(s1, i, gen, item);
    var s' := Occupy(s1, i, gen, item);
    var L' := L[1..];
    forall k | 0 <= k < |L'|
      ensures L'[k] < s'.nextUnused && !s'.occupied[L'[k]]
    {
      assert L'[k] == L[k + 1];
    }
    forall j | 0 <= j < s'.nextUnused && !s'.occupied[j]
      ensures j in L'
    {
      assert j in L && j != i;
      var k :| 0 <= k < |L| && L[k] == j;
      assert L'[k - 1] == j;
    }
  }

  /** Allocation of the first never-used slot when the free list is empty. */
  lemma AllocBumpValid<T>(s: Slab<T>, gen: U32, item: T)
    requires ValidWith(s, []) && s.nextUnused < s.capacity
    ensures !s.occupied[s.nextUnused]
    ensures ValidWith(Occupy(s.(nextUnused := s.nextUnused + 1), s.nextUnused, gen, item), [])
  {
    var s1 := s.(nextUnused := s.nextUnused + 1);
    OccupyCount(s1, s.nextUnused, gen, item);
  }

  /** Allocation keeps the invariant: the slot comes off the head of the free list, or is the
      first never-used one, and it was free before. */
  lemma AllocKeepsValid<T>(s: Slab<T>, item: T, L: seq<U32>)
    requires ValidWith(s, L)
    ensures Alloc(s, item).1 != 0 ==> ValidWith(Alloc(s, item).0, if |L| > 0 then L[1..] else L)
    ensures Alloc(s, item).1 != 0 ==>
      !s.occupied[IndexOf(Alloc(s, item).1)] && Alloc(s, item).0.count == s.count + 1
  {
    if |L| > 0 {
      AllocPop(s, item, L);
    } else if s.nextUnused < s.capacity {
      AllocBump(s, item);
    }
  }

  lemma AllocPop<T>(s: Slab<T>, item: T, L: seq<U32>)
    requires ValidWith(s, L) && |L| > 0
    ensures Alloc(s, item).1 != 0 && ValidWith(Alloc(s, item).0, L[1..])
    ensures !s.occupied[IndexOf(Alloc(s, item).1)] && Alloc(s, item).0.count == s.count + 1
  {
    var i := L[0];
    var gen := NextGeneration(s.generation[i]);
    AllocPopValid(s, L, gen, item);
    assert IndexOf(Alloc(s, item).1) == i;
    assert Alloc(s, item).0 == Occupy(s.(freeHead := s.nextFree[i]), i, gen, item);
  }

  lemma AllocBump<T>(s: Slab<T>, item: T)
    requires ValidWith(s, []) && s.nextUnused < s.capacity
    ensures Alloc(s, item).1 != 0 && ValidWith(Alloc(s, item).0, [])
    ensures !s.occupied[IndexOf(Alloc(s, item).1)] && Alloc(s, item).0.count == s.count + 1
  {
    var i := s.nextUnused;
    var gen := NextGeneration(s.generation[i]);
    AllocBumpValid(s, gen, item);
    assert IndexOf(Alloc(s, item).1) == i;
    assert Alloc(s, item).0 == Occupy(s.(nextUnused := i + 1), i, gen, item);
  }

  /** When the slot handed out was free, allocation makes exactly one new id live and leaves
      every other record alone. */
  lemma AllocFrame<T>(s: Slab<T>, item: T)
    requires Shaped(s)
    requires var id := Alloc(s, item).1; id != 0 ==> !s.occupied[IndexOf(id)]
    ensures var (s', id) := Alloc(s, item);
      && (id != 0 ==> !Exists(s, id))
      && (id != 0 ==> forall x :: Exists(s', x) <==> Exists(s, x) || x == id)
      && (id != 0 ==> forall x :: x != id ==> Get(s', x) == Get(s, x))
  {
    var (s', id) := Alloc(s, item);
    if id != 0 {
      var i := IndexOf(id);
      forall x | Exists(s', x) && x != id
        ensures Exists(s, x)
      {
        if IndexOf(x) == i {
          EncodeDecode(x);
          EncodeDecode(id);
        }
      }
    }
  }

  /** Allocation fails exactly when every slot is occupied. */
  lemma AllocFailsOnlyWhenFull<T>(s: Slab<T>, item: T)
    requires Valid(s)
    ensures Alloc(s, item).1 == 0 <==> s.count == s.capacity
  {
    var L :| ValidWith(s, L);
    CountTrueFull(s.occupied);
    if s.freeHead == NoFree && s.nextUnused == s.capacity {
      assert |L| == 0;
      forall i | 0 <= i < |s.occupied| ensures s.occupied[i] {
      }
    } else if s.freeHead != NoFree {
      assert !s.occupied[L[0]];
    } else {
      assert !s.occupied[s.nextUnused];
    }
  }

  /** The slab after `nty_slab_free` releases slot `i`. */
  function Release<T>(s: Slab<T>, i: nat): Slab<T>
    requires i < |s.occupied| && i < |s.nextFree| && i < s.capacity
  {
    s.(occupied := s.occupied[i := false], nextFree := s.nextFree[i := s.freeHead],
       freeHead := i, count := (s.count + 0xFFFF_FFFF) % 0x1_0000_0000)
  }

  lemma ReleaseValid<T>(s: Slab<T>, L: seq<U32>, i: U32)
    requires ValidWith(s, L) && i < s.capacity && s.occupied[i]
    ensures ValidWith(Release(s, i), [i] + L)
    ensures Release(s, i).count + 1 == s.count
  {
    var s' := Release(s, i);
    var L' := [i] + L;
    assert i !in L;
    assert i < s.nextUnused;
    CountTrueUpdate(s.occupied, i, false);
    ChainPush(s.nextFree, s.freeHead, L, i);
    DistinctCons(i, L);
    forall k | 0 <= k < |L'|
      ensures L'[k] < s'.nextUnused && !s'.occupied[L'[k]]
    {
      if k > 0 { assert L'[k] == L[k - 1]; }
    }
    forall j | 0 <= j < s'.nextUnused && !s'.occupied[j]
      ensures j in L'
    {
      if j != i { assert j in L; }
    }
  }

  /** Freeing keeps the invariant: the slot is pushed on the head of the free list. */
  lemma FreeKeepsValid<T>(s: Slab<T>, id: Id, L: seq<U32>)
    requires ValidWith(s, L)
    ensures var (s', ok) := Free(s, id);
      && (ok ==> ValidWith(s', [IndexOf(id)] + L))
      && (ok ==> s'.count + 1 == s.count)
  {
    var (s', ok) := Free(s, id);
    if ok {
      ReleaseValid(s, L, IndexOf(id));
      assert s' == Release(s, IndexOf(id));
    }
  }

  lemma FreeKeepsValidAny<T>(s: Slab<T>, id: Id)
    requires Valid(s)
    ensures Valid(Free(s, id).0)
  {
    var L :| ValidWith(s, L);
    FreeKeepsValid(s, id, L);
  }

  lemma AllocKeepsValidAny<T>(s: Slab<T>, item: T)
    requires Valid(s)
    ensures Valid(Alloc(s, item).0)
    ensures Alloc(s, item).1 != 0 ==> !Exists(s, Alloc(s, item).1)
    ensures Alloc(s, item).1 != 0 ==> Alloc(s, item).0.count == s.count + 1
    ensures Alloc(s, item).1 != 0 ==>
      forall x :: Exists(Alloc(s, item).0, x) <==> Exists(s, x) || x == Alloc(s, item).1
  {
    var L :| ValidWith(s, L);
    AllocKeepsValid(s, item, L);
    AllocFrame(s, item);
  }

  /** Freeing the same id twice: the second call is rejected. */
  lemma DoubleFreeRejected<T>(s: Slab<T>, id: Id)
    requires Shaped(s)
    ensures !Free(Free(s, id).0, id).1
  {
  }

  /** Stale-handle rejection: once a slot is freed and handed out again, the old id no longer
      exists, cannot be freed, and differs from the id just issued. */
  lemma StaleIdRejected<T>(s: Slab<T>, id: Id, item: T)
    requires Valid(s) && Exists(s, id)
    ensures var s1 := Free(s, id).0;
      var (s2, id2) := Alloc(s1, item);
      && !Exists(s2, id)
      && id2 != id
      && !Free(s2, id).1
  {
    var s1 := Free(s, id).0;
    FreeKeepsValidAny(s, id);
    var (s2, id2) := Alloc(s1, item);
    if id2 != 0 {
      AllocKeepsValidAny(s1, item);
      if IndexOf(id2) == IndexOf(id) {
        assert s1.generation[IndexOf(id)] == GenerationOf(id);
        assert GenerationOf(id2) != GenerationOf(id);
      }
    }
  }
}

=== FILE: vector.dfy ===
/** The vector index (`nty_vector_index_t`): a fixed table of `capacity` slots, each holding
    a node id (0 for a free slot) and a vector of `dimension` components, with an exact
    k-nearest-neighbour query.

    Components are integers and the distance is the exact squared Euclidean distance, so the
    query's ordering and length contract can be stated without floating point. */
module Vector {
  import opened Common
  import opened Ids

  /** `SIZE_MAX + 1`: the wrap-around of a `size_t` counter. */
  const SizeLimit: nat := 0x1_0000_0000_0000_0000

  datatype Index = Index(
    dimension: nat,
    capacity: nat,
    count: nat,
    ids: seq<Id>,
    data: seq<seq<int>>)

  /** The array lengths the index is created with and keeps. */
  predicate Shaped(ix: Index)
  {
    && |ix.ids| == ix.capacity
    && |ix.data| == ix.capacity
    && forall i :: 0 <= i < |ix.data| ==> |ix.data[i]| == ix.dimension
  }

  /** The number of occupied slots among `ids`. */
  function Used(ids: seq<Id>): (n: nat)
    ensures n <= |ids|
  {
    if |ids| == 0 then 0 else Used(ids[..|ids| - 1]) + (if ids[|ids| - 1] != 0 then 1 else 0)
  }

  /** No nonzero id sits in two slots. */
  ghost predicate UniqueIds(ids: seq<Id>)
  {
    forall i, j :: 0 <= i < |ids| && 0 <= j < |ids| && i != j && ids[i] != 0 ==> ids[i] != ids[j]
  }

  /** The index invariant: ids are unique and `count` is the number of occupied slots. */
  ghost predicate Valid(ix: Index)
  {
    && Shaped(ix)
    && 0 < ix.capacity < SizeLimit
    && UniqueIds(ix.ids)
    && ix.count == Used(ix.ids)
  }

  /** `nty_vector_index_create`: both sizes must be nonzero; every slot starts free and zeroed. */
  function Create(dimension: U64, capacity: U64): (r: Option<Index>)
    ensures r.None? <==> dimension == 0 || capacity == 0
  {
    if dimension == 0 || capacity == 0 then None
    else Some(Index(dimension, capacity, 0, seq(capacity, _ => 0), seq(capacity, _ => Zeros(dimension))))
  }

  function Zeros(n: nat): (v: seq<int>)
    ensures |v| == n && forall i :: 0 <= i < n ==> v[i] == 0
  {
    seq(n, _ => 0)
  }

  /** `nty_vector_index_find`: the first slot holding `id`, or `|ids|` when none does.  With
      `id == 0` this is the first free slot, which is the search `nty_vector_index_set` does. */
  function Find(ids: seq<Id>, id: Id): (r: nat)
    ensures r <= |ids|
    ensures r < |ids| ==> ids[r] == id
    ensures forall j :: 0 <= j < r ==> ids[j] != id
  {
    FindFrom(ids, id, 0)
  }

  function FindFrom(ids: seq<Id>, id: Id, i: nat): (r: nat)
    requires i <= |ids|
    ensures i <= r <= |ids|
    ensures r < |ids| ==> ids[r] == id
    ensures forall j :: i <= j < r ==> ids[j] != id
    decreases |ids| - i
  {
    if i == |ids| then i
    else if ids[i] == id then i
    else FindFrom(ids, id, i + 1)
  }

  /** `nty_vector_index_set`: id 0 is rejected; a stored id has its vector overwritten in
      place; a new id takes the first free slot and bumps `count`; with no free slot nothing
      changes and the call fails. */
  function Set(ix: Index, id: Id, v: seq<int>): (r: (Index, bool))
    requires Shaped(ix) && |v| == ix.dimension
    ensures Shaped(r.0)
    ensures !r.1 ==> r.0 == ix
  {
    if id == 0 then (ix, false)
    else
      var slot := Find(ix.ids, id);
      if slot < |ix.ids| then (ix.(data := ix.data[slot := v]), true)
      else
        var free := Find(ix.ids, 0);
        if free == |ix.ids| then (ix, false)
        else (ix.(ids := ix.ids[free := id], count := (ix.count + 1) % SizeLimit,
                  data := ix.data[free := v]), true)
  }

  /** `nty_vector_index_get`: the vector stored for a nonzero id. */
  function Get(ix: Index, id: Id): (r: Option<seq<int>>)
    requires Shaped(ix)
    ensures r.Some? <==> id != 0 && id in ix.ids
    ensures r.Some? ==> |r.value| == ix.dimension
  {
    if id == 0 then None
    else
      var slot := Find(ix.ids, id);
      if slot == |ix.ids| then None else Some(ix.data[slot])
  }

  /** `nty_vector_index_remove`: a stored nonzero id frees its slot, zeroes its vector and
      decrements `count` (a `size_t` decrement). */
  function Remove(ix: Index, id: Id): (r: (Index, bool))
    requires Shaped(ix)
    ensures Shaped(r.0)
    ensures !r.1 ==> r.0 == ix
  {
    if id == 0 then (ix, false)
    else
      var slot := Find(ix.ids, id);
      if slot == |ix.ids| then (ix, false)
      else (ix.(ids := ix.ids[slot := 0], count := (ix.count + SizeLimit - 1) % SizeLimit,
                data := ix.data[slot := Zeros(ix.dimension)]), true)
  }

  // ---------------------------------------------------------------------------------------
  // Slot bookkeeping

  /** `Used` after one slot is rewritten. */
  lemma {:induction false} UsedUpdate(ids: seq<Id>, i: nat, x: Id)
    requires i < |ids|
    ensures Used(ids[i := x]) + (if ids[i] != 0 then 1 else 0)
         == Used(ids) + (if x != 0 then 1 else 0)
    decreases |ids|
  {
    var n := |ids| - 1;
    if i < n {
      assert ids[i := x][..n] == ids[..n][i := x];
      UsedUpdate(ids[..n], i, x);
    } else {
      assert ids[i := x][..n] == ids[..n];
    }
  }

  /** With every slot taken there is no free slot. */
  lemma {:induction false} UsedFull(ids: seq<Id>)
    requires Find(ids, 0) == |ids|
    ensures Used(ids) == |ids|
    decreases |ids|
  {
    if |ids| > 0 {
      var n := |ids| - 1;
      assert Find(ids[..n], 0) == n by {
        assert forall j :: 0 <= j < n ==> ids[..n][j] == ids[j];
      }
      UsedFull(ids[..n]);
    }
  }

  /** Where a nonzero id is stored: `Find` reports its one slot. */
  lemma FindStored(ids: seq<Id>, id: Id, i: nat)
    requires UniqueIds(ids) && i < |ids| && ids[i] == id && id != 0
    ensures Find(ids, id) == i
  {
  }

  /** A new id takes the lowest free slot: every slot before it stays taken, and only that
      slot's id and vector change. */
  lemma SetLowestFree(ix: Index, id: Id, v: seq<int>)
    requires Shaped(ix) && |v| == ix.dimension
    requires id !in ix.ids && Set(ix, id, v).1
    ensures exists i :: (0 <= i < |ix.ids| && ix.ids[i] == 0
      && (forall j :: 0 <= j < i ==> ix.ids[j] != 0)
      && Set(ix, id, v).0.ids == ix.ids[i := id]
      && Set(ix, id, v).0.data == ix.data[i := v])
  {
    var i := Find(ix.ids, 0);
    assert Set(ix, id, v).0.ids == ix.ids[i := id];
  }

  /** Setting a vector keeps the invariant.  The call fails exactly for id 0 and for a new id
      when every slot is taken; on success the id reads back the new vector, every other id
      reads back what it did, and `count` grows by one exactly when the id was new. */
  lemma SetValid(ix: Index, id: Id, v: seq<int>)
    requires Valid(ix) && |v| == ix.dimension
    ensures Valid(Set(ix, id, v).0)
    ensures Set(ix, id, v).1 <==> id != 0 && (Get(ix, id).Some? || ix.count < ix.capacity)
    ensures Set(ix, id, v).1 ==> Get(Set(ix, id, v).0, id) == Some(v)
    ensures forall x :: x != id ==> Get(Set(ix, id, v).0, x) == Get(ix, x)
    ensures Set(ix, id, v).1 ==>
      Set(ix, id, v).0.count == ix.count + (if Get(ix, id).Some? then 0 else 1)
  {
    var r := Set(ix, id, v).0;
    if id != 0 {
      var slot := Find(ix.ids, id);
      if slot == |ix.ids| {
        var free := Find(ix.ids, 0);
        if free == |ix.ids| {
          UsedFull(ix.ids);
        } else {
          UsedUpdate(ix.ids, free, id);
          forall x | x != id ensures Get(r, x) == Get(ix, x) {
            SetFrame(ix, free, id, v, x);
          }
          FindStored(r.ids, id, free);
        }
      } else {
        forall x | x != id ensures Get(r, x) == Get(ix, x) {
          if x != 0 && Find(ix.ids, x) < |ix.ids| {
            FindStored(r.ids, x, Find(ix.ids, x));
          }
        }
      }
    }
  }

  /** Another id still reads back its vector after a new id takes a free slot. */
  lemma SetFrame(ix: Index, free: nat, id: Id, v: seq<int>, x: Id)
    requires Valid(ix) && free < |ix.ids| && ix.ids[free] == 0 && id != 0 && id !in ix.ids
    requires |v| == ix.dimension && x != id
    ensures var r := ix.(ids := ix.ids[free := id], count := (ix.count + 1) % SizeLimit,
                         data := ix.data[free := v]);
      Shaped(r) && Get(r, x) == Get(ix, x)
  {
    var r := ix.(ids := ix.ids[free := id], count := (ix.count + 1) % SizeLimit,
                 data := ix.data[free := v]);
    if x != 0 && Find(ix.ids, x) < |ix.ids| {
      FindStored(r.ids, x, Find(ix.ids, x));
    } else if x != 0 {
      assert forall j :: 0 <= j < |r.ids| ==> r.ids[j] != x;
    }
  }

  /** Removing keeps the invariant.  The call succeeds exactly for a stored nonzero id; then
      the id reads back nothing, every other id reads back what it did, and `count` drops by
      one. */
  lemma RemoveValid(ix: Index, id: Id)
    requires Valid(ix)
    ensures Valid(Remove(ix, id).0)
    ensures Remove(ix, id).1 <==> Get(ix, id).Some?
    ensures Get(Remove(ix, id).0, id).None?
    ensures forall x :: x != id ==> Get(Remove(ix, id).0, x) == Get(ix, x)
    ensures Remove(ix, id).1 ==> Remove(ix, id).0.count + 1 == ix.count
  {
    var r := Remove(ix, id).0;
    if id != 0 {
      var slot := Find(ix.ids, id);
      if slot < |ix.ids| {
        UsedUpdate(ix.ids, slot, 0);
        assert forall j :: 0 <= j < |r.ids| ==> r.ids[j] != id;
        forall x | x != id ensures Get(r, x) == Get(ix, x) {
          if x != 0 && Find(ix.ids, x) < |ix.ids| {
            FindStored(r.ids, x, Find(ix.ids, x));
          }
        }
      }
    }
  }

  /** A fresh index is valid and stores nothing. */
  lemma CreateValid(dimension: U64, capacity: U64)
    requires dimension > 0 && capacity > 0
    ensures Valid(Create(dimension, capacity).value)
    ensures forall x :: Get(Create(dimension, capacity).value, x).None?
    ensures Create(dimension, capacity).value.count == 0
  {
    var ix := Create(dimension, capacity).value;
    UsedZero(ix.ids);
  }

  lemma {:induction false} UsedZero(ids: seq<Id>)
    requires forall i :: 0 <= i < |ids| ==> ids[i] == 0
    ensures Used(ids) == 0
    decreases |ids|
  {
    if |ids| > 0 {
      UsedZero(ids[..|ids| - 1]);
    }
  }

  // ---------------------------------------------------------------------------------------
  // Nearest neighbours

  /** The exact squared Euclidean distance between two vectors of the same length. */
  function SqDist(v: seq<int>, q: seq<int>): (r: nat)
    requires |v| == |q|
    ensures r == 0 <==> v == q
  {
    if |v| == 0 then 0
    else
      var n := |v| - 1;
      var diff := v[n] - q[n];
      var rest := SqDist(v[..n], q[..n]);
      assert v == q <==> v[..n] == q[..n] && v[n] == q[n] by {
        if v[..n] == q[..n] && v[n] == q[n] {
          assert v == v[..n] + [v[n]] && q == q[..n] + [q[n]];
        }
      }
      rest + diff * diff
  }

  datatype Candidate = Candidate(id: Id, distance: nat)

  /** `nty_candidate_cmp`: by distance, then by id; 0 only for equal candidates. */
  function Cmp(a: Candidate, b: Candidate): (r: int)
    ensures r == 0 <==> a == b
    ensures r in {-1, 0, 1}
  {
    if a.distance < b.distance then -1
    else if a.distance > b.distance then 1
    else if a.id < b.id then -1
    else if a.id > b.id then 1
    else 0
  }

  /** Swapping the arguments negates the comparison. */
  lemma CmpAntisymmetric(a: Candidate, b: Candidate)
    ensures Cmp(a, b) == -Cmp(b, a)
  {
  }

  /** The comparison is a total order. */
  lemma CmpTransitive(a: Candidate, b: Candidate, c: Candidate)
    requires Cmp(a, b) <= 0 && Cmp(b, c) <= 0
    ensures Cmp(a, c) <= 0
  {
  }

  /** Ordered by `Cmp`, ties included. */
  ghost predicate Sorted(s: seq<Candidate>)
  {
    forall i, j :: 0 <= i < j < |s| ==> Cmp(s[i], s[j]) <= 0
  }

  /** The candidate list of the query: one entry per occupied slot among the first `n`, in
      slot order, as the scan of `nty_vector_index_knn` fills its buffer. */
  function Scan(ix: Index, q: seq<int>, n: nat): (r: seq<Candidate>)
    requires Shaped(ix) && |q| == ix.dimension && n <= ix.capacity
    ensures |r| == Used(ix.ids[..n])
  {
    if n == 0 then []
    else
      assert ix.ids[..n][..n - 1] == ix.ids[..n - 1];
      var rest := Scan(ix, q, n - 1);
      if ix.ids[n - 1] == 0 then rest
      else rest + [Candidate(ix.ids[n - 1], SqDist(ix.data[n - 1], q))]
  }

  function Candidates(ix: Index, q: seq<int>): seq<Candidate>
    requires Shaped(ix) && |q| == ix.dimension
  {
    Scan(ix, q, ix.capacity)
  }

  /** Insert before the first candidate that does not order before `c`. */
  function Insert(c: Candidate, s: seq<Candidate>): (r: seq<Candidate>)
    ensures multiset(r) == multiset(s) + multiset{c}
  {
    if |s| == 0 then [c]
    else if Cmp(c, s[0]) <= 0 then [c] + s
    else
      assert s == [s[0]] + s[1..];
      [s[0]] + Insert(c, s[1..])
  }

  /** Inserting into a sorted list keeps it sorted. */
  lemma {:induction false} InsertSorted(c: Candidate, s: seq<Candidate>)
    requires Sorted(s)
    ensures Sorted(Insert(c, s))
    decreases |s|
  {
    if |s| > 0 {
      if Cmp(c, s[0]) <= 0 {
        forall j | 0 <= j < |s| ensures Cmp(c, s[j]) <= 0 {
          if j > 0 { CmpTransitive(c, s[0], s[j]); }
        }
        SortedCons(c, s);
      } else {
        var t := Insert(c, s[1..]);
        InsertSorted(c, s[1..]);
        CmpAntisymmetric(c, s[0]);
        forall j | 0 <= j < |t| ensures Cmp(s[0], t[j]) <= 0 {
          assert t[j] in multiset(t);
          if t[j] != c {
            assert t[j] in multiset(s[1..]);
            var k :| 0 <= k < |s[1..]| && s[1..][k] == t[j];
            assert s[k + 1] == t[j];
          }
        }
        SortedCons(s[0], t);
      }
    }
  }

  /** A sorted list stays sorted under a head that orders before all of it. */
  lemma SortedCons(x: Candidate, t: seq<Candidate>)
    requires Sorted(t) && forall j :: 0 <= j < |t| ==> Cmp(x, t[j]) <= 0
    ensures Sorted([x] + t)
  {
    var r := [x] + t;
    forall i, j | 0 <= i < j < |r| ensures Cmp(r[i], r[j]) <= 0 {
      assert r[j] == t[j - 1];
      if i > 0 { assert r[i] == t[i - 1]; }
    }
  }

  /** A sorted permutation of `s`; `qsort` with `nty_candidate_cmp`. */
  function Sort(s: seq<Candidate>): (r: seq<Candidate>)
    ensures multiset(r) == multiset(s)
  {
    if |s| == 0 then []
    else
      assert s == s[..|s| - 1] + [s[|s| - 1]];
      Insert(s[|s| - 1], Sort(s[..|s| - 1]))
  }

  /** The sort orders its result. */
  lemma {:induction false} SortSorted(s: seq<Candidate>)
    ensures Sorted(Sort(s))
    decreases |s|
  {
    if |s| > 0 {
      SortSorted(s[..|s| - 1]);
      InsertSorted(s[|s| - 1], Sort(s[..|s| - 1]));
    }
  }

  /** `nty_vector_index_knn`: the first `min(k, count)` candidates in `Cmp` order, none for
      `k == 0`. */
  function Knn(ix: Index, q: seq<int>, k: nat): seq<Candidate>
    requires Shaped(ix) && |q| == ix.dimension
  {
    if k == 0 then []
    else
      var sorted := Sort(Candidates(ix, q));
      sorted[..Min(k, |sorted|)]
  }

  // ---------------------------------------------------------------------------------------
  // Properties of the query

  /** The head of a sorted list orders before every element of the list. */
  lemma SortedHead(a: seq<Candidate>, x: Candidate)
    requires Sorted(a) && x in multiset(a)
    ensures Cmp(a[0], x) <= 0
  {
    var i :| 0 <= i < |a| && a[i] == x;
    if i > 0 { assert Cmp(a[0], a[i]) <= 0; }
  }

  /** Dropping the head of both sides of a multiset equality with equal heads. */
  lemma TailsSame(a: seq<Candidate>, b: seq<Candidate>)
    requires |a| > 0 && |b| > 0 && a[0] == b[0] && multiset(a) == multiset(b)
    ensures multiset(a[1..]) == multiset(b[1..])
  {
    assert a == [a[0]] + a[1..] && b == [b[0]] + b[1..];
    assert multiset(a[1..]) == multiset(a) - multiset{a[0]};
    assert multiset(b[1..]) == multiset(b) - multiset{b[0]};
  }

  /** Two sorted permutations of the same candidates are equal: the order does not depend on
      the sorting algorithm, since `Cmp` ties only equal candidates. */
  lemma {:induction false} SortedUnique(a: seq<Candidate>, b: seq<Candidate>)
    requires Sorted(a) && Sorted(b) && multiset(a) == multiset(b)
    ensures a == b
    decreases |a|
  {
    assert |a| == |multiset(a)| == |multiset(b)| == |b|;
    if |a| > 0 {
      assert a[0] in multiset(b) && b[0] in multiset(a);
      SortedHead(b, a[0]);
      SortedHead(a, b[0]);
      CmpAntisymmetric(a[0], b[0]);
      TailsSame(a, b);
      SortedUnique(a[1..], b[1..]);
      assert a == [a[0]] + a[1..] && b == [b[0]] + b[1..];
    }
  }

  /** The scan makes one candidate per stored id, with that id's distance to the query, and
      on a valid index exactly `count` of them, so the `count`-sized buffer suffices. */
  lemma {:induction false} ScanFacts(ix: Index, q: seq<int>, n: nat)
    requires Shaped(ix) && |q| == ix.dimension && n <= ix.capacity
    ensures forall c :: c in Scan(ix, q, n) <==>
      exists i :: 0 <= i < n && ix.ids[i] != 0 && c == Candidate(ix.ids[i], SqDist(ix.data[i], q))
    decreases n
  {
    if n > 0 {
      ScanFacts(ix, q, n - 1);
    }
  }

  /** With no id stored twice, the scan makes no candidate twice. */
  lemma {:induction false} ScanDistinct(ix: Index, q: seq<int>, n: nat)
    requires Shaped(ix) && |q| == ix.dimension && n <= ix.capacity && UniqueIds(ix.ids)
    ensures Distinct(Scan(ix, q, n))
    decreases n
  {
    if n > 0 {
      ScanDistinct(ix, q, n - 1);
      if ix.ids[n - 1] != 0 {
        ScanFacts(ix, q, n - 1);
        var rest := Scan(ix, q, n - 1);
        var c := Candidate(ix.ids[n - 1], SqDist(ix.data[n - 1], q));
        assert forall i :: 0 <= i < n - 1 ==> ix.ids[i] != ix.ids[n - 1];
        assert c !in rest;
        forall i, j | 0 <= i < j < |rest| + 1 ensures (rest + [c])[i] != (rest + [c])[j] {
          if j == |rest| { assert (rest + [c])[i] == rest[i]; }
        }
      }
    }
  }

  /** On a valid index the candidates are exactly the stored ids, each with its distance to
      the query, one per id: `count` of them, so the `count`-sized buffer suffices. */
  lemma CandidatesStored(ix: Index, q: seq<int>)
    requires Valid(ix) && |q| == ix.dimension
    ensures |Candidates(ix, q)| == ix.count
    ensures Distinct(Candidates(ix, q))
    ensures forall c :: c in Candidates(ix, q) <==>
      Get(ix, c.id).Some? && c.distance == SqDist(Get(ix, c.id).value, q)
  {
    assert ix.ids[..ix.capacity] == ix.ids;
    ScanFacts(ix, q, ix.capacity);
    ScanDistinct(ix, q, ix.capacity);
    forall c ensures c in Candidates(ix, q) <==>
      Get(ix, c.id).Some? && c.distance == SqDist(Get(ix, c.id).value, q)
    {
      if c in Candidates(ix, q) {
        var i :| 0 <= i < ix.capacity && ix.ids[i] != 0 && c == Candidate(ix.ids[i], SqDist(ix.data[i], q));
        FindStored(ix.ids, c.id, i);
      }
      if Get(ix, c.id).Some? && c.distance == SqDist(Get(ix, c.id).value, q) {
        var i := Find(ix.ids, c.id);
        assert c == Candidate(ix.ids[i], SqDist(ix.data[i], q));
      }
    }
  }

  /** Every candidate after position `|p|` of a sorted list orders after every one in its
      prefix `p`. */
  lemma PrefixBefore(all: seq<Candidate>, n: nat)
    requires Sorted(all) && n <= |all|
    ensures Sorted(all[..n]) && forall c :: c in all[..n] ==> c in all
    ensures forall c, x :: c in all && c !in all[..n] && x in all[..n] ==> Cmp(x, c) < 0
  {
    forall c, x | c in all && c !in all[..n] && x in all[..n] ensures Cmp(x, c) < 0 {
      var j :| 0 <= j < |all| && all[j] == c;
      var i :| 0 <= i < n && all[..n][i] == x;
      assert all[i] == x;
    }
  }

  /** What the query returns on a valid index: `min(k, count)` candidates in `Cmp` order, each
      a stored id with its distance; any candidate left out orders after every one returned;
      and the result is the same prefix whichever algorithm sorted the candidates. */
  lemma KnnSpec(ix: Index, q: seq<int>, k: nat, sorted: seq<Candidate>)
    requires Valid(ix) && |q| == ix.dimension
    requires Sorted(sorted) && multiset(sorted) == multiset(Candidates(ix, q))
    ensures |sorted| == ix.count
    ensures |Knn(ix, q, k)| == Min(k, ix.count)
    ensures Knn(ix, q, k) == sorted[..|Knn(ix, q, k)|]
    ensures Sorted(Knn(ix, q, k))
    ensures forall c :: c in Knn(ix, q, k) ==> c in Candidates(ix, q)
    ensures forall c, r :: c in Candidates(ix, q) && c !in Knn(ix, q, k) && r in Knn(ix, q, k) ==>
      Cmp(r, c) < 0
  {
    var cands := Candidates(ix, q);
    var all := Sort(cands);
    SortFacts(cands);
    SortedUnique(all, sorted);
    CandidatesStored(ix, q);
    var n := if k == 0 then 0 else Min(k, |all|);
    assert Knn(ix, q, k) == all[..n];
    PrefixBefore(all, n);
  }

  /** The query depends only on what is stored, not on the order it was stored in: two valid
      indexes that answer `Get` alike for every id, whichever slots the ids landed in, give
      the same kNN result for every query. */
  lemma KnnInsertionOrderFree(a: Index, b: Index, q: seq<int>, k: nat)
    requires Valid(a) && Valid(b) && a.dimension == b.dimension && |q| == a.dimension
    requires forall id :: Get(a, id) == Get(b, id)
    ensures Knn(a, q, k) == Knn(b, q, k)
  {
    var ca, cb := Candidates(a, q), Candidates(b, q);
    CandidatesStored(a, q);
    CandidatesStored(b, q);
    forall x: Candidate ensures multiset(ca)[x] == multiset(cb)[x] {
      assert Get(a, x.id) == Get(b, x.id);
      DistinctCount(ca, x);
      DistinctCount(cb, x);
    }
    assert multiset(ca) == multiset(cb);
    SortSorted(ca);
    SortSorted(cb);
    SortedUnique(Sort(ca), Sort(cb));
  }

  /** The sort orders its input and keeps its length and its elements. */
  lemma SortFacts(s: seq<Candidate>)
    ensures Sorted(Sort(s)) && |Sort(s)| == |s|
    ensures forall c :: c in Sort(s) <==> c in s
  {
    SortSorted(s);
    var r := Sort(s);
    assert |r| == |multiset(r)| == |multiset(s)| == |s|;
    forall c ensures c in r <==> c in s {
      assert c in r <==> c in multiset(r);
      assert c in s <==> c in multiset(s);
    }
  }

  // ---------------------------------------------------------------------------------------
  // The scenarios of the vector test suite

  /** Storing a second vector under the same id replaces the first. */
  lemma SetGetUpdate()
    ensures var ix := Create(3, 4).value;
      var ix1 := Set(ix, 10, [1, 2, 3]);
      var ix2 := Set(ix1.0, 10, [4, 5, 6]);
      ix1.1 && ix2.1 && Get(ix2.0, 10) == Some([4, 5, 6]) && ix2.0.count == 1
  {
    var ix := Create(3, 4).value;
    CreateValid(3, 4);
    SetValid(ix, 10, [1, 2, 3]);
    SetValid(Set(ix, 10, [1, 2, 3]).0, 10, [4, 5, 6]);
  }

  /** The index built by the tie-break scenario, after `n` of its three stores. */
  function TieBreakIndex(n: nat): (ix: Index)
    requires n <= 3
    ensures Shaped(ix) && ix.dimension == 2
  {
    if n == 0 then Create(2, 4).value
    else if n == 1 then Set(TieBreakIndex(0), 1, [0, 0]).0
    else if n == 2 then Set(TieBreakIndex(1), 3, [1, 0]).0
    else Set(TieBreakIndex(2), 2, [-1, 0]).0
  }

  /** The scenario's index stays valid. */
  lemma TieBreakValid(n: nat)
    requires n <= 3
    ensures Valid(TieBreakIndex(n))
  {
    if n == 0 {
      CreateValid(2, 4);
    } else {
      TieBreakValid(n - 1);
      var v := if n == 1 then [0, 0] else if n == 2 then [1, 0] else [-1, 0];
      SetValid(TieBreakIndex(n - 1), if n == 1 then 1 else if n == 2 then 3 else 2, v);
    }
  }

  /** The slots the scenario's three stores fill. */
  lemma TieBreakSlots()
    ensures TieBreakIndex(3).ids == [1, 3, 2, 0]
    ensures TieBreakIndex(3).data[..3] == [[0, 0], [1, 0], [-1, 0]]
  {
    assert TieBreakIndex(0).ids == [0, 0, 0, 0];
    assert FindFrom([0, 0, 0, 0], 1, 3) == 4;
    assert TieBreakIndex(1).ids == [1, 0, 0, 0] && TieBreakIndex(1).data[0] == [0, 0];
    assert FindFrom([1, 0, 0, 0], 3, 2) == 4;
    assert FindFrom([1, 0, 0, 0], 0, 0) == 1;
    assert TieBreakIndex(2).ids == [1, 3, 0, 0] && TieBreakIndex(2).data[..2] == [[0, 0], [1, 0]];
    assert FindFrom([1, 3, 0, 0], 2, 2) == 4;
    assert FindFrom([1, 3, 0, 0], 0, 1) == 2;
  }

  /** The candidates of an index whose slots hold what the scenario stores. */
  lemma TieBreakScan(ix: Index)
    requires Shaped(ix) && ix.dimension == 2 && ix.ids == [1, 3, 2, 0]
    requires ix.data[..3] == [[0, 0], [1, 0], [-1, 0]]
    ensures Candidates(ix, [0, 0]) == [Candidate(1, 0), Candidate(3, 1), Candidate(2, 1)]
  {
    assert ix.data[0] == [0, 0] && ix.data[1] == [1, 0] && ix.data[2] == [-1, 0];
    assert SqDist([1, 0], [0, 0]) == 1 && SqDist([-1, 0], [0, 0]) == 1;
    assert Scan(ix, [0, 0], 1) == [Candidate(1, 0)];
    assert Scan(ix, [0, 0], 2) == [Candidate(1, 0), Candidate(3, 1)];
    assert Scan(ix, [0, 0], 3) == [Candidate(1, 0), Candidate(3, 1), Candidate(2, 1)];
  }

  /** The scenario's candidates, in slot order. */
  lemma TieBreakCandidates()
    ensures Candidates(TieBreakIndex(3), [0, 0]) == [Candidate(1, 0), Candidate(3, 1), Candidate(2, 1)]
  {
    TieBreakSlots();
    TieBreakScan(TieBreakIndex(3));
  }

  /** The expected answer is ordered and holds the scenario's three candidates. */
  lemma TieBreakExpected(c: seq<Candidate>)
    requires c == [Candidate(1, 0), Candidate(3, 1), Candidate(2, 1)]
    ensures var expected := [Candidate(1, 0), Candidate(2, 1), Candidate(3, 1)];
      Sorted(expected) && multiset(expected) == multiset(c)
  {
  }

  /** The scenario's candidates in `Cmp` order: the tie at distance 1 goes to the smaller id. */
  lemma TieBreakOrder()
    ensures var expected := [Candidate(1, 0), Candidate(2, 1), Candidate(3, 1)];
      Sorted(expected) && multiset(expected) == multiset(Candidates(TieBreakIndex(3), [0, 0]))
  {
    TieBreakCandidates();
    TieBreakExpected(Candidates(TieBreakIndex(3), [0, 0]));
  }

  /** Three vectors, two at the same distance from the query: the tie is broken by id. */
  lemma KnnTieBreak()
    ensures Knn(TieBreakIndex(3), [0, 0], 3) == [Candidate(1, 0), Candidate(2, 1), Candidate(3, 1)]
  {
    TieBreakValid(3);
    TieBreakOrder();
    KnnSpec(TieBreakIndex(3), [0, 0], 3, [Candidate(1, 0), Candidate(2, 1), Candidate(3, 1)]);
  }

  /** A removed id reads back nothing and is no longer counted. */
  lemma RemoveScenario()
    ensures var ix := Create(2, 4).value;
      var ix1 := Set(ix, 42, [1, 2]).0;
      var ix2 := Remove(ix1, 42);
      ix1.count == 1 && ix2.1 && ix2.0.count == 0 && Get(ix2.0, 42).None?
  {
    var ix := Create(2, 4).value;
    CreateValid(2, 4);
    SetValid(ix, 42, [1, 2]);
    RemoveValid(Set(ix, 42, [1, 2]).0, 42);
  }
}
